=== FILE: README.md ===
# Device telemetry backend: connection hub, sessions, record store and upload rules

This project models the core of a FastAPI backend that Android devices talk to.
Devices open a WebSocket, register, and then stream camera frames, location fixes,
system information and pings. Admin dashboards open their own WebSocket, receive
the list of sessions, and send commands to devices. Devices can also upload over
REST: either authenticated by a device token (query parameter or `Authorization:
Bearer` header) or "no-token", which auto-provisions the device from its UUID.

The model is purely functional: one immutable `Hub.World` holds four parts.
- The hub's live device connections (a map by device id) and its admin sockets (a set).
- The session registry: a `DeviceSession` per device id, in insertion order, never deleted.
- The record store: device profiles by UUID, plus append-only tables of frames, locations and events.
- An outbox: every message sent and every close frame, in order.

Each operation is a transition over that state. What the outside world decides
comes in as a parameter `Hub.Env`:
- the clock;
- which sockets fail when written to;
- whether the database is reachable;
- the token the generator would return;
- the result of base64 decoding.

An operation that raises returns the state it reached together with a `raised`
flag. Python keeps the mutations made before an exception, so the model does too.

Modules, one per source component:
- `Wrappers`, `Json`, `Text`, `Uuid`: Option/Result, Python values, the `str` methods used, and `uuid.UUID` parsing and printing.
- `Models`: the pydantic records of backend/models.py and how `Model(**d)` validates a dict.
- `RecordStore` and `Ordering`: `DatabaseStorage` over an abstract store, with SQL filter, descending order, offset and limit.
- `Sessions`: `SessionManager`.
- `Hub`: `WebSocketManager`, and the invariant `Hub.Valid` that every operation keeps.
- `Lifecycle`: the `/ws/device` and `/ws/admin` endpoints of backend/main.py as state machines over received frames.
- `RestRules` and `RestEndpoints`: the validators and payload shaping of backend/devices/api_router.py, with its upload endpoints and get-or-create.
- `DeviceApi`: the endpoints of backend/devices/device_api.py, which name the device in the path and authenticate by Bearer header.

Store failures follow the order the code meets them:
1. `uuid.UUID(device_id)` raises on a malformed id (`BadUuid`), before any database access.
2. An unreachable database fails next (`Unavailable`).
3. A primary-key, unique-token or foreign-key violation fails last (`Constraint`). A history query with a negative `limit` or `offset` is refused by PostgreSQL at this point (`NegativeBound`).

`RecordStore.Valid` states the key, uniqueness and foreign-key constraints of the
schema, which the database enforces: profiles keyed by their own id, unique tokens, and
rows that name a known device. Column widths and integer ranges are not part of it
(see "## Left out"). REST endpoints take it as a precondition, and every operation preserves it.

Where the code and its documentation disagree, the model follows the code. The
WebSocket `location_update` path stores coordinates without any range check. `ping`
refreshes the connection's `last_seen`, not the session's. The device-path
`/location` endpoint has no range check either. In `/camera-frame`, a `data:image`
value keeps only the second comma-separated field (`split(",")[1]`), not everything
after the first comma.

Two defects of the code are recorded under "## Findings", each with a member that
models it as written. Everything else uses the corrected behaviour. `Hub` and
`Lifecycle` send sessions in a JSON-encodable form. The no-token endpoints of
`RestEndpoints` use the corrected get-or-create, which refuses a non-UUID id with 400.

## Model

| member | source | states |
|---|---|---|
| Hub.Broadcast | backend/websocket/handler.py:267-280 | every admin except `exclude` is tried; exactly the admins whose send fails (broken socket or a message `json.dumps` refuses) leave the set; the others and `exclude` stay; one outbox entry goes to exactly the delivered admins; devices, sessions and store are untouched |
| Hub.ConnectAdmin | backend/websocket/handler.py:74-84 | corrected (see Findings): sessions are sent JSON-encodable; the socket joins the admin set even when the send fails; it receives one `device_list`; it raises exactly when its own send fails; nothing else changes |
| Hub.DisconnectAdmin | backend/websocket/handler.py:88-91 | removes the socket from the admin set and changes nothing else |
| Hub.DisconnectAdminIdempotent | backend/websocket/handler.py:88-90 | disconnecting an admin twice equals disconnecting once |
| Hub.ConnectDevice | backend/websocket/handler.py:31-46 | corrected (see Findings): the session is broadcast JSON-encodable; registers the session; a registration that raises stores no connection and broadcasts nothing; otherwise the connection is stored under `device_info.id`, replacing any earlier one, and exactly one `device_connected` goes to the admins that can receive it |
| Hub.DisconnectDevice | backend/websocket/handler.py:57-72 | an absent id changes nothing; for a connected id the connection is removed, the session goes offline, one `device_disconnected` is broadcast and one `disconnected` event is logged; only the logging step can raise |
| Hub.DisconnectDeviceIdempotent | backend/websocket/handler.py:57-59 | a second disconnect of the same id is a no-op, so twice ends where once does |
| Hub.DisconnectKeepsOthersOnline | backend/websocket/handler.py:59-62 | after a disconnect, every remaining connection still has an online session and a stored profile |
| Hub.HandleDeviceMessage | backend/websocket/handler.py:93-113 | `camera_frame`, `location_update`, `system_info` and `ping` each run exactly their own handler; any other tag, or none, leaves the world unchanged |
| Hub.OnPing | backend/websocket/handler.py:103-106 | only the existing connection's `last_seen` moves; session, store, admins and outbox are untouched, and an unknown id changes nothing |
| Hub.OnCameraFrame | backend/websocket/handler.py:115-166 | a message that fails validation, or base64 that fails to decode, changes nothing; on a saved frame the session's camera is set and the broadcast is the frame's metadata; a failed save changes nothing |
| Hub.FrameNotice | backend/websocket/handler.py:145-152 | the frame broadcast holds exactly `type`, `device_id`, `camera`, `timestamp`, `width` and `height`, never the image data, and is JSON-serializable |
| Hub.OnLocationUpdate | backend/websocket/handler.py:168-207 | a valid fix is stored with no range check, set as the session's location and broadcast; a failed parse or save changes nothing |
| Hub.LocationNotice | backend/websocket/handler.py:188-192 | the location broadcast is JSON-serializable |
| Hub.OnSystemInfo | backend/websocket/handler.py:209-246 | the session's battery becomes `data["battery_level"]` (None when absent) before logging; a failed log keeps that session change but sends nothing; a successful one logs the event and broadcasts one `device_update` |
| Hub.SendCommand | backend/websocket/handler.py:248-265 | an unconnected id, or a send that raises, gives false with no message and no event; a delivered command always adds exactly one `command` message to that device's socket; true iff the `command_sent` event is then logged, and the store is then exactly the store with that event appended; false leaves the store as it was, including a delivered command whose logging failed |
| Hub.DeliveredButUnlogged | backend/websocket/handler.py:253-265 | one `try` covers the send and the log, so a delivered command whose event cannot be logged answers false with the message already sent and the store unchanged |
| Hub.GetActiveDevices | backend/websocket/handler.py:286-288 | lists exactly the connected ids |
| Hub.GetStats | backend/main.py:46-54 | `total_devices` and `online_devices` both equal the number of live connections; `admin_connections` counts admin sockets |
| Hub.DeviceDisconnected | backend/websocket/handler.py:65-68 | the disconnect notice is JSON-serializable |
| Hub.DeviceConnectedAsWritten | backend/websocket/handler.py:43-46 | the notice built from `session.dict()` carries datetimes and is never JSON-serializable |
| Hub.ConnectDeviceAsWritten | backend/websocket/handler.py:31-46 | as written, a successful connect empties the admin set, because every admin's send of the notice fails |
| Hub.ConnectAdminAsWritten | backend/websocket/handler.py:74-84 | as written, `connect_admin` raises whenever any session exists |
| Hub.DeviceListAsWrittenFails | backend/websocket/handler.py:80-84 | the as-written `device_list` is not JSON-serializable once the registry is non-empty |
| Hub.SessionWire | backend/websocket/handler.py:45 | the corrected session payload, with timestamps as milliseconds, is always JSON-serializable |
| Json.Encode | backend/websocket/handler.py:43-46 | rendering datetimes as milliseconds makes any value acceptable to `json.dumps` |
| Json.EncodeKeepsSerializable | backend/websocket/handler.py:43-46 | a value `json.dumps` already accepts is left unchanged by the encoding |
| Hub.DeviceConnected | backend/websocket/handler.py:43-46 | the corrected `device_connected` notice is JSON-serializable |
| Hub.DeviceList | backend/websocket/handler.py:80-84 | the corrected `device_list` is JSON-serializable |
| Hub.EncodedSessionsReachAdmins | backend/websocket/handler.py:43-46 | with the corrected payload, a connect keeps every admin whose socket works |
| Hub.InitialValid | backend/websocket/handler.py:27-29 | the empty hub satisfies the invariant: each connection is keyed by its own id, has an online session and names a stored device |
| Hub.ConnectDeviceKeepsValid | backend/websocket/handler.py:36-40 | connecting a device preserves the invariant |
| Hub.DisconnectDeviceKeepsValid | backend/websocket/handler.py:57-72 | disconnecting a device preserves the invariant |
| Hub.AdminStepsKeepValid | backend/websocket/handler.py:74-90 | admin connect and disconnect preserve the invariant |
| Hub.FrameKeepsValid | backend/websocket/handler.py:115-166 | the camera-frame handler preserves the invariant |
| Hub.LocationKeepsValid | backend/websocket/handler.py:168-207 | the location handler preserves the invariant |
| Hub.SystemInfoKeepsValid | backend/websocket/handler.py:209-246 | the system-info handler preserves the invariant |
| Hub.PingKeepsValid | backend/websocket/handler.py:103-106 | a `ping` preserves the invariant |
| Hub.OnPingKeepsValid | backend/websocket/handler.py:103-106 | refreshing `last_seen` preserves the invariant |
| Hub.HandleKeepsValid | backend/websocket/handler.py:93-113 | every device message, whatever its tag, preserves the invariant |
| Hub.HandleKeepsConnections | backend/websocket/handler.py:93-113 | message handling never adds or drops a connection, nor changes its socket or id |
| Hub.SendCommandKeepsValid | backend/websocket/handler.py:248-265 | sending a command preserves the invariant |
| Hub.ConnectedFrameIsStored | backend/websocket/handler.py:129-142 | for a connected device with the database up, a decodable frame is always stored and sets the session's camera |
| Lifecycle.Cleanup | backend/main.py:86-92 | `disconnect_device` runs only when an id was bound and is non-empty; otherwise nothing changes |
| Lifecycle.Handshake | backend/main.py:62-78 | streaming starts only after a `register` dict whose `device_info` validates, bound to that id, with the device connected |
| Lifecycle.DeviceStep | backend/main.py:81-92 | while streaming, each dict goes to `handle_device_message` in receive order; a close, an undecodable frame or a non-dict ends the loop through the cleanup path; a finished endpoint ignores frames |
| Lifecycle.FinishedStaysFinished | backend/main.py:81-92 | once the endpoint has finished, further frames have no effect |
| Lifecycle.NotRegisterIsClosed | backend/main.py:66-71 | a first message of another type closes with 1008, never connects, and nothing after it has any effect |
| Lifecycle.UnboundFailureHasNoEffect | backend/main.py:86-92 | a failure before an id is bound leaves the world exactly as it was |
| Lifecycle.HandshakeKeepsValid | backend/main.py:62-78 | the handshake preserves the hub invariant, and a streaming endpoint's id is connected through its own socket |
| Lifecycle.RegisterStepKeepsValid | backend/main.py:74-78 | connect-or-clean-up after a valid `register` preserves the invariant |
| Lifecycle.StreamMessageKeepsValid | backend/main.py:81-84 | handling a streamed message keeps the invariant and the endpoint's own connection |
| Lifecycle.StreamStepKeepsValid | backend/main.py:81-92 | one streaming step preserves the invariant |
| Lifecycle.CleanupKeepsValid | backend/main.py:86-92 | the cleanup path preserves the invariant |
| Lifecycle.StepKeepsValid | backend/main.py:81-92 | any step of the device endpoint preserves the invariant |
| Lifecycle.RunKeepsValid | backend/main.py:81-92 | a whole run over any frame sequence preserves the invariant |
| Lifecycle.StaleCleanupDropsNewerConnection | backend/main.py:86-88 | the cleanup of a stale socket removes whichever connection is currently registered under the id |
| Lifecycle.AdminOpen | backend/main.py:101-108 | corrected (see Findings), through `Hub.ConnectAdmin`: a rejected token closes with 1008 before `connect_admin`; otherwise the admin serves exactly when its first send works, and membership matches the phase |
| Lifecycle.AdminStep | backend/main.py:111-131 | a gone endpoint ignores frames; serving leaves the admin set alone; every way out goes through `disconnect_admin` |
| Lifecycle.CommandIsForwarded | backend/main.py:116-125 | a `command` message naming a device is forwarded to `send_command`, with `data` defaulting to `{}` |
| Lifecycle.AdminMembership | backend/main.py:107-131 | over any frame sequence, a serving admin is in the set and a gone one is not |
| Lifecycle.AdminEndpoint | backend/main.py:101-131 | a rejected token never joins the admin set, and an endpoint that has ended is not in it |
| Lifecycle.GoneStaysGone | backend/main.py:127-131 | after `disconnect_admin`, further frames have no effect |
| Sessions.Put | backend/devices/manager.py:50-66 | stores the session; a new id goes to the end of the iteration order and an existing one keeps its place |
| Sessions.PutKeepsValid | backend/devices/manager.py:50-66 | storing a session under its own id keeps the registry well formed |
| Sessions.SaveProfile | backend/devices/manager.py:19-45 | upserting the profile keeps the store valid and leaves the frame, location and event tables untouched; when it goes ahead only the device's own profile changes, and its columns are the info's, with `update_device`'s rule that a missing imei keeps the stored one |
| Sessions.RegisterDevice | backend/devices/manager.py:15-71 | succeeds iff the id is a UUID, the database is up, and the device is known or the token is free; on failure nothing changes; on success only the registered profile changes (`devices == old[u := p]`); its name, model, manufacturer, Android version and sdk are the info's and `last_seen` is now; `imei` is the info's, except that a known device keeps its stored imei when the info has none; a known profile keeps its token, `created_at` and `is_active`; a first registration yields a fresh session; a re-registration refreshes `last_activity`, `is_online` and the name and keeps the rest; exactly one `connected` event carrying the info dict is appended and the other tables are untouched |
| Sessions.RegisterKeepsValid | backend/devices/manager.py:15-71 | registration keeps both the registry and the store well formed |
| Sessions.RegisterKeepsRegistryValid | backend/devices/manager.py:47-66 | the create-or-refresh step keeps the registry well formed |
| Sessions.RegisterTwice | backend/devices/manager.py:50-54 | registering again keeps the first token and `connected_at`, refreshes `last_activity` and adds no session |
| Sessions.DisconnectDevice | backend/devices/manager.py:73-76 | only `is_online` of that session becomes false; nothing is removed, and an unknown id changes nothing |
| Sessions.DisconnectIdempotent | backend/devices/manager.py:73-76 | disconnecting twice equals disconnecting once |
| Sessions.GetDevice | backend/devices/manager.py:78-80 | returns the session iff one is stored under the id |
| Sessions.GetAllDevices | backend/devices/manager.py:82-84 | returns every session, online or not, in registration order |
| Sessions.GetOnlineDevices | backend/devices/manager.py:86-88 | returns only online sessions, all drawn from the full list |
| Sessions.ListsAgree | backend/devices/manager.py:82-88 | each stored session is in the full list, and in the online list exactly when it is online |
| Sessions.DisconnectKeepsSession | backend/devices/manager.py:73-88 | a disconnected session is still found and listed, but no longer listed as online |
| Sessions.UpdateDeviceData | backend/devices/manager.py:90-102 | no-op without a session; otherwise refreshes `last_activity` and overwrites only the supplied `battery_level`, `location` or `current_camera` |
| Sessions.UpdateDataKeepsValid | backend/devices/manager.py:90-102 | a data update keeps the registry well formed |
| Sessions.LocationColumns | backend/devices/manager.py:106-113 | the columns exist iff `lat` and `lon` are numbers, `accuracy` is a number or None, and `timestamp` is an integer or missing; they take `lat`, `lon` and `accuracy` from the dict, and the timestamp defaults to now only when the key is missing |
| Sessions.SaveSnapshot | backend/devices/manager.py:104-115 | succeeds iff the id is a UUID of a stored device, the database is up, and a `location` snapshot has valid location columns; a malformed id fails first, an unreachable database next; the new store is the old one plus one `<data_type>_update` event carrying the dict at now, plus one location row built from the dict exactly when the type is `location` |
| Sessions.SaveSnapshotKeepsValid | backend/devices/manager.py:104-115 | a snapshot keeps the table constraints |
| Models.ParseDeviceInfo | backend/models.py:7-15 | validation succeeds iff the value is a dict whose `id`, `name`, `model`, `manufacturer` and `android_version` are text, `sdk` an integer and `imei` text or None/missing; the record then agrees with the dict on every field, which is what `.dict()` prints |
| Models.ParseInfoDict | backend/models.py:7-15 | validating `device_info.dict()` gives the same record back |
| Models.DeviceInfoRequiredFields | backend/models.py:7-15 | dropping any of `id`, `name`, `model`, `manufacturer`, `android_version` or `sdk` fails validation; dropping `imei` yields `imei = None` |
| Models.NewSession | backend/models.py:18-31 | a new session copies the device info, sets `connected_at == last_activity == now`, and defaults camera `back`, no location, no battery, online |
| Models.SessionDictNotSerializable | backend/models.py:26-27 | `session.dict()` holds two datetimes, so `json.dumps` refuses it |
| Models.ParseLocationDict | backend/models.py:43-48 | `location.dict()` validates back to the same update; `accuracy` may be omitted; a non-integer timestamp is refused |
| Models.ParseCommand | backend/models.py:51-54 | `command` must be a string and `data` a dict; a missing `data` defaults to `{}` |
| RecordStore.Open | backend/storage/database.py:18-20 | the id is parsed as a UUID before the database is touched; a malformed id fails with that error whatever the database state |
| RecordStore.CreateDevice | backend/storage/database.py:16-42 | succeeds iff the id is a UUID, the database is up, the id is new and the token unused; the new profile is active, with `created_at` and `last_seen` set to now |
| RecordStore.CreateKeepsValid | backend/storage/database.py:16-42 | creating a device keeps the table constraints |
| RecordStore.GetDevice | backend/storage/database.py:44-50 | finds the profile iff its UUID is stored |
| RecordStore.GetDeviceByToken | backend/storage/database.py:52-58 | under the unique-token constraint the lookup never fails; it finds the device holding the token, or none when no device holds it |
| RecordStore.UpdateDevice | backend/storage/database.py:60-90 | an unknown id returns None and changes nothing; otherwise only the non-None fields overwrite, and `last_seen` is refreshed even with no fields |
| RecordStore.UpdateKeepsValid | backend/storage/database.py:60-90 | updating a device keeps the table constraints |
| RecordStore.ListDevices | backend/storage/database.py:92-96 | succeeds iff the database is up; the listed profiles are exactly the stored ones |
| RecordStore.SaveCameraFrame | backend/storage/database.py:98-129 | succeeds iff the id is a stored UUID and the database is up; exactly one frame row is appended, with the given fields |
| RecordStore.SaveFrameKeepsValid | backend/storage/database.py:98-129 | saving a frame keeps the table constraints |
| RecordStore.GetLatestFrame | backend/storage/database.py:131-143 | returns a frame of that device and camera with the greatest timestamp, or none when there is none |
| RecordStore.SavedFrameIsLatest | backend/storage/database.py:131-143 | a frame newer than every earlier one of its camera is what the latest-frame query returns |
| RecordStore.LatestOfAppended | backend/storage/database.py:131-143 | when the newest frame of a device and camera was appended last, the latest-frame query answers exactly it |
| RecordStore.GetFrameHistory | backend/storage/database.py:145-164 | `limit` defaults to 100 and `offset` to 0; succeeds iff the id is a UUID, the database is up and neither bound is negative, and a negative bound fails with `NegativeBound`; the answer is the page at `offset` of length at most `limit` of some newest-first ordering of exactly that device and camera's frames, each as often as stored |
| RecordStore.CleanupOldFrames | backend/storage/database.py:269-273 | leaves the frames as they are |
| RecordStore.SaveLocation | backend/storage/database.py:166-195 | succeeds iff the id is a stored UUID and the database is up; exactly one location row is appended |
| RecordStore.SaveLocationKeepsValid | backend/storage/database.py:166-195 | saving a location keeps the table constraints |
| RecordStore.GetLocationHistory | backend/storage/database.py:197-214 | `limit` defaults to 100 and `offset` to 0; succeeds iff the id is a UUID, the database is up and neither bound is negative, and a negative bound fails with `NegativeBound`; the answer is the page at `offset` of length at most `limit` of some newest-first ordering of exactly that device's fixes |
| RecordStore.LogDeviceEvent | backend/storage/database.py:216-243 | appends exactly one event; a missing or zero timestamp becomes now, and missing data becomes `{}` |
| RecordStore.LogKeepsValid | backend/storage/database.py:216-243 | logging an event keeps the table constraints |
| RecordStore.GetDeviceEvents | backend/storage/database.py:245-267 | `limit` defaults to 100 and `offset` to 0; succeeds iff the id is a UUID, the database is up and neither bound is negative, and a negative bound fails with `NegativeBound`; the answer is the page at `offset` of length at most `limit` of some newest-first ordering of exactly that device's events, restricted to one type only when a non-empty type is given |
| RecordStore.DefaultFramePage | backend/storage/database.py:145-164 | called without bounds, the frame history answers the newest 100 matches, or all of them when there are fewer |
| RecordStore.DefaultLocationPage | backend/storage/database.py:197-214 | called without bounds, the location history answers the newest 100 fixes, or all of them when there are fewer |
| RecordStore.DefaultEventPage | backend/storage/database.py:245-267 | called without bounds or a type, the event history answers the newest 100 events, or all of them when there are fewer |
| Ordering.Filter | backend/storage/database.py:136-139 | keeps exactly the rows matching the `where` clause: each matching row as often as the table holds it, and no other row |
| Ordering.SortDesc | backend/storage/database.py:160 | `order_by(desc(...))`: a descending permutation of its input |
| Ordering.Newest | backend/storage/database.py:140-141 | none iff no row matches; otherwise a matching row whose key no matching row exceeds |
| Ordering.MatchesAreSorted | backend/storage/database.py:140-141 | every matching row is in the sorted result and no greater than its head |
| Ordering.Page | backend/storage/database.py:161-162 | `limit` then `offset`: the rows from `offset` on, at most `limit` of them |
| Ordering.PagesCompose | backend/storage/database.py:161-162 | two consecutive pages make up the page of their combined size |
| Ordering.Query | backend/storage/database.py:154-164 | the result is the page at `offset`, at most `limit` long, of a descending ordering of exactly the matching rows (ties in any order), with the exact length the offset and limit leave |
| Ordering.QueryPagesCompose | backend/storage/database.py:154-164 | when no two matching rows share a key, fetching the page at `offset` of size `a` and then the page right after it of size `b` gives the page of size `a + b`, from `Query`'s contract alone: paging neither repeats nor skips a row |
| Ordering.OrderedMatchesUnique | backend/storage/database.py:154-164 | without ties, the matching rows have exactly one descending ordering |
| Ordering.SortedPermutationsAgree | backend/storage/database.py:154-164 | two descending orderings of the same rows agree when a key names one row |
| Ordering.TiedRowsLeaveOrderOpen | backend/storage/database.py:154-164 | with two matches sharing a key, both of their orders are valid descending orderings, so `ORDER BY timestamp DESC` does not fix the page |
| Uuid.Parse | backend/storage/database.py:20 | text shorter than 32 characters never parses; what parses is stated by `Uuid.ParseToString` and `Uuid.ParseBareDigits` |
| Uuid.ToString | backend/devices/device_api.py:140 | `str(uuid)` is 36 characters with hyphens at 8, 13, 18 and 23 |
| Uuid.ParseToString | backend/devices/device_api.py:140 | parsing the printed form of a UUID gives that UUID back |
| Uuid.ParseBareDigits | backend/storage/database.py:48 | 32 hex digits in either case parse to their lower-case UUID |
| Text.RemoveAll | backend/devices/device_api.py:21 | `replace(p, "")` never lengthens the text; what it deletes is stated by `Text.RemoveAllWholeCopies` and `Text.RemoveAllDeletesOnlyPattern` |
| Text.RemoveAllWholeCopies | backend/devices/device_api.py:21 | the deleted length is a whole number of pattern lengths |
| Text.RemoveAllDeletesOnlyPattern | backend/devices/device_api.py:21 | no character is added, and every character outside the pattern survives as often as it occurs |
| Text.RemoveAllLeading | backend/devices/device_api.py:21 | a leading copy of the pattern is deleted and the scan resumes after it |
| Text.StripChars | backend/devices/device_api.py:21 | the stripped text has no stripped character at either end |
| Text.StripCharsFixed | backend/devices/device_api.py:21 | text with no stripped character at either end is its own strip |
| Text.Lower | backend/devices/api_router.py:1153 | lower-cases each ASCII letter, keeps every other character, and keeps the length |
| Text.Split | backend/devices/device_api.py:223 | the pieces contain no separator; text without one is a single piece |
| Text.JoinSplit | backend/devices/device_api.py:223 | joining the split pieces gives the text back |
| Text.SplitJoinedPair | backend/devices/device_api.py:223 | two separator-free pieces joined by one separator split back into those two |
| RestRules.CheckCamera | backend/devices/api_router.py:148-149 | accepted iff the camera is `front` or `back`; otherwise 400 |
| RestRules.CheckJpeg | backend/devices/api_router.py:155-156 | accepted iff the bytes start with FF D8; otherwise 400 |
| RestRules.CheckScreenshot | backend/devices/api_router.py:406-410 | accepted iff the bytes start with 89 'P' 'N' 'G' or with FF D8; otherwise 400 |
| RestRules.ScreenshotAcceptsMore | backend/devices/api_router.py:406-410 | every JPEG accepted for the camera is accepted as a screenshot, and a PNG only as a screenshot |
| RestRules.CheckCoordinates | backend/devices/api_router.py:226-229 | accepted iff -90 ≤ lat ≤ 90 and -180 ≤ lon ≤ 180; latitude is reported first |
| RestRules.CoordinateBounds | backend/devices/api_router.py:226-229 | the bounds themselves pass, and any step past them fails |
| RestRules.DropNones | backend/devices/api_router.py:268 | keeps exactly the entries whose value is not None, unchanged |
| RestRules.DropNonesIdempotent | backend/devices/api_router.py:268 | dropping twice equals dropping once; `False`, `0` and `""` are kept |
| RestRules.SystemInfoPayload | backend/devices/api_router.py:258-268 | each optional reading appears iff supplied, with its value; the timestamp is always present |
| RestRules.BatteryPayload | backend/devices/api_router.py:510-520 | level, charging and timestamp are always present; temperature, voltage and health appear iff supplied |
| RestRules.ParseCharging | backend/devices/api_router.py:1153 | true iff the text spells `true`, `1` or `yes` with any of its letters in either case; only texts of length 1, 3 or 4 are true |
| RestRules.LowerSpells | backend/devices/api_router.py:1153 | for a word without capitals, lower-casing a text gives that word iff the text spells it up to case |
| RestRules.ChargingIgnoresCase | backend/devices/api_router.py:1197 | spellings that differ only in ASCII case read the same |
| RestRules.ChargingSpellings | backend/devices/api_router.py:1197 | `True`, `YES` and `1` are true; `false`, `on`, `y` and ` true` are not |
| RestRules.OptCharging | backend/devices/api_router.py:1151-1153 | a missing `is_charging` stays None; a given one is parsed |
| RestRules.UnwrapDataUrl | backend/devices/api_router.py:1078-1081 | text without the `data:image` prefix passes through; with it, the second comma-separated field is taken, and a missing comma fails |
| RestRules.UnwrapDataUrlPayload | backend/devices/device_api.py:222-225 | a comma-free header and payload joined by a comma unwrap to the payload |
| RestEndpoints.Authenticate | backend/devices/api_router.py:126-134 | under the unique-token constraint, succeeds iff some device holds the token; an unknown token gives 401 and the device found holds that token |
| RestEndpoints.UploadCamera | backend/devices/api_router.py:137-172 | succeeds iff the token is known, the camera is `front` or `back` and the bytes are JPEG; on success the new store is the old one plus exactly one frame of the token's device with the sent camera, bytes, size and timestamp, and the reply carries that frame's id; any failure writes nothing |
| RestEndpoints.UploadCameraBase64 | backend/devices/api_router.py:175-213 | succeeds iff the token is known, the camera is named, the text decodes and the bytes are JPEG; on success the new store is the old one plus exactly one frame of the token's device holding the decoded bytes, and the reply carries its id; failure writes nothing |
| RestEndpoints.UploadLocation | backend/devices/api_router.py:216-244 | succeeds iff the token is known and both coordinates are in range; on success the new store is the old one plus exactly one fix of the token's device as sent, and the reply carries its id; failure writes nothing |
| RestEndpoints.UploadSystemInfo | backend/devices/api_router.py:247-282 | succeeds iff the token is known; the new store is the old one plus exactly one `system_info` event of the token's device holding exactly the supplied fields, stamped now when the timestamp is 0; failure writes nothing |
| RestEndpoints.UploadScreenshot | backend/devices/api_router.py:393-426 | succeeds iff the token is known and the bytes are PNG or JPEG; the new store is the old one plus exactly one `screen` frame of the token's device; anything else writes nothing |
| RestEndpoints.UploadScreenshotBase64 | backend/devices/api_router.py:429-465 | succeeds iff the token is known, the text decodes and the bytes are PNG or JPEG; the new store is the old one plus exactly one `screen` frame of the decoded bytes; failure writes nothing |
| RestEndpoints.UploadBattery | backend/devices/api_router.py:499-534 | succeeds iff the token is known; the new store is the old one plus exactly one `battery_info` event of the token's device holding the supplied readings; failure writes nothing |
| RestEndpoints.UnknownTokenIsRefused | backend/devices/api_router.py:130-132 | an unknown token is refused with 401 by the camera, location and screenshot uploads, which write nothing |
| RestEndpoints.ProvisionName | backend/devices/api_router.py:33-38 | `Unknown Device` without info; the name never has whitespace at either end |
| RestEndpoints.ProvisionNameJoins | backend/devices/api_router.py:36-38 | manufacturer and model given as words give `"<manufacturer> <model>"` |
| RestEndpoints.ProvisionNameOfNones | backend/devices/api_router.py:36-38 | keys present with None give `None None`: the defaults apply only to missing keys |
| RestEndpoints.ProvisionNameOfMissingKeys | backend/devices/api_router.py:35-38 | a non-empty info without either key gives `Unknown Device` |
| RestEndpoints.ProvisionAttrs | backend/devices/api_router.py:46-50 | each descriptive column (`imei`, `model`, `manufacturer`, `android_version`, `sdk`) is the info dict's value of that key when it has the column's kind, else None; all None without a dict |
| RestEndpoints.ProvisionAttrsOfInfo | backend/devices/api_router.py:46-50 | a device that sends its own registration record as info is provisioned with exactly that record's attributes |
| RestEndpoints.GetOrCreateAsWritten | backend/devices/api_router.py:13-55 | as written: succeeds iff the id is a UUID, the database is up, and the device exists or the token is free |
| RestEndpoints.GetOrCreateAsWrittenNeverRejects | backend/devices/api_router.py:16-31 | as written, the 400 branch is never reached, and a non-UUID id gets 500 |
| RestEndpoints.GetOrCreate | backend/devices/api_router.py:13-55 | corrected: a non-UUID id gets 400 and writes nothing; an existing device is returned with `last_seen` bumped; otherwise exactly one device is created with the derived name and the fresh token |
| RestEndpoints.GetOrCreateFixOnlyRejects | backend/devices/api_router.py:27-31 | the corrected and as-written versions agree on every UUID id and differ only in the status for the rest |
| RestEndpoints.ProvisionedKeepsName | backend/devices/api_router.py:42-55 | the device returned is the one stored under its id, with the same name and token |
| RestEndpoints.GetOrCreateAdds | backend/devices/api_router.py:40-55 | success adds at most the device itself, under its own token, to a valid store |
| RestEndpoints.GetOrCreateFinds | backend/devices/api_router.py:16-21 | a stored device is returned whatever fresh token is offered, and no device is added |
| RestEndpoints.GetOrCreateTwice | backend/devices/api_router.py:16-21 | provisioning twice creates one device and keeps the first token |
| RestEndpoints.RegisterNoToken | backend/devices/api_router.py:996-1020 | corrected (see Findings), through the corrected get-or-create: succeeds iff the device can be provisioned, and a non-UUID id gets 400; the reply carries the canonical id and the stored name, and a new device takes the form's `imei` and `sdk` |
| RestEndpoints.UploadCameraAuto | backend/devices/api_router.py:609-656 | succeeds iff the device can be provisioned, the camera is named and the bytes are JPEG; the device is provisioned first, so every later refusal leaves exactly the get-or-create store; success leaves that store plus one frame and answers its id |
| RestEndpoints.UploadCameraBase64Auto | backend/devices/api_router.py:659-701 | succeeds iff the device can be provisioned, the camera is named, the text decodes and the bytes are JPEG; a refusal after provisioning leaves exactly the get-or-create store; success leaves that store plus one frame of the decoded bytes and answers its id |
| RestEndpoints.UploadLocationAuto | backend/devices/api_router.py:704-732 | succeeds iff the device can be provisioned and both coordinates are in range; an out-of-range coordinate leaves exactly the get-or-create store, so the device stays provisioned; success leaves that store plus one fix and answers its id |
| RestEndpoints.UploadBatteryAuto | backend/devices/api_router.py:735-769 | succeeds iff the device can be provisioned; success leaves the get-or-create store plus exactly one `battery_info` event with the supplied readings and answers its id; failure writes nothing |
| RestEndpoints.UploadScreenshotAuto | backend/devices/api_router.py:884-916 | succeeds iff the device can be provisioned and the bytes are PNG or JPEG; a refused image leaves exactly the get-or-create store; success leaves that store plus one `screen` frame and answers its id |
| RestEndpoints.CameraNoToken | backend/devices/api_router.py:1023-1057 | the camera name is checked before provisioning and a bad one writes nothing; any failure writes nothing; success leaves the get-or-create store plus one frame of the unchecked bytes and answers its id |
| RestEndpoints.CameraBase64NoToken | backend/devices/api_router.py:1060-1099 | a bad camera name is refused with nothing written; otherwise succeeds iff the device can be provisioned and the text unwraps and decodes; a refusal after that leaves exactly the get-or-create store; success leaves that store plus one frame of the decoded bytes and answers its id |
| RestEndpoints.LocationNoToken | backend/devices/api_router.py:1102-1133 | the ranges are checked before provisioning, so out-of-range input writes nothing, and any failure writes nothing; success leaves the get-or-create store plus one fix and answers its id |
| RestEndpoints.LocationCheckOrder | backend/devices/api_router.py:713-718 | with bad coordinates and a new id, `/upload/location` provisions the device before refusing while `/location/no-token` creates nothing |
| RestEndpoints.SystemInfoNoToken | backend/devices/api_router.py:1136-1179 | success iff the device can be provisioned; success leaves the get-or-create store plus exactly one `system_info` event with the parsed charging flag and answers its id; failure writes nothing |
| RestEndpoints.BatteryNoToken | backend/devices/api_router.py:1182-1224 | success iff the device can be provisioned; success leaves the get-or-create store plus exactly one `battery_info` event with the parsed charging flag and answers its id; failure writes nothing |
| DeviceApi.BearerToken | backend/devices/device_api.py:18-21 | a token is read iff the header starts with `Bearer `; it is no longer than the rest of the header and has no whitespace at either end |
| DeviceApi.BearerRoundTrip | backend/devices/device_api.py:18-21 | `Bearer <token>` reads back a whitespace-free token |
| DeviceApi.BearerDoubledPrefix | backend/devices/device_api.py:21 | a doubled prefix reads the same token, since every copy is removed |
| DeviceApi.AuthenticateBearer | backend/devices/device_api.py:14-26 | a header without the prefix gets 401 `Invalid authorization header format`; otherwise the device holding the token, or 401 |
| DeviceApi.CheckOwner | backend/devices/device_api.py:140-141 | passes iff the path id is the device's canonical UUID text; otherwise 403 `Device ID mismatch` |
| DeviceApi.OwnerPinsDevice | backend/devices/device_api.py:140-141 | a passing path parses to the device's own UUID, and the bare 32-digit spelling is refused |
| DeviceApi.Guard | backend/devices/device_api.py:136-141 | admitted iff the Bearer token names the device in the path; a refusal is 401, 403 or 500 |
| DeviceApi.ForeignPathIsRefused | backend/devices/device_api.py:136-141 | a valid token used on another device's path gets 403 |
| DeviceApi.BatteryEvent | backend/devices/device_api.py:144-150 | the event has exactly the five keys, level and charging flag as sent and the optional readings as sent or None |
| DeviceApi.BatteryEventKeepsNones | backend/devices/device_api.py:144-150 | unlike the query-token `/battery`, a missing voltage is stored as None rather than dropped |
| DeviceApi.PostBattery | backend/devices/device_api.py:132-159 | admitted requests log one `battery_info` event at the given timestamp; refused ones write nothing |
| DeviceApi.OrText | backend/devices/device_api.py:175-180 | `a or b`: `a` when it is non-empty text, else `b` |
| DeviceApi.OrNumber | backend/devices/device_api.py:180 | `a or b` on integers: `a` when non-zero, else `b` |
| DeviceApi.Label | backend/devices/device_api.py:175 | the new value when it is non-empty text, else the stored value when it is, else the fallback; never empty |
| DeviceApi.PostDeviceInfo | backend/devices/device_api.py:162-183 | each column takes the new value when truthy, else the stored one; the name is `"<manufacturer> <model>"` with the fallbacks; refused requests write nothing |
| DeviceApi.MergeKeepsStored | backend/devices/device_api.py:175-181 | an empty new value keeps the stored one, and a missing manufacturer with none stored falls back to `Unknown` |
| DeviceApi.PostLocation | backend/devices/device_api.py:186-204 | admitted requests store the fix as sent, with no range check |
| DeviceApi.OrDefault | backend/devices/device_api.py:235-236 | a missing or zero size falls back to the default |
| DeviceApi.PostCameraFrame | backend/devices/device_api.py:207-240 | guard, camera name, then data-URL unwrapping and decoding; success stores one frame with 1920×1080 fallbacks |
| DeviceApi.StatsEvent | backend/devices/device_api.py:278-286 | the event has exactly the seven keys, each a number or None, and each reads back as the reading sent |
| DeviceApi.PostSystemStats | backend/devices/device_api.py:268-295 | admitted requests log one `system_stats` event |
| DeviceApi.PostHeartbeat | backend/devices/device_api.py:405-418 | admitted requests refresh only `last_seen` and log no event |
| DeviceApi.LogEach | backend/devices/device_api.py:254-263 | logging a batch appends exactly one row per entry, in list order; an empty batch always succeeds |
| DeviceApi.LogEachKeepsValid | backend/devices/device_api.py:254-263 | logging a batch for a stored device keeps the table constraints |
| DeviceApi.PostEntries | backend/devices/device_api.py:243-265 | after the guard, one event per entry and a count equal to the list length |
| DeviceApi.PostLogs | backend/devices/device_api.py:243-265 | one `log` event per line; the reply's count is the number of lines |
| DeviceApi.PostSms | backend/devices/device_api.py:355-377 | one `sms` event per message; the count is the number of messages |
| DeviceApi.PostCallLogs | backend/devices/device_api.py:380-402 | one `call_log` event per call; the count is the number of calls |
| DeviceApi.EmptyBatchLogsNothing | backend/devices/device_api.py:254-265 | an empty batch writes nothing and answers a count of 0 |

## Left out

- Transport: the sockets' `accept` calls and console logging are left out. Sockets are plain identities, and a failed send is membership in `Env.broken`.
- Concurrency: the asyncio interleaving of coroutines is not modelled. Each operation runs to completion as one step, and each store call opens its own session.
- Broadcast order: `broadcast_to_admins` iterates a set, and the model delivers one broadcast as a single outbox entry to a set of sockets.
- Clock: `datetime.utcnow()` becomes `Env.now`, an integer of milliseconds. `created_at`, `last_seen` and `last_activity` are that integer, and so are the default timestamps described in the next line.
- Floating point: float values are Dafny reals, with no rounding.
- Random values: row ids (`uuid.uuid4()`) are modelled as row positions, the fresh device token as `Env.freshToken`, and base64 decoding as the partial function `Env.b64`.
- Admin authentication: JWT decoding in backend/auth/utils.py is the boolean `tokenValid`; backend/auth/ is not part of this model.
- Validation: pydantic's lax coercion (numeric strings, floats with zero fraction, and so on) is not modelled; fields must have the declared JSON kind.
- UUID parsing: `uuid.UUID`'s leniencies beyond `urn:`, `uuid:`, braces, hyphens and case are not modelled.
- Unmodelled api_router endpoints: `/sms`, `/call-logs`, `/installed-apps`, `/logs`, `/device-info`, `/bulk-update`, `/upload/sms`, `/upload/call-logs`, `/upload/apps`, `/upload/logs` and `/upload/bulk`. They reuse get-or-create and `log_device_event`, which are modelled.
- The X-Device-Token header dependency (backend/devices/api_router.py:112-123) is not modelled. The query-token and Bearer dependencies are.
- `/apps` and `/contacts` of backend/devices/device_api.py:298-352 are not part of this model. They follow the same guard-then-log shape as `/logs`.
- Other components: backend/storage/files.py, backend/devices/router.py, backend/devices/registration.py and the processor scripts are not part of this model.
- Text.TrimStart: states that the result is a suffix starting with a kept character, not that every dropped character is in the stripped set; callers rely only on the ends.
- Text.TrimEnd: states that the result is a prefix ending with a kept character, not that every dropped character is in the stripped set, for the same reason.
- Uuid.Parse: its own contract only bounds the length; what it accepts is stated by the round-trip lemmas `Uuid.ParseToString` and `Uuid.ParseBareDigits`.
- Text.Lower: lower-cases ASCII letters only, whereas Python's `str.lower` is Unicode-wide. The only non-ASCII characters Unicode lowers into ASCII letters are the Kelvin sign (to `k`) and the dotted capital I (to `i` and a combining dot). Neither spells part of `true` or `yes`, so `RestRules.ParseCharging` reads the same either way.
- Sessions.RegisterDevice: database availability is fixed for one operation, so the `connected` log after a successful profile save cannot fail. The source's partial failure (session already updated, event missing) when the database drops between the two calls is not modelled.
- Database availability: `Db.up` is fixed for one whole operation, although each store call opens its own session. A database that drops partway through leaves the earlier calls committed, and this partial outcome is not modelled. It affects `Sessions.RegisterDevice` (profile saved, no `connected` event). It affects `DeviceApi.LogEach` and, through it, `DeviceApi.PostEntries`, `PostLogs`, `PostSms` and `PostCallLogs`: backend/devices/device_api.py:254-263 commits one event per entry, so an outage mid-batch keeps a prefix. `Hub.DisconnectDevice` makes a single store call, the `disconnected` log, and its contract already keeps the dropped connection, the offline session and the sent notice when that call fails.
- REST preconditions: every REST endpoint requires `RecordStore.Valid(s)`, the key, uniqueness and foreign-key constraints, which the database itself guarantees.
- Timestamps converted with `.timestamp()`: Python reads a naive datetime in the host's local zone, and `int(... * 1000)` truncates below the millisecond. Three places do this. backend/devices/device_api.py converts each pydantic `datetime` this way, and the model takes the millisecond integer as given. backend/storage/database.py:225 fills a missing or zero event timestamp with `int(datetime.utcnow().timestamp() * 1000)`. backend/devices/manager.py:112 does the same for a missing location timestamp. On a host whose zone is not UTC these two defaults differ from `created_at` and `last_seen`, which are plain `utcnow()`, by the zone offset. The model uses `Env.now` for both, so `RecordStore.LogDeviceEvent`, `Sessions.RegisterDevice`, `Sessions.LocationColumns` and `Sessions.SaveSnapshot` state default timestamps equal to `created_at`, which holds only on a UTC host.
- Column limits: backend/database/models.py:16-22 and 41-42 declare bounded columns. `name`, `model` and `manufacturer` are VARCHAR(255), `imei` VARCHAR(32), `android_version` VARCHAR(50), `token` VARCHAR(64) and `camera` VARCHAR(10). `sdk`, `width` and `height` are 32-bit INTEGER and timestamps 64-bit BIGINT. PostgreSQL refuses a longer text or an integer out of range, so, for example, `UploadCamera` with a width of 2^31 or `RegisterDevice` with a 256-character name raises in the program. The model's stores keep unbounded strings and integers, and its "succeeds iff" contracts answer success there.
- Ordering.QueryPagesCompose: paging is promised only when no two matching rows share a timestamp. With a tie, SQL may order the tied rows differently in two separate queries, so consecutive pages can repeat or skip one of them; `Ordering.TiedRowsLeaveOrderOpen` exhibits two valid orderings.

## Findings

| source | as written | input that shows it | evidently intended | confidence | as-written member | corrected member |
|---|---|---|---|---|---|---|
| backend/websocket/handler.py:43-46 | `device_connected` and `device_list` send `session.dict()`, whose `connected_at` and `last_activity` are `datetime` objects that `json.dumps` refuses | any registered session: connecting a device drops every admin, since each send raises and the admin is pruned; `connect_admin` raises once one session exists | sessions sent with JSON-encodable timestamps, so admins receive them | not executed | Hub.ConnectDeviceAsWritten | Hub.EncodedSessionsReachAdmins |
| backend/devices/api_router.py:16-31 | `storage.get_device(device_id)` parses the id with `uuid.UUID` before the UUID check, so a malformed id raises `ValueError` there (HTTP 500) and the 400 branch is dead | `device_id = "abc"` on any no-token upload | a malformed id refused with 400 "Invalid device_id format (must be UUID)" | not executed | RestEndpoints.GetOrCreateAsWrittenNeverRejects | RestEndpoints.GetOrCreateFixOnlyRejects |

=== FILE: device_api.dfy ===
/** The endpoints of backend/devices/device_api.py, which name the device in
    the path (`/api/devices/{device_id}/...`) and authenticate it with an
    `Authorization: Bearer <token>` header. Every endpoint first checks that
    the token's device is the one in the path. */
module DeviceApi {
  import opened Wrappers
  import opened Json
  import opened Text
  import opened Uuid
  import opened Models
  import opened RecordStore
  import opened RestRules
  import opened RestEndpoints

  // ---------------------------------------------------------------------------
  // Authentication and the path guard

  const BearerPrefix := "Bearer "

  /** The token in an Authorization header: present only when the header
      starts with "Bearer "; it is what remains once every "Bearer " in the
      header is deleted and the ends are stripped. */
  function BearerToken(header: string): (r: Option<string>)
    ensures r.Some? <==> StartsWith(header, BearerPrefix)
    ensures r.Some? ==> |r.value| <= |header| - |BearerPrefix|
    ensures r.Some? ==> r.value == [] || (r.value[0] !in Whitespace && r.value[|r.value| - 1] !in Whitespace)
  {
    if !StartsWith(header, BearerPrefix) then None
    else
      assert header == BearerPrefix + header[|BearerPrefix|..];
      RemoveAllLeading(BearerPrefix, header[|BearerPrefix|..]);
      Some(Strip(RemoveAll(header, BearerPrefix)))
  }

  /** A token without whitespace, sent as "Bearer <token>", is read back
      exactly. */
  lemma {:induction false} BearerRoundTrip(token: string)
    requires forall i :: 0 <= i < |token| ==> token[i] !in Whitespace
    ensures BearerToken(BearerPrefix + token) == Some(token)
  {
    var h := BearerPrefix + token;
    assert h[..|BearerPrefix|] == BearerPrefix;
    RemoveAllLeading(BearerPrefix, token);
    assert ' ' !in token by {
      assert ' ' in Whitespace;
    }
    RemoveAllAbsent(token, BearerPrefix, ' ');
    StripCharsFixed(token, Whitespace);
  }

  /** Every copy of the prefix is deleted, so a doubled prefix reads the same
      token as a single one. */
  lemma BearerDoubledPrefix(token: string)
    ensures BearerToken(BearerPrefix + (BearerPrefix + token)) == BearerToken(BearerPrefix + token)
  {
    var once := BearerPrefix + token;
    var twice := BearerPrefix + once;
    assert twice[..|BearerPrefix|] == BearerPrefix;
    assert once[..|BearerPrefix|] == BearerPrefix;
    RemoveAllLeading(BearerPrefix, once);
  }

  /** `get_device_by_token_header`: 401 for a header without the prefix or a
      token no device holds. */
  function AuthenticateBearer(s: Store, header: string, db: Db): (r: Result<Profile, HttpError>)
    ensures !StartsWith(header, BearerPrefix) ==> r == Failure(HttpError(401, "Invalid authorization header format"))
    ensures Valid(s) ==>
      (r.Success? <==> BearerToken(header).Some? && db.up && !TokenFree(s, BearerToken(header).value))
    ensures Valid(s) && r.Success? ==>
      Owns(s, BearerToken(header).value, r.value.id) && s.devices[r.value.id] == r.value
  {
    match BearerToken(header)
    case None => Failure(HttpError(401, "Invalid authorization header format"))
    case Some(token) => Authenticate(s, token, db)
  }

  /** `str(device.id) != device_id` is refused with 403. */
  function CheckOwner(p: Profile, deviceId: string): (r: Option<HttpError>)
    ensures r.None? <==> deviceId == ToString(p.id)
    ensures r.Some? ==> r == Some(HttpError(403, "Device ID mismatch"))
  {
    if ToString(p.id) != deviceId then Some(HttpError(403, "Device ID mismatch")) else None
  }

  /** The path must spell the UUID the canonical way: then it names exactly
      the token's device, while the bare 32-digit spelling, which the store
      itself would accept, is refused. */
  lemma OwnerPinsDevice(p: Profile, deviceId: string)
    ensures CheckOwner(p, deviceId).None? ==> Parse(deviceId) == Some(p.id)
    ensures CheckOwner(p, p.id).Some?
  {
    ParseToString(p.id);
  }

  /** Whom the guard admits: a Bearer header whose token the device in the
      path holds, with the path in canonical form. */
  predicate Admitted(s: Store, header: string, deviceId: string, db: Db) {
    && db.up && BearerToken(header).Some?
    && Parse(deviceId).Some? && deviceId == ToString(Parse(deviceId).value)
    && Owns(s, BearerToken(header).value, Parse(deviceId).value)
  }

  /** The token check and then the path check every endpoint starts with. */
  function Guard(s: Store, header: string, deviceId: string, db: Db): (r: Result<Profile, HttpError>)
    requires Valid(s)
    ensures r.Success? <==> Admitted(s, header, deviceId, db)
    ensures r.Success? ==> r.value.id == Parse(deviceId).value && s.devices[r.value.id] == r.value
    ensures r.Failure? ==> r.error.status in {401, 403, 500}
  {
    match AuthenticateBearer(s, header, db)
    case Failure(e) => Failure(e)
    case Success(p) =>
      ParseToString(p.id);
      if CheckOwner(p, deviceId).Some? then Failure(CheckOwner(p, deviceId).value) else Success(p)
  }

  /** A request for another device's path is refused with 403 and writes
      nothing, whichever endpoint it is sent to. */
  lemma ForeignPathIsRefused(s: Store, header: string, deviceId: string, db: Db)
    requires Valid(s) && db.up && BearerToken(header).Some?
    requires exists u :: Owns(s, BearerToken(header).value, u) && ToString(u) != deviceId
    ensures Guard(s, header, deviceId, db) == Failure(HttpError(403, "Device ID mismatch"))
  {
    var u :| Owns(s, BearerToken(header).value, u) && ToString(u) != deviceId;
    assert !TokenFree(s, BearerToken(header).value);
    var p := AuthenticateBearer(s, header, db).value;
    assert p.id == u;
  }

  const Saved := map["status" := Str("success")]

  // ---------------------------------------------------------------------------
  // Single-record endpoints

  datatype BatteryData = BatteryData(
    level: int, isCharging: bool, temperature: Option<real>, voltage: Option<real>, health: Option<string>, timestamp: int)

  /** The `battery_info` event of this module: all five readings, None
      included. */
  function BatteryEvent(b: BatteryData): (r: Object)
    ensures r.Keys == {"level", "is_charging", "temperature", "voltage", "health"}
    ensures r["level"] == Int(b.level) && r["is_charging"] == Bool(b.isCharging)
    ensures r["temperature"] == OptReal(b.temperature) && r["voltage"] == OptReal(b.voltage) && r["health"] == OptStr(b.health)
  {
    map["level" := Int(b.level), "is_charging" := Bool(b.isCharging), "temperature" := OptReal(b.temperature),
        "voltage" := OptReal(b.voltage), "health" := OptStr(b.health)]
  }

  /** `POST /{device_id}/battery` */
  function PostBattery(s: Store, header: string, deviceId: string, b: BatteryData, db: Db): (r: Outcome)
    requires Valid(s)
    ensures r.reply.Success? <==> Admitted(s, header, deviceId, db)
    ensures r.reply.Failure? ==> r.store == s
    ensures r.reply.Success? ==>
      r.store == s.(events := s.events + [EventRow(Parse(deviceId).value, "battery_info", BatteryEvent(b),
                                                   if b.timestamp == 0 then db.now else b.timestamp, db.now)])
    ensures Valid(r.store)
  {
    match Guard(s, header, deviceId, db)
    case Failure(e) => Refuse(s, e)
    case Success(p) =>
      var o := EventReply(s, p.id, "battery_info", BatteryEvent(b), b.timestamp, "Battery data saved", db);
      Outcome(o.store, Success(Saved["message" := Str("Battery data saved")]))
  }

  /** Unlike `/battery` of the router with a query token, this endpoint keeps
      the readings that were not sent, as None. */
  lemma BatteryEventKeepsNones(b: BatteryData)
    requires b.temperature.None? && b.voltage.None? && b.health.None?
    ensures "voltage" in BatteryEvent(b) && BatteryEvent(b)["voltage"] == Null
    ensures "voltage" !in BatteryPayload(b.level, b.isCharging, b.temperature, OptReal(b.voltage), b.health, b.timestamp)
  {
  }

  datatype DeviceInfoData = DeviceInfoData(
    manufacturer: Option<string>, model: Option<string>, androidVersion: Option<string>, sdkVersion: Option<int>,
    serialNumber: Option<string>, imei: Option<string>, timestamp: int)

  /** `a or b` on optional text: `a` when it is non-empty text. */
  function OrText(a: Option<string>, b: Option<string>): (r: Option<string>)
    ensures r == a || r == b
    ensures r == a <==> (a.Some? && a.value != "") || a == b
  {
    if a.Some? && a.value != "" then a else b
  }

  /** `a or b` on optional integers: `a` when it is a non-zero number. */
  function OrNumber(a: Option<int>, b: Option<int>): (r: Option<int>)
    ensures r == a || r == b
    ensures r == a <==> (a.Some? && a.value != 0) || a == b
  {
    if a.Some? && a.value != 0 then a else b
  }

  /** `f"{new or stored or 'Unknown'}"`: the first non-empty text. */
  function Label(a: Option<string>, b: Option<string>, fallback: string): (r: string)
    requires fallback != ""
    ensures r != ""
    ensures a.Some? && a.value != "" ==> r == a.value
    ensures !(a.Some? && a.value != "") && b.Some? && b.value != "" ==> r == b.value
    ensures !(a.Some? && a.value != "") && !(b.Some? && b.value != "") ==> r == fallback
  {
    var v := OrText(a, b);
    if v.Some? && v.value != "" then v.value else fallback
  }

  /** The name the device-info merge gives: "<manufacturer> <model>". */
  function MergedName(d: DeviceInfoData, p: Profile): string {
    Label(d.manufacturer, p.manufacturer, "Unknown") + " " + Label(d.model, p.model, "Device")
  }

  /** The merge as `update_device` keyword arguments. */
  function MergePatch(d: DeviceInfoData, p: Profile): DevicePatch {
    DevicePatch(Some(MergedName(d, p)), None,
                DeviceAttrs(OrText(d.imei, p.imei), OrText(d.model, p.model), OrText(d.manufacturer, p.manufacturer),
                            OrText(d.androidVersion, p.androidVersion), OrNumber(d.sdkVersion, p.sdk)))
  }

  /** `POST /{device_id}/device-info`: each column takes the new value when it
      is truthy and keeps the stored one otherwise; the name is rebuilt from
      the merged manufacturer and model; nothing is logged. */
  function PostDeviceInfo(s: Store, header: string, deviceId: string, d: DeviceInfoData, db: Db): (r: Outcome)
    requires Valid(s)
    ensures r.reply.Success? <==> Admitted(s, header, deviceId, db)
    ensures r.reply.Failure? ==> r.store == s
    ensures r.reply.Success? ==>
      var u := Parse(deviceId).value;
      && u in s.devices && u in r.store.devices
      && var (was, now) := (s.devices[u], r.store.devices[u]);
         && r.store == s.(devices := s.devices[u := now])
         && now.model == OrText(d.model, was.model)
         && now.manufacturer == OrText(d.manufacturer, was.manufacturer)
         && now.androidVersion == OrText(d.androidVersion, was.androidVersion)
         && now.imei == OrText(d.imei, was.imei)
         && now.sdk == OrNumber(d.sdkVersion, was.sdk)
         && now.name == MergedName(d, was)
         && now.token == was.token && now.lastSeen == db.now
    ensures Valid(r.store)
  {
    match Guard(s, header, deviceId, db)
    case Failure(e) => Refuse(s, e)
    case Success(p) =>
      var patch := MergePatch(d, p);
      UpdateKeepsValid(s, deviceId, patch, db);
      var updated := UpdateDevice(s, deviceId, patch, db);
      if updated.Failure? then Refuse(s, InternalError)
      else Outcome(updated.value.0, Success(Saved["message" := Str("Device info updated")]))
  }

  /** A field sent empty keeps the stored value, and a field never stored and
      not sent stays unset. */
  lemma MergeKeepsStored(d: DeviceInfoData, p: Profile)
    requires d.model == Some("") && d.manufacturer.None? && p.manufacturer.None?
    ensures MergePatch(d, p).attrs.model == p.model
    ensures MergePatch(d, p).attrs.manufacturer.None?
    ensures MergedName(d, p) == "Unknown " + Label(d.model, p.model, "Device")
  {
  }

  datatype LocationData = LocationData(
    latitude: real, longitude: real, accuracy: Option<real>, altitude: Option<real>, speed: Option<real>, timestamp: int)

  /** `POST /{device_id}/location`: stored as sent, without a range check. */
  function PostLocation(s: Store, header: string, deviceId: string, l: LocationData, db: Db): (r: Outcome)
    requires Valid(s)
    ensures r.reply.Success? <==> Admitted(s, header, deviceId, db)
    ensures r.reply.Failure? ==> r.store == s
    ensures r.reply.Success? ==>
      r.store == s.(locations := s.locations + [LocationRow(Parse(deviceId).value, l.latitude, l.longitude, l.accuracy,
                                                            l.timestamp, db.now)])
    ensures Valid(r.store)
  {
    match Guard(s, header, deviceId, db)
    case Failure(e) => Refuse(s, e)
    case Success(p) =>
      var o := LocationReply(s, p.id, l.latitude, l.longitude, l.accuracy, l.timestamp, db);
      Outcome(o.store, Success(Saved["message" := Str("Location saved")]))
  }

  datatype CameraFrameData = CameraFrameData(
    camera: string, imageBase64: string, width: Option<int>, height: Option<int>, timestamp: int)

  /** `n or fallback` on an optional integer. */
  function OrDefault(n: Option<int>, fallback: int): (r: int)
    ensures n.Some? && n.value != 0 ==> r == n.value
    ensures n.None? || n == Some(0) ==> r == fallback
  {
    if n.Some? && n.value != 0 then n.value else fallback
  }

  /** `POST /{device_id}/camera-frame`: camera name, then the (possibly
      `data:` wrapped) base64 text; a missing or zero size becomes 1920x1080. */
  function PostCameraFrame(s: Store, header: string, deviceId: string, c: CameraFrameData,
                           decode: string -> Option<Bytes>, db: Db): (r: Outcome)
    requires Valid(s)
    ensures r.reply.Success? <==>
      && Admitted(s, header, deviceId, db) && CheckCamera(c.camera).None?
      && UnwrapDataUrl(c.imageBase64).Some? && decode(UnwrapDataUrl(c.imageBase64).value).Some?
    ensures r.reply.Failure? ==> r.store == s
    ensures r.reply.Success? ==>
      r.store == s.(frames := s.frames + [FrameRow(Parse(deviceId).value, c.camera,
                                                   decode(UnwrapDataUrl(c.imageBase64).value).value,
                                                   OrDefault(c.width, 1920), OrDefault(c.height, 1080),
                                                   c.timestamp, db.now)])
    ensures Valid(r.store)
  {
    match Guard(s, header, deviceId, db)
    case Failure(e) => Refuse(s, e)
    case Success(p) =>
      if CheckCamera(c.camera).Some? then Refuse(s, CheckCamera(c.camera).value)
      else
        match UnwrapDataUrl(c.imageBase64)
        case None => Refuse(s, HttpError(400, "Invalid base64 image"))
        case Some(text) =>
          if decode(text).None? then Refuse(s, HttpError(400, "Invalid base64 image"))
          else
            var o := FrameReply(s, p.id, c.camera, decode(text).value, OrDefault(c.width, 1920),
                                OrDefault(c.height, 1080), c.timestamp, "frame_id", "Camera frame saved", db);
            Outcome(o.store, Success(Saved["frame_id" := o.reply.value["frame_id"]]["message" := Str("Camera frame saved")]))
  }

  datatype SystemStatsData = SystemStatsData(
    ramTotal: Option<int>, ramUsed: Option<int>, ramFree: Option<int>, cpuUsage: Option<real>,
    storageTotal: Option<int>, storageUsed: Option<int>, storageFree: Option<int>, timestamp: int)

  /** A float reading read back from an event dict. */
  function RealReading(v: Value): Option<real> {
    if v.Real? then Some(v.r) else None
  }

  /** The `system_stats` event: all seven readings, None included, each of
      which reads back as sent. */
  function StatsEvent(d: SystemStatsData): (r: Object)
    ensures r.Keys == {"ram_total", "ram_used", "ram_free", "cpu_usage", "storage_total", "storage_used", "storage_free"}
    ensures forall k :: k in r ==> NumberOrNone(r[k])
    ensures AsNumber(r["ram_total"]) == d.ramTotal && AsNumber(r["ram_used"]) == d.ramUsed
         && AsNumber(r["ram_free"]) == d.ramFree && RealReading(r["cpu_usage"]) == d.cpuUsage
    ensures AsNumber(r["storage_total"]) == d.storageTotal && AsNumber(r["storage_used"]) == d.storageUsed
         && AsNumber(r["storage_free"]) == d.storageFree
  {
    var m := map["ram_total" := OptInt(d.ramTotal), "ram_used" := OptInt(d.ramUsed), "ram_free" := OptInt(d.ramFree),
                 "cpu_usage" := OptReal(d.cpuUsage), "storage_total" := OptInt(d.storageTotal),
                 "storage_used" := OptInt(d.storageUsed), "storage_free" := OptInt(d.storageFree)];
    assert m.Keys == {"ram_total", "ram_used", "ram_free", "cpu_usage", "storage_total", "storage_used", "storage_free"};
    m
  }

  /** `POST /{device_id}/system-stats` */
  function PostSystemStats(s: Store, header: string, deviceId: string, d: SystemStatsData, db: Db): (r: Outcome)
    requires Valid(s)
    ensures r.reply.Success? <==> Admitted(s, header, deviceId, db)
    ensures r.reply.Failure? ==> r.store == s
    ensures r.reply.Success? ==>
      r.store == s.(events := s.events + [EventRow(Parse(deviceId).value, "system_stats", StatsEvent(d),
                                                   if d.timestamp == 0 then db.now else d.timestamp, db.now)])
    ensures Valid(r.store)
  {
    match Guard(s, header, deviceId, db)
    case Failure(e) => Refuse(s, e)
    case Success(p) =>
      var o := EventReply(s, p.id, "system_stats", StatsEvent(d), d.timestamp, "System stats saved", db);
      Outcome(o.store, Success(Saved["message" := Str("System stats saved")]))
  }

  /** `POST /{device_id}/heartbeat`: refreshes `last_seen` and logs nothing. */
  function PostHeartbeat(s: Store, header: string, deviceId: string, db: Db): (r: Outcome)
    requires Valid(s)
    ensures r.reply.Success? <==> Admitted(s, header, deviceId, db)
    ensures r.reply.Failure? ==> r.store == s
    ensures r.reply.Success? ==>
      var u := Parse(deviceId).value;
      u in s.devices && r.store == s.(devices := s.devices[u := s.devices[u].(lastSeen := db.now)])
    ensures r.store.events == s.events
    ensures Valid(r.store)
  {
    match Guard(s, header, deviceId, db)
    case Failure(e) => Refuse(s, e)
    case Success(p) =>
      UpdateKeepsValid(s, deviceId, NoChanges, db);
      var updated := UpdateDevice(s, deviceId, NoChanges, db);
      if updated.Failure? then Refuse(s, InternalError)
      else Outcome(updated.value.0, Success(Saved["message" := Str("Heartbeat received")]))
  }

  // ---------------------------------------------------------------------------
  // List endpoints: one event per entry

  /** One event to log: its data and its timestamp in milliseconds. */
  datatype Entry = Entry(data: Object, timestamp: int)

  /** The row `log_device_event` appends for an entry. */
  function EntryRow(u: Uuid, eventType: string, e: Entry, now: int): EventRow {
    EventRow(u, eventType, e.data, if e.timestamp == 0 then now else e.timestamp, now)
  }

  /** The rows logging every entry appends, in list order. */
  function EntryRows(u: Uuid, eventType: string, entries: seq<Entry>, now: int): (r: seq<EventRow>)
    ensures |r| == |entries| && forall i :: 0 <= i < |entries| ==> r[i] == EntryRow(u, eventType, entries[i], now)
  {
    seq(|entries|, i requires 0 <= i < |entries| => EntryRow(u, eventType, entries[i], now))
  }

  /** One `log_device_event` call for an entry of a writable device appends
      exactly that entry's row. */
  lemma LogOne(s: Store, u: Uuid, eventType: string, e: Entry, db: Db)
    requires db.up && u in s.devices
    ensures LogDeviceEvent(s, ToString(u), eventType, Some(e.data), Some(e.timestamp), db)
         == Success((s.(events := s.events + [EntryRow(u, eventType, e, db.now)]), |s.events|))
  {
    ParseToString(u);
  }

  lemma EntryRowsCons(u: Uuid, eventType: string, entries: seq<Entry>, now: int)
    requires entries != []
    ensures EntryRows(u, eventType, entries, now)
         == [EntryRow(u, eventType, entries[0], now)] + EntryRows(u, eventType, entries[1..], now)
  {
  }

  /** Logging the first entry, then the others, appends the rows of all. */
  lemma LogEachStep(s: Store, u: Uuid, eventType: string, entries: seq<Entry>, now: int, s1: Store, s2: Store)
    requires entries != []
    requires s1 == s.(events := s.events + [EntryRow(u, eventType, entries[0], now)])
    requires s2 == s1.(events := s1.events + EntryRows(u, eventType, entries[1..], now))
    ensures s2 == s.(events := s.events + EntryRows(u, eventType, entries, now))
  {
    var head := [EntryRow(u, eventType, entries[0], now)];
    var tail := EntryRows(u, eventType, entries[1..], now);
    EntryRowsCons(u, eventType, entries, now);
    AppendAssoc(s.events, head, tail);
  }

  lemma AppendAssoc<T>(a: seq<T>, b: seq<T>, c: seq<T>)
    ensures (a + b) + c == a + (b + c)
  {
  }

  /** `for entry in entries: log_device_event(...)`, in list order. */
  function LogEach(s: Store, u: Uuid, eventType: string, entries: seq<Entry>, db: Db): (r: Result<Store, StoreError>)
    ensures r.Success? <==> entries == [] || (db.up && u in s.devices)
    ensures r.Success? ==> r.value == s.(events := s.events + EntryRows(u, eventType, entries, db.now))
    decreases |entries|
  {
    if entries == [] then
      assert s.events + EntryRows(u, eventType, entries, db.now) == s.events;
      Success(s)
    else
      ParseToString(u);
      var logged := LogDeviceEvent(s, ToString(u), eventType, Some(entries[0].data), Some(entries[0].timestamp), db);
      if logged.Failure? then Failure(logged.error)
      else
        LogOne(s, u, eventType, entries[0], db);
        var s1 := logged.value.0;
        var rest := LogEach(s1, u, eventType, entries[1..], db);
        if rest.Failure? then rest
        else
          LogEachStep(s, u, eventType, entries, db.now, s1, rest.value);
          rest
  }

  /** Appending events of known devices keeps the store valid. */
  lemma AppendEventsKeepsValid(s: Store, rows: seq<EventRow>)
    requires Valid(s) && forall i :: 0 <= i < |rows| ==> rows[i].deviceId in s.devices
    ensures Valid(s.(events := s.events + rows))
  {
    var t := s.(events := s.events + rows);
    assert t.devices == s.devices && t.frames == s.frames && t.locations == s.locations;
    forall i | 0 <= i < |t.events| ensures t.events[i].deviceId in t.devices {
      if i < |s.events| {
        assert t.events[i] == s.events[i];
      } else {
        assert t.events[i] == rows[i - |s.events|];
      }
    }
  }

  /** Every appended row belongs to the device, so the store stays valid. */
  lemma LogEachKeepsValid(s: Store, u: Uuid, eventType: string, entries: seq<Entry>, db: Db)
    requires Valid(s) && u in s.devices
    ensures LogEach(s, u, eventType, entries, db).Success? ==> Valid(LogEach(s, u, eventType, entries, db).value)
  {
    AppendEventsKeepsValid(s, EntryRows(u, eventType, entries, db.now));
  }

  /** The guard, then one event per entry, answered with the entry count. */
  function PostEntries(s: Store, header: string, deviceId: string, eventType: string, entries: seq<Entry>,
                       message: string, db: Db): (r: Outcome)
    requires Valid(s)
    ensures r.reply.Success? <==> Admitted(s, header, deviceId, db)
    ensures r.reply.Failure? ==> r.store == s
    ensures r.reply.Success? ==>
      && "count" in r.reply.value && r.reply.value["count"] == Int(|entries|)
      && r.store == s.(events := s.events + EntryRows(Parse(deviceId).value, eventType, entries, db.now))
    ensures Valid(r.store)
  {
    match Guard(s, header, deviceId, db)
    case Failure(e) => Refuse(s, e)
    case Success(p) =>
      var logged := LogEach(s, p.id, eventType, entries, db);
      if logged.Failure? then Refuse(s, InternalError)
      else
        LogEachKeepsValid(s, p.id, eventType, entries, db);
        var t := logged.value;
        Outcome(t, Success(Saved["count" := Int(|entries|)]["message" := Str(message)]))
  }

  datatype LogEntry = LogEntry(level: string, message: string, timestamp: int)
  datatype SmsMessage = SmsMessage(sender: string, body: string, timestamp: int, isRead: bool)
  datatype CallLog = CallLog(number: string, kind: string, duration: int, timestamp: int)

  /** The `log` events of a batch of log lines. */
  function LogEntries(logs: seq<LogEntry>): (r: seq<Entry>)
    ensures |r| == |logs| && forall i :: 0 <= i < |logs| ==>
      r[i] == Entry(map["level" := Str(logs[i].level), "message" := Str(logs[i].message)], logs[i].timestamp)
  {
    seq(|logs|, i requires 0 <= i < |logs| =>
      Entry(map["level" := Str(logs[i].level), "message" := Str(logs[i].message)], logs[i].timestamp))
  }

  /** The `sms` events of a batch of messages. */
  function SmsEntries(messages: seq<SmsMessage>): (r: seq<Entry>)
    ensures |r| == |messages| && forall i :: 0 <= i < |messages| ==>
      r[i] == Entry(map["sender" := Str(messages[i].sender), "body" := Str(messages[i].body),
                        "is_read" := Bool(messages[i].isRead)], messages[i].timestamp)
  {
    seq(|messages|, i requires 0 <= i < |messages| =>
      Entry(map["sender" := Str(messages[i].sender), "body" := Str(messages[i].body),
                "is_read" := Bool(messages[i].isRead)], messages[i].timestamp))
  }

  /** The `call_log` events of a batch of calls. */
  function CallEntries(calls: seq<CallLog>): (r: seq<Entry>)
    ensures |r| == |calls| && forall i :: 0 <= i < |calls| ==>
      r[i] == Entry(map["number" := Str(calls[i].number), "type" := Str(calls[i].kind),
                        "duration" := Int(calls[i].duration)], calls[i].timestamp)
  {
    seq(|calls|, i requires 0 <= i < |calls| =>
      Entry(map["number" := Str(calls[i].number), "type" := Str(calls[i].kind),
                "duration" := Int(calls[i].duration)], calls[i].timestamp))
  }

  /** `POST /{device_id}/logs` */
  function PostLogs(s: Store, header: string, deviceId: string, logs: seq<LogEntry>, db: Db): (r: Outcome)
    requires Valid(s)
    ensures r.reply.Success? <==> Admitted(s, header, deviceId, db)
    ensures r.reply.Failure? ==> r.store == s
    ensures r.reply.Success? ==>
      && "count" in r.reply.value && r.reply.value["count"] == Int(|logs|)
      && r.store == s.(events := s.events + EntryRows(Parse(deviceId).value, "log", LogEntries(logs), db.now))
    ensures Valid(r.store)
  {
    PostEntries(s, header, deviceId, "log", LogEntries(logs), "Logs saved", db)
  }

  /** `POST /{device_id}/sms` */
  function PostSms(s: Store, header: string, deviceId: string, messages: seq<SmsMessage>, db: Db): (r: Outcome)
    requires Valid(s)
    ensures r.reply.Success? <==> Admitted(s, header, deviceId, db)
    ensures r.reply.Failure? ==> r.store == s
    ensures r.reply.Success? ==>
      && "count" in r.reply.value && r.reply.value["count"] == Int(|messages|)
      && r.store == s.(events := s.events + EntryRows(Parse(deviceId).value, "sms", SmsEntries(messages), db.now))
    ensures Valid(r.store)
  {
    PostEntries(s, header, deviceId, "sms", SmsEntries(messages), "SMS messages saved", db)
  }

  /** `POST /{device_id}/call-logs` */
  function PostCallLogs(s: Store, header: string, deviceId: string, calls: seq<CallLog>, db: Db): (r: Outcome)
    requires Valid(s)
    ensures r.reply.Success? <==> Admitted(s, header, deviceId, db)
    ensures r.reply.Failure? ==> r.store == s
    ensures r.reply.Success? ==>
      && "count" in r.reply.value && r.reply.value["count"] == Int(|calls|)
      && r.store == s.(events := s.events + EntryRows(Parse(deviceId).value, "call_log", CallEntries(calls), db.now))
    ensures Valid(r.store)
  {
    PostEntries(s, header, deviceId, "call_log", CallEntries(calls), "Call logs saved", db)
  }

  /** An empty batch is answered with a count of 0 and logs nothing. */
  lemma EmptyBatchLogsNothing(s: Store, header: string, deviceId: string, db: Db)
    requires Valid(s) && Admitted(s, header, deviceId, db)
    ensures PostLogs(s, header, deviceId, [], db).store == s
    ensures PostLogs(s, header, deviceId, [], db).reply.value["count"] == Int(0)
  {
    var r := PostLogs(s, header, deviceId, [], db);
    assert r.reply.Success?;
    assert LogEntries([]) == [];
    assert EntryRows(Parse(deviceId).value, "log", [], db.now) == [];
    assert s.events + [] == s.events;
  }
}

=== FILE: hub.dfy ===
/** The connection hub of backend/websocket/handler.py (`WebSocketManager`):
    the live device connections by id, the set of admin sockets, and the
    handlers for what devices send and what admins ask for. Outbound traffic
    is recorded in an outbox instead of being written to sockets. */
module Hub {
  import opened Wrappers
  import opened Json
  import opened Uuid
  import opened Models
  import opened RecordStore
  import opened Sessions

  /** A WebSocket, known only by its identity. */
  type Socket = nat

  /** `DeviceConnection` */
  datatype Connection = Connection(deviceId: string, deviceName: string, socket: Socket, lastSeen: int)

  /** One outbound action: a JSON message delivered to a set of sockets (a
      broadcast is one such action), or a close frame with its code. */
  datatype Out = Send(to: set<Socket>, msg: Object) | Close(socket: Socket, code: int)

  /** The whole server state: the hub's two collections, the session
      registry, the record store and everything sent so far. */
  datatype World = World(
    devices: map<string, Connection>,
    admins: set<Socket>,
    reg: Registry,
    store: Store,
    outbox: seq<Out>)

  const Initial := World(map[], {}, NoSessions, RecordStore.Empty, [])

  /** What the outside world decides during one step: the clock, which
      sockets fail when written to, whether the database is reachable, the
      token `generate_device_token` would return, and `base64.b64decode`. */
  datatype Env = Env(now: int, broken: set<Socket>, up: bool, freshToken: string, b64: string -> Option<Bytes>)

  function DbOf(env: Env): Db { Db(env.up, env.now) }

  /** A step's outcome: the state reached and whether an exception escaped. */
  datatype Step = Step(w: World, raised: bool)

  /** Whether `send_json(msg)` on `sock` goes through: the socket works and
      `json.dumps` accepts the message. */
  predicate Delivers(sock: Socket, msg: Object, env: Env) {
    sock !in env.broken && Serializable(Obj(msg))
  }

  // ---------------------------------------------------------------------------
  // Messages

  /** The wire form of a session: `session.dict()` with each `datetime`
      written as milliseconds, so that `json.dumps` accepts it. */
  function SessionWire(s: DeviceSession): (r: Value)
    ensures Serializable(r)
  {
    Encode(Obj(SessionDict(s)))
  }

  function DeviceConnected(s: DeviceSession): (r: Object)
    ensures Serializable(Obj(r))
  {
    map["type" := Str("device_connected"), "device" := SessionWire(s)]
  }

  /** The `device_connected` message as handler.py builds it, with the raw
      `session.dict()`. */
  function DeviceConnectedAsWritten(s: DeviceSession): (r: Object)
    ensures !Serializable(Obj(r))
  {
    var r := map["type" := Str("device_connected"), "device" := Obj(SessionDict(s))];
    SessionDictNotSerializable(s);
    assert r["device"] == Obj(SessionDict(s));
    r
  }

  function DeviceDisconnected(id: string): (r: Object)
    ensures Serializable(Obj(r))
  {
    map["type" := Str("device_disconnected"), "device_id" := Str(id)]
  }

  function DeviceList(reg: Registry): (r: Object)
    ensures Serializable(Obj(r))
  {
    var all := GetAllDevices(reg);
    map["type" := Str("device_list"),
        "devices" := Arr(seq(|all|, i requires 0 <= i < |all| => SessionWire(all[i])))]
  }

  /** The `device_list` message as handler.py builds it, one raw
      `d.dict()` per session. */
  function DeviceListAsWritten(reg: Registry): Object {
    var all := GetAllDevices(reg);
    map["type" := Str("device_list"),
        "devices" := Arr(seq(|all|, i requires 0 <= i < |all| => Obj(SessionDict(all[i]))))]
  }

  /** The metadata of a frame, without the image. */
  function FrameNotice(id: string, f: CameraFrame): (r: Object)
    ensures Serializable(Obj(r))
    ensures r.Keys == {"type", "device_id", "camera", "timestamp", "width", "height"}
  {
    map["type" := Str("camera_frame"), "device_id" := Str(id), "camera" := Str(f.camera),
        "timestamp" := Int(f.timestamp), "width" := Int(f.width), "height" := Int(f.height)]
  }

  function LocationNotice(id: string, l: LocationUpdate): (r: Object)
    ensures Serializable(Obj(r))
  {
    var d := LocationDict(l);
    assert forall k :: k in d ==> Serializable(d[k]);
    map["type" := Str("location_update"), "device_id" := Str(id), "location" := Obj(LocationDict(l))]
  }

  function DeviceUpdate(id: string, data: Object): Object {
    map["type" := Str("device_update"), "device_id" := Str(id), "data" := Obj(data)]
  }

  function CommandMessage(c: DeviceCommand): Object {
    map["type" := Str("command"), "command" := Str(c.command), "data" := Obj(c.data)]
  }

  // ---------------------------------------------------------------------------
  // Admins

  /** `broadcast_to_admins`: every admin but `exclude` is tried; those whose
      send raised are dropped afterwards, and the rest receive the message. */
  function Broadcast(w: World, msg: Object, exclude: Option<Socket>, env: Env): (r: World)
    ensures r.devices == w.devices && r.reg == w.reg && r.store == w.store
    ensures r.admins <= w.admins
    ensures forall a :: a in w.admins ==> (a in r.admins <==> exclude == Some(a) || Delivers(a, msg, env))
    ensures |r.outbox| == |w.outbox| + 1 && r.outbox[..|w.outbox|] == w.outbox
    ensures r.outbox[|w.outbox|].Send? && r.outbox[|w.outbox|].msg == msg
    ensures forall a :: a in r.outbox[|w.outbox|].to <==>
      a in w.admins && exclude != Some(a) && Delivers(a, msg, env)
    ensures exclude.None? ==>
      && r.outbox[|w.outbox|].to == (if Serializable(Obj(msg)) then w.admins - env.broken else {})
      && r.admins == r.outbox[|w.outbox|].to
  {
    var delivered := set a | a in w.admins && exclude != Some(a) && Delivers(a, msg, env);
    var failed := set a | a in w.admins && exclude != Some(a) && !Delivers(a, msg, env);
    assert exclude.None? && Serializable(Obj(msg)) ==>
      delivered == w.admins - env.broken && w.admins - failed == w.admins - env.broken;
    assert exclude.None? && !Serializable(Obj(msg)) ==> delivered == {} && w.admins - failed == {};
    w.(admins := w.admins - failed, outbox := w.outbox + [Send(delivered, msg)])
  }

  /** `connect_admin`: the socket joins the admin set and is sent the list
      of every session. A failed send raises, with the socket already added. */
  function ConnectAdmin(w: World, sock: Socket, env: Env): (r: Step)
    ensures r.w.admins == w.admins + {sock}
    ensures r.w.devices == w.devices && r.w.reg == w.reg && r.w.store == w.store
    ensures r.raised <==> sock in env.broken
    ensures !r.raised ==> r.w.outbox == w.outbox + [Send({sock}, DeviceList(w.reg))]
    ensures r.raised ==> r.w.outbox == w.outbox
  {
    var w' := w.(admins := w.admins + {sock});
    if Delivers(sock, DeviceList(w.reg), env) then Step(w'.(outbox := w.outbox + [Send({sock}, DeviceList(w.reg))]), false)
    else Step(w', true)
  }

  /** `disconnect_admin`: a discard. */
  function DisconnectAdmin(w: World, sock: Socket): (r: World)
    ensures r.admins == w.admins - {sock}
    ensures r.devices == w.devices && r.reg == w.reg && r.store == w.store && r.outbox == w.outbox
  {
    w.(admins := w.admins - {sock})
  }

  // ---------------------------------------------------------------------------
  // Devices

  /** `connect_device`: registers the session; on success stores the
      connection under the device id (replacing any earlier one) and
      broadcasts one `device_connected`. When registration raises, no
      connection is stored and nothing is broadcast. */
  function ConnectDevice(w: World, info: DeviceInfo, sock: Socket, env: Env): (r: Step)
    ensures var reg := RegisterDevice(w.reg, w.store, info, env.freshToken, DbOf(env));
      && r.raised == reg.session.None?
      && r.w.reg == reg.reg && r.w.store == reg.store
      && (r.raised ==> r.w.devices == w.devices && r.w.admins == w.admins && r.w.outbox == w.outbox)
      && (!r.raised ==>
            && r.w.devices == w.devices[info.id := Connection(info.id, info.name, sock, env.now)]
            && r.w.outbox == w.outbox + [Send(w.admins - env.broken, DeviceConnected(reg.session.value))]
            && r.w.admins == w.admins - env.broken)
  {
    var reg := RegisterDevice(w.reg, w.store, info, env.freshToken, DbOf(env));
    var w' := w.(reg := reg.reg, store := reg.store);
    match reg.session
    case None => Step(w', true)
    case Some(session) =>
      var w'' := w'.(devices := w.devices[info.id := Connection(info.id, info.name, sock, env.now)]);
      var b := Broadcast(w'', DeviceConnected(session), None, env);
      Step(b, false)
  }

  /** `disconnect_device`: for a connected id, drops the connection, marks
      the session offline, broadcasts `device_disconnected` and logs a
      `disconnected` event; for any other id, does nothing. */
  function DisconnectDevice(w: World, id: string, env: Env): (r: Step)
    ensures id !in w.devices ==> r == Step(w, false)
    ensures id in w.devices ==>
      && r.w.devices == w.devices - {id}
      && r.w.reg == Sessions.DisconnectDevice(w.reg, id)
      && r.w.admins == w.admins - env.broken
      && r.w.outbox == w.outbox + [Send(w.admins - env.broken, DeviceDisconnected(id))]
      && (r.raised <==> LogDeviceEvent(w.store, id, "disconnected", None, None, DbOf(env)).Failure?)
      && (!r.raised ==> r.w.store == LogDeviceEvent(w.store, id, "disconnected", None, None, DbOf(env)).value.0)
  {
    if id !in w.devices then Step(w, false)
    else
      var w' := w.(devices := w.devices - {id}, reg := Sessions.DisconnectDevice(w.reg, id));
      var b := Broadcast(w', DeviceDisconnected(id), None, env);
      match LogDeviceEvent(b.store, id, "disconnected", None, None, DbOf(env))
      case Failure(_) => Step(b, true)
      case Success((s, _)) => Step(b.(store := s), false)
  }

  /** `handle_device_message`: dispatch on the `type` tag. `ping` refreshes
      the connection's `last_seen` (not the session); any other tag changes
      nothing. The three handlers catch their own exceptions. */
  function HandleDeviceMessage(w: World, id: string, msg: Object, env: Env): (r: World)
    ensures Get(msg, "type") == Str("camera_frame") ==> r == OnCameraFrame(w, id, msg, env)
    ensures Get(msg, "type") == Str("location_update") ==> r == OnLocationUpdate(w, id, msg, env)
    ensures Get(msg, "type") == Str("system_info") ==> r == OnSystemInfo(w, id, msg, env)
    ensures Get(msg, "type") == Str("ping") ==> r == OnPing(w, id, env.now)
    ensures Get(msg, "type") !in {Str("camera_frame"), Str("location_update"), Str("system_info"), Str("ping")} ==> r == w
  {
    match Get(msg, "type")
    case Str("camera_frame") => OnCameraFrame(w, id, msg, env)
    case Str("location_update") => OnLocationUpdate(w, id, msg, env)
    case Str("system_info") => OnSystemInfo(w, id, msg, env)
    case Str("ping") => OnPing(w, id, env.now)
    case _ => w
  }

  /** The `ping` branch: only the live connection's `last_seen` moves; the
      session, the store, the admins and the outbox stay as they are. */
  function OnPing(w: World, id: string, now: int): (r: World)
    ensures r.admins == w.admins && r.reg == w.reg && r.store == w.store && r.outbox == w.outbox
    ensures r.devices.Keys == w.devices.Keys
    ensures forall k :: k in w.devices && k != id ==> r.devices[k] == w.devices[k]
    ensures id in w.devices ==> r.devices[id] == w.devices[id].(lastSeen := now)
  {
    if id in w.devices then w.(devices := w.devices[id := w.devices[id].(lastSeen := now)]) else w
  }

  /** `_handle_camera_frame`: parse, decode the base64, store the frame, set
      the session's current camera, broadcast the frame's metadata. The
      first failing step ends the handler with nothing further changed. */
  function OnCameraFrame(w: World, id: string, msg: Object, env: Env): (r: World)
    ensures r.devices == w.devices
    ensures ParseCameraFrame(msg).None? ==> r == w
    ensures ParseCameraFrame(msg).Some? && env.b64(ParseCameraFrame(msg).value.data).None? ==> r == w
    ensures ParseCameraFrame(msg).Some? && env.b64(ParseCameraFrame(msg).value.data).Some? ==>
      var f := ParseCameraFrame(msg).value;
      var bytes := env.b64(f.data).value;
      var saved := SaveCameraFrame(w.store, id, f.camera, bytes, f.width, f.height, f.timestamp, DbOf(env));
      (saved.Failure? ==> r == w) &&
      (saved.Success? ==>
      && r.store == saved.value.0
      && r.reg == UpdateDeviceData(w.reg, id, SessionPatch(None, None, Some(f.camera)), env.now)
      && r.outbox == w.outbox + [Send(w.admins - env.broken, FrameNotice(id, f))])
  {
    match ParseCameraFrame(msg)
    case None => w
    case Some(f) =>
      match env.b64(f.data)
      case None => w
      case Some(bytes) =>
        match SaveCameraFrame(w.store, id, f.camera, bytes, f.width, f.height, f.timestamp, DbOf(env))
        case Failure(_) => w
        case Success((s, _)) =>
          var w' := w.(store := s, reg := UpdateDeviceData(w.reg, id, SessionPatch(None, None, Some(f.camera)), env.now));
          Broadcast(w', FrameNotice(id, f), None, env)
  }

  /** `_handle_location_update`: parse (no coordinate range check on this
      path), store the fix, set the session's location, broadcast it. */
  function OnLocationUpdate(w: World, id: string, msg: Object, env: Env): (r: World)
    ensures r.devices == w.devices
    ensures ParseLocationUpdate(msg).None? ==> r == w
    ensures ParseLocationUpdate(msg).Some? ==>
      var l := ParseLocationUpdate(msg).value;
      var saved := SaveLocation(w.store, id, l.lat, l.lon, l.accuracy, l.timestamp, DbOf(env));
      (saved.Failure? ==> r == w) &&
      (saved.Success? ==>
      && r.store == saved.value.0
      && r.reg == UpdateDeviceData(w.reg, id, SessionPatch(None, Some(Obj(LocationDict(l))), None), env.now)
      && r.outbox == w.outbox + [Send(w.admins - env.broken, LocationNotice(id, l))])
  {
    match ParseLocationUpdate(msg)
    case None => w
    case Some(l) =>
      match SaveLocation(w.store, id, l.lat, l.lon, l.accuracy, l.timestamp, DbOf(env))
      case Failure(_) => w
      case Success((s, _)) =>
        var w' := w.(store := s, reg := UpdateDeviceData(w.reg, id, SessionPatch(None, Some(Obj(LocationDict(l))), None), env.now));
        Broadcast(w', LocationNotice(id, l), None, env)
  }

  /** The dict `_handle_system_info` works on: `message.get("data", {})`,
      when that is a dict. */
  function SystemInfoData(msg: Object): Option<Object> {
    match GetOr(msg, "data", Obj(map[]))
    case Obj(data) => Some(data)
    case _ => None
  }

  /** `_handle_system_info`: anything but a dict under `data` (missing means
      `{}`) changes nothing. The session's battery level becomes
      `data["battery_level"]`, or None when absent, before the event is
      logged; a failed log therefore leaves the session updated and sends
      nothing. */
  function OnSystemInfo(w: World, id: string, msg: Object, env: Env): (r: World)
    ensures r.devices == w.devices
    ensures SystemInfoData(msg).None? ==> r == w
    ensures SystemInfoData(msg).Some? ==>
      r.reg == UpdateDeviceData(w.reg, id, SessionPatch(Some(Get(SystemInfoData(msg).value, "battery_level")), None, None), env.now)
    ensures SystemInfoData(msg).Some? && LogDeviceEvent(w.store, id, "system_info", SystemInfoData(msg), None, DbOf(env)).Failure? ==>
      r.store == w.store && r.outbox == w.outbox && r.admins == w.admins
    ensures SystemInfoData(msg).Some? && LogDeviceEvent(w.store, id, "system_info", SystemInfoData(msg), None, DbOf(env)).Success? ==>
      && r.store == LogDeviceEvent(w.store, id, "system_info", SystemInfoData(msg), None, DbOf(env)).value.0
      && |r.outbox| == |w.outbox| + 1
      && r.outbox[|w.outbox|].Send? && r.outbox[|w.outbox|].msg == DeviceUpdate(id, SystemInfoData(msg).value)
  {
    match SystemInfoData(msg)
    case None => w
    case Some(data) =>
      var w' := w.(reg := UpdateDeviceData(w.reg, id, SessionPatch(Some(Get(data, "battery_level")), None, None), env.now));
      match LogDeviceEvent(w.store, id, "system_info", Some(data), None, DbOf(env))
      case Failure(_) => w'
      case Success((s, _)) => Broadcast(w'.(store := s), DeviceUpdate(id, data), None, env)
  }

  /** `send_command`: false with no effect for an id without a connection or
      a send that raises; otherwise the `command` message is delivered and a
      `command_sent` event logged, and the answer is whether logging
      succeeded. The one `try` covers both, so a command whose logging fails
      has still been delivered when the answer is false. */
  function SendCommand(w: World, id: string, cmd: DeviceCommand, env: Env): (r: (World, bool))
    ensures id !in w.devices ==> r == (w, false)
    ensures id in w.devices && !Delivers(w.devices[id].socket, CommandMessage(cmd), env) ==> r == (w, false)
    ensures r.1 ==> id in w.devices && r.0.outbox == w.outbox + [Send({w.devices[id].socket}, CommandMessage(cmd))]
    ensures r.1 <==> id in w.devices && Delivers(w.devices[id].socket, CommandMessage(cmd), env)
                     && LogDeviceEvent(w.store, id, "command_sent", Some(CommandDict(cmd)), None, DbOf(env)).Success?
    ensures id in w.devices && Delivers(w.devices[id].socket, CommandMessage(cmd), env) ==>
      r.0.outbox == w.outbox + [Send({w.devices[id].socket}, CommandMessage(cmd))]
    ensures r.1 ==> r.0.store == LogDeviceEvent(w.store, id, "command_sent", Some(CommandDict(cmd)), None, DbOf(env)).value.0
    ensures !r.1 ==> r.0.store == w.store
    ensures r.0.devices == w.devices && r.0.admins == w.admins && r.0.reg == w.reg
  {
    if id !in w.devices then (w, false)
    else
      var sock := w.devices[id].socket;
      if !Delivers(sock, CommandMessage(cmd), env) then (w, false)
      else
        var w' := w.(outbox := w.outbox + [Send({sock}, CommandMessage(cmd))]);
        match LogDeviceEvent(w.store, id, "command_sent", Some(CommandDict(cmd)), None, DbOf(env))
        case Failure(_) => (w', false)
        case Success((s, _)) => (w'.(store := s), true)
  }

  /** `get_active_devices`: a copy of the connection map. */
  function GetActiveDevices(w: World): (r: map<string, Connection>)
    ensures forall id :: id in r <==> id in w.devices
  {
    w.devices
  }

  /** The `/api/stats` body. */
  datatype Stats = Stats(totalDevices: nat, onlineDevices: nat, adminConnections: nat)

  /** `get_stats`: both device counts are the number of live connections;
      offline sessions are not counted. */
  function GetStats(w: World): (r: Stats)
    ensures r.totalDevices == r.onlineDevices == |w.devices|
    ensures r.adminConnections == |w.admins|
  {
    var devices := GetActiveDevices(w);
    Stats(|devices|, |devices|, |w.admins|)
  }

  // ---------------------------------------------------------------------------
  // The datetime values of `session.dict()`, as written

  /** `connect_device` as handler.py writes it: the `device_connected`
      message carries the raw `session.dict()`, so every admin's send raises
      and every admin is dropped. */
  function ConnectDeviceAsWritten(w: World, info: DeviceInfo, sock: Socket, env: Env): (r: Step)
    ensures r.raised == RegisterDevice(w.reg, w.store, info, env.freshToken, DbOf(env)).session.None?
    ensures !r.raised ==>
      && r.w.devices == w.devices[info.id := Connection(info.id, info.name, sock, env.now)]
      && r.w.admins == {} && r.w.outbox == w.outbox + [Send({}, DeviceConnectedAsWritten(RegisterDevice(w.reg, w.store, info, env.freshToken, DbOf(env)).session.value))]
  {
    var reg := RegisterDevice(w.reg, w.store, info, env.freshToken, DbOf(env));
    var w' := w.(reg := reg.reg, store := reg.store);
    match reg.session
    case None => Step(w', true)
    case Some(session) =>
      var w'' := w'.(devices := w.devices[info.id := Connection(info.id, info.name, sock, env.now)]);
      Step(Broadcast(w'', DeviceConnectedAsWritten(session), None, env), false)
  }

  /** `connect_admin` as handler.py writes it: the `device_list` send raises
      as soon as one session exists, however healthy the socket. */
  function ConnectAdminAsWritten(w: World, sock: Socket, env: Env): (r: Step)
    requires Sessions.Valid(w.reg)
    ensures r.w.admins == w.admins + {sock}
    ensures r.raised <==> sock in env.broken || w.reg.order != []
  {
    var msg := DeviceListAsWritten(w.reg);
    var w' := w.(admins := w.admins + {sock});
    DeviceListAsWrittenFails(w.reg);
    if Delivers(sock, msg, env) then Step(w'.(outbox := w.outbox + [Send({sock}, msg)]), false)
    else Step(w', true)
  }

  /** One raw session dict is enough to make the whole list unencodable. */
  lemma DeviceListAsWrittenFails(reg: Registry)
    requires Sessions.Valid(reg)
    ensures reg.order != [] ==> !Serializable(Obj(DeviceListAsWritten(reg)))
  {
    if reg.order != [] {
      var all := GetAllDevices(reg);
      SessionDictNotSerializable(all[0]);
      assert !Serializable(DeviceListAsWritten(reg)["devices"].items[0]);
    }
  }

  /** With the sessions encoded, a `device_connected` broadcast drops only
      the admins whose socket failed, and connecting an admin raises only
      when its own socket fails. */
  lemma EncodedSessionsReachAdmins(w: World, info: DeviceInfo, sock: Socket, env: Env)
    requires Sessions.Valid(w.reg) && w.reg.order != [] && sock !in env.broken
    ensures !ConnectDevice(w, info, sock, env).raised ==>
      ConnectDevice(w, info, sock, env).w.admins == w.admins - env.broken
    ensures !ConnectAdmin(w, sock, env).raised
    ensures ConnectAdminAsWritten(w, sock, env).raised
  {
  }

  // ---------------------------------------------------------------------------
  // The hub's invariant

  /** Every live connection sits under its own id, belongs to an online
      session and to a device the store knows; the registry and the store
      keep their own invariants. */
  predicate Valid(w: World) {
    && Sessions.Valid(w.reg)
    && RecordStore.Valid(w.store)
    && Linked(w.devices, w.reg, w.store)
  }

  /** Every live connection is keyed by its own id, has an online session and
      names a stored device. */
  predicate Linked(devices: map<string, Connection>, reg: Registry, store: Store) {
    forall id :: id in devices ==> devices[id].deviceId == id && LinkedId(id, reg, store)
  }

  /** The id has an online session and parses to a stored device. */
  predicate LinkedId(id: string, reg: Registry, store: Store) {
    && id in reg.sessions && reg.sessions[id].isOnline
    && Parse(id).Some? && Parse(id).value in store.devices
  }

  lemma InitialValid()
    ensures Valid(Initial)
  {
  }

  lemma ConnectDeviceKeepsValid(w: World, info: DeviceInfo, sock: Socket, env: Env)
    requires Valid(w)
    ensures Valid(ConnectDevice(w, info, sock, env).w)
  {
    RegisterKeepsValid(w.reg, w.store, info, env.freshToken, DbOf(env));
    var reg := RegisterDevice(w.reg, w.store, info, env.freshToken, DbOf(env));
    var r := ConnectDevice(w, info, sock, env).w;
    if reg.session.Some? {
      assert r.reg == Put(w.reg, info.id, reg.session.value);
      forall id | id in r.devices
        ensures r.devices[id].deviceId == id
        ensures id in r.reg.sessions && r.reg.sessions[id].isOnline
        ensures Parse(id).Some? && Parse(id).value in r.store.devices
      {
        if id != info.id {
          assert id in w.devices;
          assert r.reg.sessions[id] == w.reg.sessions[id];
        }
      }
    }
  }

  lemma DisconnectDeviceKeepsValid(w: World, id: string, env: Env)
    requires Valid(w)
    ensures Valid(DisconnectDevice(w, id, env).w)
  {
    if id in w.devices {
      var r := DisconnectDevice(w, id, env).w;
      LogKeepsValid(w.store, id, "disconnected", None, None, DbOf(env));
      assert RecordStore.Valid(r.store);
      DisconnectKeepsSession(w.reg, id);
      assert Sessions.Valid(r.reg);
      DisconnectKeepsOthersOnline(w, id, env);
    }
  }

  /** The connections left after a disconnect still have online sessions. */
  lemma DisconnectKeepsOthersOnline(w: World, id: string, env: Env)
    requires Valid(w) && id in w.devices
    ensures var r := DisconnectDevice(w, id, env).w;
      forall k :: k in r.devices ==>
        && r.devices[k].deviceId == k
        && k in r.reg.sessions && r.reg.sessions[k].isOnline
        && Parse(k).Some? && Parse(k).value in r.store.devices
  {
    var r := DisconnectDevice(w, id, env).w;
    assert r.store.devices == w.store.devices;
    forall k | k in r.devices
      ensures r.devices[k].deviceId == k && k in r.reg.sessions && r.reg.sessions[k].isOnline
    {
      assert k in w.devices && k != id;
    }
  }

  lemma AdminStepsKeepValid(w: World, sock: Socket, env: Env)
    requires Valid(w)
    ensures Valid(ConnectAdmin(w, sock, env).w)
    ensures Valid(DisconnectAdmin(w, sock))
  {
  }

  /** A handler that stores rows for a known device and updates that
      device's session keeps the invariant, whatever it sends. */
  lemma RecordedValid(w: World, s: Store, id: string, patch: SessionPatch, now: int, admins: set<Socket>, outbox: seq<Out>)
    requires Valid(w) && RecordStore.Valid(s) && s.devices == w.store.devices
    ensures Valid(w.(store := s, reg := UpdateDeviceData(w.reg, id, patch, now), admins := admins, outbox := outbox))
  {
    UpdateDataKeepsValid(w.reg, id, patch, now);
  }

  lemma FrameKeepsValid(w: World, id: string, msg: Object, env: Env)
    requires Valid(w)
    ensures Valid(OnCameraFrame(w, id, msg, env))
  {
    var r := OnCameraFrame(w, id, msg, env);
    if ParseCameraFrame(msg).Some? && env.b64(ParseCameraFrame(msg).value.data).Some? {
      var f := ParseCameraFrame(msg).value;
      var saved := SaveCameraFrame(w.store, id, f.camera, env.b64(f.data).value, f.width, f.height, f.timestamp, DbOf(env));
      if saved.Success? {
        SaveFrameKeepsValid(w.store, id, f.camera, env.b64(f.data).value, f.width, f.height, f.timestamp, DbOf(env));
        var patch := SessionPatch(None, None, Some(f.camera));
        RecordedValid(w, saved.value.0, id, patch, env.now, r.admins, r.outbox);
        assert r == w.(store := saved.value.0, reg := UpdateDeviceData(w.reg, id, patch, env.now), admins := r.admins, outbox := r.outbox);
      }
    }
  }

  lemma LocationKeepsValid(w: World, id: string, msg: Object, env: Env)
    requires Valid(w)
    ensures Valid(OnLocationUpdate(w, id, msg, env))
  {
    var r := OnLocationUpdate(w, id, msg, env);
    if ParseLocationUpdate(msg).Some? {
      var l := ParseLocationUpdate(msg).value;
      var saved := SaveLocation(w.store, id, l.lat, l.lon, l.accuracy, l.timestamp, DbOf(env));
      if saved.Success? {
        SaveLocationKeepsValid(w.store, id, l.lat, l.lon, l.accuracy, l.timestamp, DbOf(env));
        var patch := SessionPatch(None, Some(Obj(LocationDict(l))), None);
        RecordedValid(w, saved.value.0, id, patch, env.now, r.admins, r.outbox);
        assert r == w.(store := saved.value.0, reg := UpdateDeviceData(w.reg, id, patch, env.now), admins := r.admins, outbox := r.outbox);
      }
    }
  }

  lemma SystemInfoKeepsValid(w: World, id: string, msg: Object, env: Env)
    requires Valid(w)
    ensures Valid(OnSystemInfo(w, id, msg, env))
  {
    var r := OnSystemInfo(w, id, msg, env);
    if SystemInfoData(msg).Some? {
      var data := SystemInfoData(msg).value;
      var logged := LogDeviceEvent(w.store, id, "system_info", Some(data), None, DbOf(env));
      var patch := SessionPatch(Some(Get(data, "battery_level")), None, None);
      LogKeepsValid(w.store, id, "system_info", Some(data), None, DbOf(env));
      var s := if logged.Success? then logged.value.0 else w.store;
      RecordedValid(w, s, id, patch, env.now, r.admins, r.outbox);
      assert r == w.(store := s, reg := UpdateDeviceData(w.reg, id, patch, env.now), admins := r.admins, outbox := r.outbox);
    }
  }

  lemma HandleKeepsValid(w: World, id: string, msg: Object, env: Env)
    requires Valid(w)
    ensures Valid(HandleDeviceMessage(w, id, msg, env))
  {
    var t := Get(msg, "type");
    if t == Str("camera_frame") {
      FrameKeepsValid(w, id, msg, env);
    } else if t == Str("location_update") {
      LocationKeepsValid(w, id, msg, env);
    } else if t == Str("system_info") {
      SystemInfoKeepsValid(w, id, msg, env);
    } else if t == Str("ping") {
      PingKeepsValid(w, id, msg, env);
    } else {
      assert HandleDeviceMessage(w, id, msg, env) == w;
    }
  }

  lemma PingKeepsValid(w: World, id: string, msg: Object, env: Env)
    requires Valid(w) && Get(msg, "type") == Str("ping")
    ensures Valid(HandleDeviceMessage(w, id, msg, env))
  {
    OnPingKeepsValid(w, id, env.now);
  }

  /** Refreshing a connection's `last_seen` keeps the invariant. */
  lemma OnPingKeepsValid(w: World, id: string, now: int)
    requires Valid(w)
    ensures Valid(OnPing(w, id, now))
  {
    if id in w.devices {
      TouchKeepsLinked(w.devices, w.reg, w.store, id, now);
    }
  }

  lemma TouchKeepsLinked(devices: map<string, Connection>, reg: Registry, store: Store, id: string, now: int)
    requires Linked(devices, reg, store) && id in devices
    ensures Linked(devices[id := devices[id].(lastSeen := now)], reg, store)
  {
    var r := devices[id := devices[id].(lastSeen := now)];
    forall k | k in r ensures r[k].deviceId == k {
      assert k in devices;
    }
  }

  /** Handling a device message never adds, drops or re-routes a connection. */
  lemma HandleKeepsConnections(w: World, id: string, msg: Object, env: Env)
    ensures var r := HandleDeviceMessage(w, id, msg, env);
      && r.devices.Keys == w.devices.Keys
      && forall k :: k in w.devices ==> r.devices[k].socket == w.devices[k].socket && r.devices[k].deviceId == w.devices[k].deviceId
  {
    var t := Get(msg, "type");
    if t == Str("camera_frame") {
    } else if t == Str("location_update") {
    } else if t == Str("system_info") {
    } else if t == Str("ping") {
    } else {
    }
  }

  /** A command delivered over a live socket whose `command_sent` event
      cannot be logged is answered false although the device has the
      message, and the store is left as it was. */
  lemma DeliveredButUnlogged(w: World, id: string, cmd: DeviceCommand, env: Env)
    requires id in w.devices && Delivers(w.devices[id].socket, CommandMessage(cmd), env)
    requires LogDeviceEvent(w.store, id, "command_sent", Some(CommandDict(cmd)), None, DbOf(env)).Failure?
    ensures SendCommand(w, id, cmd, env) == (w.(outbox := w.outbox + [Send({w.devices[id].socket}, CommandMessage(cmd))]), false)
  {
  }

  lemma SendCommandKeepsValid(w: World, id: string, cmd: DeviceCommand, env: Env)
    requires Valid(w)
    ensures Valid(SendCommand(w, id, cmd, env).0)
  {
    LogKeepsValid(w.store, id, "command_sent", Some(CommandDict(cmd)), None, DbOf(env));
  }

  // ---------------------------------------------------------------------------
  // Properties over several steps

  /** Disconnecting a device a second time changes nothing. */
  lemma DisconnectDeviceIdempotent(w: World, id: string, env: Env, env': Env)
    ensures var once := DisconnectDevice(w, id, env).w;
      DisconnectDevice(once, id, env') == Step(once, false)
  {
  }

  lemma DisconnectAdminIdempotent(w: World, sock: Socket)
    ensures DisconnectAdmin(DisconnectAdmin(w, sock), sock) == DisconnectAdmin(w, sock)
  {
  }

  /** A connected device whose frame decodes has it stored whenever the
      database is reachable: the connection invariant rules out the
      unknown-id and foreign-key failures. */
  lemma ConnectedFrameIsStored(w: World, id: string, msg: Object, env: Env)
    requires Valid(w) && id in w.devices && env.up
    requires ParseCameraFrame(msg).Some? && env.b64(ParseCameraFrame(msg).value.data).Some?
    ensures var f := ParseCameraFrame(msg).value;
      var r := OnCameraFrame(w, id, msg, env);
      && |r.store.frames| == |w.store.frames| + 1
      && r.store.frames[|w.store.frames|].camera == f.camera
      && r.reg.sessions[id].currentCamera == f.camera
  {
  }
}

=== FILE: json.dfy ===
/** Python values as they travel through the backend: what `json.loads`
    produces for an inbound message, and what a handler hands to `send_json`. */
module Json {

  /** A decoded JSON value, plus `Time`: a Python `datetime` object (here in
      milliseconds), which can sit inside a dict but has no JSON encoding. */
  datatype Value =
    | Null
    | Bool(b: bool)
    | Int(i: int)
    | Real(r: real)
    | Str(s: string)
    | Arr(items: seq<Value>)
    | Obj(fields: map<string, Value>)
    | Time(ms: int)

  /** A Python dict with string keys. */
  type Object = map<string, Value>

  /** `d.get(k)`: a missing key reads as `None`. */
  function Get(d: Object, k: string): Value {
    if k in d then d[k] else Null
  }

  /** `d.get(k, default)`: the default is used only when the key is missing. */
  function GetOr(d: Object, k: string, default: Value): Value {
    if k in d then d[k] else default
  }

  /** Whether `json.dumps` accepts the value: it refuses `datetime` objects
      wherever they are nested. */
  predicate Serializable(v: Value)
    decreases v
  {
    match v
    case Time(_) => false
    case Arr(items) => forall i :: 0 <= i < |items| ==> Serializable(items[i])
    case Obj(fields) => forall k :: k in fields ==> Serializable(fields[k])
    case _ => true
  }

  /** Python truthiness (`if v:` / `v or w`). */
  predicate Truthy(v: Value) {
    match v
    case Null => false
    case Bool(b) => b
    case Int(i) => i != 0
    case Real(r) => r != 0.0
    case Str(s) => s != ""
    case Arr(items) => items != []
    case Obj(fields) => fields != map[]
    case Time(_) => true
  }

  /** Renders every `datetime` as its millisecond count, as an encoder run
      before `send_json` would; every other value is kept. */
  function Encode(v: Value): (r: Value)
    ensures Serializable(r)
    decreases v
  {
    match v
    case Time(ms) => Int(ms)
    case Arr(items) => Arr(seq(|items|, i requires 0 <= i < |items| => Encode(items[i])))
    case Obj(fields) => Obj(map k | k in fields :: Encode(fields[k]))
    case _ => v
  }

  /** Encoding changes nothing in a value `json.dumps` already accepts. */
  lemma {:induction false} EncodeKeepsSerializable(v: Value)
    requires Serializable(v)
    ensures Encode(v) == v
    decreases v
  {
    match v
    case Arr(items) =>
      forall i | 0 <= i < |items|
        ensures Encode(items[i]) == items[i]
      {
        EncodeKeepsSerializable(items[i]);
      }
    case Obj(fields) =>
      forall k | k in fields
        ensures Encode(fields[k]) == fields[k]
      {
        EncodeKeepsSerializable(fields[k]);
      }
      assert (map k | k in fields :: Encode(fields[k])) == fields;
    case _ =>
  }
}

=== FILE: lifecycle.dfy ===
/** The two WebSocket endpoints of backend/main.py as state machines over the
    frames a socket receives: `/ws/device` (register first, then stream
    messages, then clean up) and `/ws/admin` (check the token, connect, then
    forward commands). */
module Lifecycle {
  import opened Wrappers
  import opened Json
  import opened Models
  import opened Sessions
  import opened Hub

  /** What one `receive_text` + `json.loads` yields: a decoded value, text
      that fails to decode or any other receive error, or the peer's close
      (`WebSocketDisconnect`). */
  datatype Frame = Text(v: Value) | Garbage | Closed

  /** A received frame together with the outside world at that moment. */
  datatype Inbound = Inbound(env: Env, frame: Frame)

  // ---------------------------------------------------------------------------
  // /ws/device

  /** Waiting for the `register` message; streaming for a bound device id;
      or finished, after which nothing more is read. */
  datatype DevicePhase = AwaitingRegister | Streaming(id: string) | Finished

  datatype DeviceRun = DeviceRun(w: World, phase: DevicePhase)

  /** The `except` clauses: `disconnect_device` runs only when a device id
      was bound and is non-empty (`if device_id:`). */
  function Cleanup(w: World, bound: Option<string>, env: Env): (r: World)
    ensures bound.None? || bound == Some("") ==> r == w
    ensures bound.Some? && bound.value != "" ==> r == Hub.DisconnectDevice(w, bound.value, env).w
  {
    if bound.Some? && bound.value != "" then Hub.DisconnectDevice(w, bound.value, env).w else w
  }

  /** The first frame: anything but a dict whose `type` is `register` ends
      the endpoint (closing with 1008 when the dict has another type), and
      so does a `device_info` that does not validate; these failures come
      before `device_id` is bound, so nothing is cleaned up. Once bound, a
      failing `connect_device` is cleaned up under that id. */
  function Handshake(w: World, sock: Socket, ev: Inbound): (r: DeviceRun)
    ensures r.phase != AwaitingRegister
    ensures r.phase.Streaming? ==>
      && ev.frame.Text? && ev.frame.v.Obj? && Get(ev.frame.v.fields, "type") == Str("register")
      && var info := ParseDeviceInfo(GetOr(ev.frame.v.fields, "device_info", Obj(map[])));
         && info.Some? && r.phase.id == info.value.id
         && r.w == ConnectDevice(w, info.value, sock, ev.env).w
  {
    match ev.frame
    case Text(Obj(m)) =>
      if Get(m, "type") != Str("register") then DeviceRun(w.(outbox := w.outbox + [Close(sock, 1008)]), Finished)
      else
        (match ParseDeviceInfo(GetOr(m, "device_info", Obj(map[])))
         case None => DeviceRun(w, Finished)
         case Some(info) =>
           var c := ConnectDevice(w, info, sock, ev.env);
           if c.raised then DeviceRun(Cleanup(c.w, Some(info.id), ev.env), Finished)
           else DeviceRun(c.w, Streaming(info.id)))
    case _ => DeviceRun(w, Finished)
  }

  /** One received frame. While streaming, a dict goes to
      `handle_device_message`; a close, a receive error or a non-dict value
      ends the loop through the cleanup path. */
  function DeviceStep(s: DeviceRun, sock: Socket, ev: Inbound): (r: DeviceRun)
    ensures s.phase.Finished? ==> r == s
    ensures s.phase.Streaming? && ev.frame.Text? && ev.frame.v.Obj? ==>
      r == DeviceRun(HandleDeviceMessage(s.w, s.phase.id, ev.frame.v.fields, ev.env), s.phase)
    ensures s.phase.Streaming? && !(ev.frame.Text? && ev.frame.v.Obj?) ==>
      r == DeviceRun(Cleanup(s.w, Some(s.phase.id), ev.env), Finished)
  {
    match s.phase
    case Finished => s
    case AwaitingRegister => Handshake(s.w, sock, ev)
    case Streaming(id) =>
      match ev.frame
      case Text(Obj(m)) => DeviceRun(HandleDeviceMessage(s.w, id, m, ev.env), s.phase)
      case _ => DeviceRun(Cleanup(s.w, Some(id), ev.env), Finished)
  }

  /** The endpoint run over the frames received, in order. */
  function RunDevice(s: DeviceRun, sock: Socket, evs: seq<Inbound>): DeviceRun
    decreases |evs|
  {
    if evs == [] then s else RunDevice(DeviceStep(s, sock, evs[0]), sock, evs[1..])
  }

  /** A finished endpoint reads nothing more. */
  lemma {:induction false} FinishedStaysFinished(s: DeviceRun, sock: Socket, evs: seq<Inbound>)
    requires s.phase.Finished?
    ensures RunDevice(s, sock, evs) == s
    decreases |evs|
  {
    if evs != [] {
      FinishedStaysFinished(DeviceStep(s, sock, evs[0]), sock, evs[1..]);
    }
  }

  /** A first message of another type is answered with a 1008 close, no
      device is connected, and nothing received afterwards has any effect. */
  lemma NotRegisterIsClosed(w: World, sock: Socket, m: Object, env: Env, rest: seq<Inbound>)
    requires Get(m, "type") != Str("register")
    ensures var r := RunDevice(DeviceRun(w, AwaitingRegister), sock, [Inbound(env, Text(Obj(m)))] + rest);
      && r.phase == Finished
      && r.w == w.(outbox := w.outbox + [Close(sock, 1008)])
  {
    var evs := [Inbound(env, Text(Obj(m)))] + rest;
    var s1 := DeviceStep(DeviceRun(w, AwaitingRegister), sock, evs[0]);
    assert s1 == DeviceRun(w.(outbox := w.outbox + [Close(sock, 1008)]), Finished);
    assert evs[1..] == rest;
    FinishedStaysFinished(s1, sock, rest);
  }

  /** A handshake that fails before an id is bound (a close, undecodable
      text, a non-dict, or a `device_info` that does not validate) leaves
      the world exactly as it was. */
  lemma UnboundFailureHasNoEffect(w: World, sock: Socket, ev: Inbound, rest: seq<Inbound>)
    requires ev.frame.Text? ==> ev.frame.v.Obj? && Get(ev.frame.v.fields, "type") == Str("register")
    requires ev.frame.Text? ==> ParseDeviceInfo(GetOr(ev.frame.v.fields, "device_info", Obj(map[]))).None?
    ensures RunDevice(DeviceRun(w, AwaitingRegister), sock, [ev] + rest) == DeviceRun(w, Finished)
  {
    assert ([ev] + rest)[1..] == rest;
    assert DeviceStep(DeviceRun(w, AwaitingRegister), sock, ev) == DeviceRun(w, Finished);
    FinishedStaysFinished(DeviceRun(w, Finished), sock, rest);
  }

  /** Within one run, a streaming endpoint's id is connected through this
      very socket. */
  predicate Bound(s: DeviceRun, sock: Socket) {
    s.phase.Streaming? ==> s.phase.id in s.w.devices && s.w.devices[s.phase.id].socket == sock
  }

  lemma HandshakeKeepsValid(w: World, sock: Socket, ev: Inbound)
    requires Hub.Valid(w)
    ensures Hub.Valid(Handshake(w, sock, ev).w) && Bound(Handshake(w, sock, ev), sock)
  {
    var r := Handshake(w, sock, ev);
    if ev.frame.Text? && ev.frame.v.Obj? && Get(ev.frame.v.fields, "type") == Str("register")
       && ParseDeviceInfo(GetOr(ev.frame.v.fields, "device_info", Obj(map[]))).Some? {
      var info := ParseDeviceInfo(GetOr(ev.frame.v.fields, "device_info", Obj(map[]))).value;
      RegisterStepKeepsValid(w, info, sock, ev.env);
    } else if ev.frame.Text? && ev.frame.v.Obj? && Get(ev.frame.v.fields, "type") != Str("register") {
      assert r.w == w.(outbox := w.outbox + [Close(sock, 1008)]);
    } else {
      assert r.w == w;
    }
  }

  lemma RegisterStepKeepsValid(w: World, info: DeviceInfo, sock: Socket, env: Env)
    requires Hub.Valid(w)
    ensures var c := ConnectDevice(w, info, sock, env);
      var r := if c.raised then DeviceRun(Cleanup(c.w, Some(info.id), env), Finished) else DeviceRun(c.w, Streaming(info.id));
      Hub.Valid(r.w) && Bound(r, sock)
  {
    var c := ConnectDevice(w, info, sock, env);
    ConnectDeviceKeepsValid(w, info, sock, env);
    if c.raised {
      CleanupKeepsValid(c.w, Some(info.id), env);
    } else {
      assert c.w.devices[info.id].socket == sock;
    }
  }

  lemma StreamStepKeepsValid(w: World, id: string, sock: Socket, ev: Inbound)
    requires Hub.Valid(w) && id in w.devices && w.devices[id].socket == sock
    ensures var r := DeviceStep(DeviceRun(w, Streaming(id)), sock, ev);
      Hub.Valid(r.w) && Bound(r, sock)
  {
    var r := DeviceStep(DeviceRun(w, Streaming(id)), sock, ev);
    if ev.frame.Text? && ev.frame.v.Obj? {
      StreamMessageKeepsValid(w, id, sock, ev.frame.v.fields, ev.env);
      assert r.w == HandleDeviceMessage(w, id, ev.frame.v.fields, ev.env);
    } else {
      CleanupKeepsValid(w, Some(id), ev.env);
      assert r.phase == Finished;
    }
  }

  lemma CleanupKeepsValid(w: World, bound: Option<string>, env: Env)
    requires Hub.Valid(w)
    ensures Hub.Valid(Cleanup(w, bound, env))
  {
    if bound.Some? && bound.value != "" {
      DisconnectDeviceKeepsValid(w, bound.value, env);
    }
  }

  lemma StreamMessageKeepsValid(w: World, id: string, sock: Socket, m: Object, env: Env)
    requires Hub.Valid(w) && id in w.devices && w.devices[id].socket == sock
    ensures var h := HandleDeviceMessage(w, id, m, env);
      Hub.Valid(h) && id in h.devices && h.devices[id].socket == sock
  {
    HandleKeepsValid(w, id, m, env);
    HandleKeepsConnections(w, id, m, env);
  }

  lemma StepKeepsValid(s: DeviceRun, sock: Socket, ev: Inbound)
    requires Hub.Valid(s.w) && Bound(s, sock)
    ensures Hub.Valid(DeviceStep(s, sock, ev).w) && Bound(DeviceStep(s, sock, ev), sock)
  {
    match s.phase
    case Finished =>
    case Streaming(id) =>
      StreamStepKeepsValid(s.w, id, sock, ev);
    case AwaitingRegister =>
      HandshakeKeepsValid(s.w, sock, ev);
  }

  /** Every run keeps the hub's invariant and, while streaming, holds its
      own connection. */
  lemma {:induction false} RunKeepsValid(s: DeviceRun, sock: Socket, evs: seq<Inbound>)
    requires Hub.Valid(s.w) && Bound(s, sock)
    ensures Hub.Valid(RunDevice(s, sock, evs).w) && Bound(RunDevice(s, sock, evs), sock)
    decreases |evs|
  {
    if evs != [] {
      StepKeepsValid(s, sock, evs[0]);
      RunKeepsValid(DeviceStep(s, sock, evs[0]), sock, evs[1..]);
    }
  }

  /** Cleanup is keyed by id alone: when a later registration has replaced
      this socket's connection, this socket's close removes the newer
      connection all the same. */
  lemma StaleCleanupDropsNewerConnection(w: World, id: string, sock: Socket, env: Env)
    requires id != "" && id in w.devices && w.devices[id].socket != sock
    ensures id !in DeviceStep(DeviceRun(w, Streaming(id)), sock, Inbound(env, Closed)).w.devices
  {
  }

  // ---------------------------------------------------------------------------
  // /ws/admin

  datatype AdminPhase = Serving | Gone

  datatype AdminRun = AdminRun(w: World, phase: AdminPhase)

  /** Token check, then `connect_admin`. `tokenValid` stands for
      `decode_access_token` returning a payload. A failing `connect_admin`
      goes through `disconnect_admin`. */
  function AdminOpen(w: World, sock: Socket, tokenValid: bool, env: Env): (r: AdminRun)
    ensures !tokenValid ==> r == AdminRun(w.(outbox := w.outbox + [Close(sock, 1008)]), Gone)
    ensures tokenValid ==> (r.phase.Serving? <==> sock !in env.broken)
    ensures tokenValid && r.phase.Serving? ==> sock in r.w.admins
    ensures tokenValid && r.phase.Gone? ==> sock !in r.w.admins
  {
    if !tokenValid then AdminRun(w.(outbox := w.outbox + [Close(sock, 1008)]), Gone)
    else
      var c := ConnectAdmin(w, sock, env);
      if c.raised then AdminRun(DisconnectAdmin(c.w, sock), Gone) else AdminRun(c.w, Serving)
  }

  /** The keyword arguments `DeviceCommand(command=..., data=...)` receives. */
  function CommandArgs(m: Object): Object {
    map["command" := Get(m, "command"), "data" := GetOr(m, "data", Obj(map[]))]
  }

  /** One frame while serving. A `command` dict whose `command` and `data`
      validate is forwarded when `device_id` is a string; a list or dict id
      cannot be looked up and raises; any other id finds no connection.
      Other dicts are ignored; everything else ends the endpoint through
      `disconnect_admin`. */
  function AdminStep(s: AdminRun, sock: Socket, ev: Inbound): (r: AdminRun)
    ensures s.phase.Gone? ==> r == s
    ensures r.phase.Gone? && s.phase.Serving? ==> r.w == DisconnectAdmin(s.w, sock)
    ensures r.phase.Serving? ==> r.w.admins == s.w.admins
  {
    match s.phase
    case Gone => s
    case Serving =>
      match ev.frame
      case Text(Obj(m)) =>
        if Get(m, "type") != Str("command") then s
        else
          (match ParseCommand(CommandArgs(m))
           case None => AdminRun(DisconnectAdmin(s.w, sock), Gone)
           case Some(cmd) =>
             match Get(m, "device_id")
             case Str(id) => AdminRun(SendCommand(s.w, id, cmd, ev.env).0, Serving)
             case Arr(_) => AdminRun(DisconnectAdmin(s.w, sock), Gone)
             case Obj(_) => AdminRun(DisconnectAdmin(s.w, sock), Gone)
             case _ => s)
      case _ => AdminRun(DisconnectAdmin(s.w, sock), Gone)
  }

  function RunAdmin(s: AdminRun, sock: Socket, evs: seq<Inbound>): AdminRun
    decreases |evs|
  {
    if evs == [] then s else RunAdmin(AdminStep(s, sock, evs[0]), sock, evs[1..])
  }

  /** A `command` message naming a device by string, with no `data`, is
      forwarded as a command with empty data, and the endpoint keeps serving. */
  lemma CommandIsForwarded(s: AdminRun, sock: Socket, env: Env, id: string, command: string, m: Object)
    requires s.phase == Serving
    requires m == map["type" := Str("command"), "device_id" := Str(id), "command" := Str(command)]
    ensures AdminStep(s, sock, Inbound(env, Text(Obj(m))))
         == AdminRun(SendCommand(s.w, id, DeviceCommand(command, map[]), env).0, Serving)
  {
    assert CommandArgs(m) == map["command" := Str(command), "data" := Obj(map[])];
  }

  /** With a valid token, the socket is an admin exactly while the endpoint
      serves: every way out goes through `disconnect_admin`. */
  lemma {:induction false} AdminMembership(s: AdminRun, sock: Socket, evs: seq<Inbound>)
    requires s.phase.Serving? ==> sock in s.w.admins
    requires s.phase.Gone? ==> sock !in s.w.admins
    ensures var r := RunAdmin(s, sock, evs);
      (r.phase.Serving? ==> sock in r.w.admins) && (r.phase.Gone? ==> sock !in r.w.admins)
    decreases |evs|
  {
    if evs != [] {
      AdminMembership(AdminStep(s, sock, evs[0]), sock, evs[1..]);
    }
  }

  /** The whole admin endpoint: rejected outright with a bad token, and
      otherwise no longer an admin once it has stopped serving. */
  lemma AdminEndpoint(w: World, sock: Socket, tokenValid: bool, env: Env, evs: seq<Inbound>)
    ensures !tokenValid ==> RunAdmin(AdminOpen(w, sock, tokenValid, env), sock, evs).w.admins == w.admins
    ensures tokenValid && RunAdmin(AdminOpen(w, sock, tokenValid, env), sock, evs).phase.Gone? ==>
      sock !in RunAdmin(AdminOpen(w, sock, tokenValid, env), sock, evs).w.admins
  {
    var s := AdminOpen(w, sock, tokenValid, env);
    if !tokenValid {
      GoneStaysGone(s, sock, evs);
    } else {
      AdminMembership(s, sock, evs);
    }
  }

  lemma {:induction false} GoneStaysGone(s: AdminRun, sock: Socket, evs: seq<Inbound>)
    requires s.phase.Gone?
    ensures RunAdmin(s, sock, evs) == s
    decreases |evs|
  {
    if evs != [] {
      GoneStaysGone(AdminStep(s, sock, evs[0]), sock, evs[1..]);
    }
  }
}

=== FILE: models.dfy ===
/** The pydantic records of backend/models.py, the way `Model(**d)` builds
    them from a dict and the way `.dict()` turns them back into one. */
module Models {
  import opened Wrappers
  import opened Json

  type byte = x: int | 0 <= x < 256

  /** Raw bytes, such as a decoded image. */
  type Bytes = seq<byte>

  /** What a device announces when it registers. Only `imei` is optional. */
  datatype DeviceInfo = DeviceInfo(
    id: string,
    name: string,
    imei: Option<string>,
    model: string,
    manufacturer: string,
    androidVersion: string,
    sdk: int)

  /** The in-memory view of a connected or once-connected device. `location`
      and `batteryLevel` hold whatever value was last stored, `Null` for None. */
  datatype DeviceSession = DeviceSession(
    deviceId: string,
    deviceName: string,
    imei: Option<string>,
    model: string,
    manufacturer: string,
    androidVersion: string,
    connectedAt: int,
    lastActivity: int,
    currentCamera: string,
    location: Value,
    batteryLevel: Value,
    isOnline: bool)

  /** A `camera_frame` message: `data` is the base64 text of the image. */
  datatype CameraFrame = CameraFrame(camera: string, data: string, width: int, height: int, timestamp: int)

  /** A `location_update` message. */
  datatype LocationUpdate = LocationUpdate(lat: real, lon: real, accuracy: Option<real>, timestamp: int)

  /** A command for a device. */
  datatype DeviceCommand = DeviceCommand(command: string, data: Object)

  // ---------------------------------------------------------------------------
  // Field validation, one pydantic field type each

  /** A required `str` field. */
  function StrField(d: Object, k: string): Option<string> {
    if k in d && d[k].Str? then Some(d[k].s) else None
  }

  /** A required `int` field. */
  function IntField(d: Object, k: string): Option<int> {
    if k in d && d[k].Int? then Some(d[k].i) else None
  }

  /** A required `float` field: integers are widened. */
  function FloatField(d: Object, k: string): Option<real> {
    if k in d && d[k].Real? then Some(d[k].r)
    else if k in d && d[k].Int? then Some(d[k].i as real)
    else None
  }

  /** An `Optional[str] = None` field: `Some(None)` when missing or null,
      `None` when the value has the wrong type. */
  function OptStrField(d: Object, k: string): Option<Option<string>> {
    match Get(d, k)
    case Null => Some(None)
    case Str(s) => Some(Some(s))
    case _ => None
  }

  /** An `Optional[float] = None` field. */
  function OptFloatField(d: Object, k: string): Option<Option<real>> {
    match Get(d, k)
    case Null => Some(None)
    case Real(r) => Some(Some(r))
    case Int(i) => Some(Some(i as real))
    case _ => None
  }

  function OptStr(o: Option<string>): Value {
    match o
    case None => Null
    case Some(s) => Str(s)
  }

  function OptReal(o: Option<real>): Value {
    match o
    case None => Null
    case Some(r) => Real(r)
  }

  // ---------------------------------------------------------------------------
  // DeviceInfo

  /** `DeviceInfo(**v)`: fails unless `v` is a dict carrying every required
      field with the right type; unknown keys are ignored. */
  function ParseDeviceInfo(v: Value): (r: Option<DeviceInfo>)
    ensures r.Some? <==>
      && v.Obj?
      && Get(v.fields, "id").Str? && Get(v.fields, "name").Str? && Get(v.fields, "model").Str?
      && Get(v.fields, "manufacturer").Str? && Get(v.fields, "android_version").Str?
      && Get(v.fields, "sdk").Int?
      && (Get(v.fields, "imei").Null? || Get(v.fields, "imei").Str?)
    ensures r.Some? ==> forall k :: k in InfoDict(r.value) ==> Get(v.fields, k) == InfoDict(r.value)[k]
  {
    if !v.Obj? then None
    else
      var d := v.fields;
      match (StrField(d, "id"), StrField(d, "name"), OptStrField(d, "imei"), StrField(d, "model"),
             StrField(d, "manufacturer"), StrField(d, "android_version"), IntField(d, "sdk"))
      case (Some(id), Some(name), Some(imei), Some(model), Some(mfr), Some(av), Some(sdk)) =>
        Some(DeviceInfo(id, name, imei, model, mfr, av, sdk))
      case _ => None
  }

  /** `device_info.dict()` */
  function InfoDict(info: DeviceInfo): Object {
    map["id" := Str(info.id), "name" := Str(info.name), "imei" := OptStr(info.imei),
        "model" := Str(info.model), "manufacturer" := Str(info.manufacturer),
        "android_version" := Str(info.androidVersion), "sdk" := Int(info.sdk)]
  }

  /** Parsing what `.dict()` printed gives the same record back. */
  lemma ParseInfoDict(info: DeviceInfo)
    ensures ParseDeviceInfo(Obj(InfoDict(info))) == Some(info)
  {
  }

  /** Every field but `imei` is required: dropping one fails the parse, while
      dropping `imei` parses with no IMEI. */
  lemma DeviceInfoRequiredFields(info: DeviceInfo, k: string)
    requires k in {"id", "name", "model", "manufacturer", "android_version", "sdk"}
    ensures ParseDeviceInfo(Obj(InfoDict(info) - {k})) == None
    ensures ParseDeviceInfo(Obj(InfoDict(info) - {"imei"})) == Some(info.(imei := None))
  {
    assert Get(InfoDict(info) - {k}, k) == Null;
    ImeiIsOptional(info);
  }

  lemma ImeiIsOptional(info: DeviceInfo)
    ensures ParseDeviceInfo(Obj(InfoDict(info) - {"imei"})) == Some(info.(imei := None))
  {
  }

  // ---------------------------------------------------------------------------
  // DeviceSession

  /** A session built for a first registration: the class defaults apply
      (`current_camera = "back"`, no location, no battery level, online). */
  function NewSession(info: DeviceInfo, now: int): (s: DeviceSession)
    ensures s.deviceId == info.id && s.deviceName == info.name && s.imei == info.imei
    ensures s.model == info.model && s.manufacturer == info.manufacturer
    ensures s.androidVersion == info.androidVersion
    ensures s.connectedAt == now && s.lastActivity == now
    ensures s.currentCamera == "back" && s.location == Null && s.batteryLevel == Null && s.isOnline
  {
    DeviceSession(info.id, info.name, info.imei, info.model, info.manufacturer, info.androidVersion,
                  now, now, "back", Null, Null, true)
  }

  /** `session.dict()`: the two timestamps stay `datetime` objects. */
  function SessionDict(s: DeviceSession): Object {
    map["device_id" := Str(s.deviceId), "device_name" := Str(s.deviceName),
        "imei" := OptStr(s.imei), "model" := Str(s.model), "manufacturer" := Str(s.manufacturer),
        "android_version" := Str(s.androidVersion),
        "connected_at" := Time(s.connectedAt), "last_activity" := Time(s.lastActivity),
        "current_camera" := Str(s.currentCamera), "location" := s.location,
        "battery_level" := s.batteryLevel, "is_online" := Bool(s.isOnline)]
  }

  /** A session dict can never be handed to `json.dumps` as it stands. */
  lemma SessionDictNotSerializable(s: DeviceSession)
    ensures !Serializable(Obj(SessionDict(s)))
  {
    assert !Serializable(SessionDict(s)["connected_at"]);
  }

  // ---------------------------------------------------------------------------
  // CameraFrame, LocationUpdate, DeviceCommand

  /** `CameraFrame(**message)` */
  function ParseCameraFrame(d: Object): Option<CameraFrame> {
    match (StrField(d, "camera"), StrField(d, "data"), IntField(d, "width"),
           IntField(d, "height"), IntField(d, "timestamp"))
    case (Some(c), Some(data), Some(w), Some(h), Some(t)) => Some(CameraFrame(c, data, w, h, t))
    case _ => None
  }

  /** `LocationUpdate(**message)` */
  function ParseLocationUpdate(d: Object): Option<LocationUpdate> {
    match (FloatField(d, "lat"), FloatField(d, "lon"), OptFloatField(d, "accuracy"), IntField(d, "timestamp"))
    case (Some(lat), Some(lon), Some(acc), Some(t)) => Some(LocationUpdate(lat, lon, acc, t))
    case _ => None
  }

  /** `location.dict()` */
  function LocationDict(l: LocationUpdate): Object {
    map["lat" := Real(l.lat), "lon" := Real(l.lon), "accuracy" := OptReal(l.accuracy),
        "timestamp" := Int(l.timestamp)]
  }

  /** The `location.dict()` stored in a session parses back to the same update,
      and the timestamp is an integer while the accuracy may be absent. */
  lemma ParseLocationDict(l: LocationUpdate)
    ensures ParseLocationUpdate(LocationDict(l)) == Some(l)
    ensures ParseLocationUpdate(map["lat" := Real(l.lat), "lon" := Real(l.lon), "timestamp" := Int(l.timestamp)])
         == Some(l.(accuracy := None))
    ensures ParseLocationUpdate(LocationDict(l)["timestamp" := Real(l.timestamp as real)]) == None
  {
  }

  /** `DeviceCommand(**kwargs)`: `command` is a required string and `data`, a
      dict, defaults to the empty dict when not passed. */
  function ParseCommand(d: Object): (r: Option<DeviceCommand>)
    ensures "data" !in d && "command" in d && d["command"].Str? ==> r == Some(DeviceCommand(d["command"].s, map[]))
    ensures r.Some? <==> StrField(d, "command").Some? && GetOr(d, "data", Obj(map[])).Obj?
  {
    match (StrField(d, "command"), GetOr(d, "data", Obj(map[])))
    case (Some(c), Obj(data)) => Some(DeviceCommand(c, data))
    case _ => None
  }

  /** `command.dict()` */
  function CommandDict(c: DeviceCommand): Object {
    map["command" := Str(c.command), "data" := Obj(c.data)]
  }
}

=== FILE: ordering.dfy ===
/** The shape every history query of the record store shares: keep the
    matching rows, order them by descending timestamp, skip `offset` rows,
    return at most `limit`. */
module Ordering {
  import opened Wrappers

  predicate SortedDesc<T>(s: seq<T>, key: T -> int) {
    forall i, j :: 0 <= i < j < |s| ==> key(s[i]) >= key(s[j])
  }

  /** The rows of `s` that satisfy `keep`, in table order: each matching row
      as often as the table holds it, and nothing else. */
  function Filter<T(==,!new)>(s: seq<T>, keep: T -> bool): (r: seq<T>)
    ensures |r| <= |s|
    ensures forall i :: 0 <= i < |r| ==> r[i] in s && keep(r[i])
    ensures forall i :: 0 <= i < |s| && keep(s[i]) ==> s[i] in r
    ensures forall x :: multiset(r)[x] == if keep(x) then multiset(s)[x] else 0
    decreases |s|
  {
    if s == [] then []
    else
      assert s == [s[0]] + s[1..];
      if keep(s[0]) then [s[0]] + Filter(s[1..], keep)
      else Filter(s[1..], keep)
  }

  /** Places `x` in front of the first row whose key is not above its own. */
  function Insert<T(==)>(x: T, s: seq<T>, key: T -> int): (r: seq<T>)
    requires SortedDesc(s, key)
    ensures SortedDesc(r, key)
    ensures multiset(r) == multiset(s) + multiset{x}
    ensures |r| == |s| + 1
    ensures r[0] == x || (s != [] && r[0] == s[0])
    decreases |s|
  {
    if s == [] || key(x) >= key(s[0]) then [x] + s
    else
      var rest := Insert(x, s[1..], key);
      assert s == [s[0]] + s[1..];
      BoundedByHead(x, s, key, rest);
      assert multiset([s[0]] + rest) == multiset{s[0]} + multiset(rest);
      [s[0]] + rest
  }

  /** The rows after an ordered table's head, plus a row whose key is below
      the head's, all have keys no greater than the head's. */
  lemma BoundedByHead<T>(x: T, s: seq<T>, key: T -> int, rest: seq<T>)
    requires SortedDesc(s, key) && s != [] && key(x) < key(s[0])
    requires multiset(rest) == multiset(s[1..]) + multiset{x}
    ensures forall j :: 0 <= j < |rest| ==> key(rest[j]) <= key(s[0])
  {
    forall j | 0 <= j < |rest| ensures key(rest[j]) <= key(s[0]) {
      assert rest[j] in multiset(rest);
      if rest[j] != x {
        assert rest[j] in multiset(s[1..]);
        var k :| 0 <= k < |s[1..]| && s[1..][k] == rest[j];
        assert s[k + 1] == rest[j];
      }
    }
  }

  /** The rows of `s` in descending `key` order. */
  function SortDesc<T(==)>(s: seq<T>, key: T -> int): (r: seq<T>)
    ensures SortedDesc(r, key)
    ensures multiset(r) == multiset(s)
    ensures |r| == |s|
    decreases |s|
  {
    if s == [] then []
    else
      assert s == [s[0]] + s[1..];
      Insert(s[0], SortDesc(s[1..], key), key)
  }

  /** The first matching row once the matches are ordered newest first
      (`ORDER BY ... DESC LIMIT 1`): a match no other match is newer than. */
  function Newest<T(==,!new)>(rows: seq<T>, keep: T -> bool, key: T -> int): (r: Option<T>)
    ensures r.None? <==> forall i :: 0 <= i < |rows| ==> !keep(rows[i])
    ensures r.Some? ==> r.value in rows && keep(r.value)
    ensures r.Some? ==> forall i :: 0 <= i < |rows| && keep(rows[i]) ==> key(rows[i]) <= key(r.value)
  {
    var matching := Filter(rows, keep);
    var sorted := SortDesc(matching, key);
    if sorted == [] then
      assert |matching| == 0;
      None
    else
      assert sorted[0] in multiset(matching);
      MatchesAreSorted(rows, keep, key);
      Some(sorted[0])
  }

  /** Every match sits somewhere in the ordered matches, hence no later than
      the first of them. */
  lemma MatchesAreSorted<T(!new)>(rows: seq<T>, keep: T -> bool, key: T -> int)
    ensures var sorted := SortDesc(Filter(rows, keep), key);
      forall i :: 0 <= i < |rows| && keep(rows[i]) ==> rows[i] in sorted && key(rows[i]) <= key(sorted[0])
  {
    var matching := Filter(rows, keep);
    var sorted := SortDesc(matching, key);
    forall i | 0 <= i < |rows| && keep(rows[i])
      ensures rows[i] in sorted && key(rows[i]) <= key(sorted[0])
    {
      assert rows[i] in matching;
      assert rows[i] in multiset(matching);
      assert rows[i] in multiset(sorted);
      var j :| 0 <= j < |sorted| && sorted[j] == rows[i];
      if j > 0 {
        assert key(sorted[0]) >= key(sorted[j]);
      }
    }
  }

  /** SQL `OFFSET offset LIMIT limit`. */
  function Page<T>(s: seq<T>, offset: nat, limit: nat): (r: seq<T>)
    ensures |r| == if offset >= |s| then 0 else if |s| - offset < limit then |s| - offset else limit
    ensures forall k :: 0 <= k < |r| ==> r[k] == s[offset + k]
  {
    if offset >= |s| then []
    else if |s| - offset < limit then s[offset..]
    else s[offset..offset + limit]
  }

  /** `t` lists exactly the matching rows of `rows`, each as often as the
      table holds it, in descending `key` order. Rows with equal keys may
      come in any order, as SQL leaves them. */
  predicate OrderedMatches<T(==,!new)>(t: seq<T>, rows: seq<T>, keep: T -> bool, key: T -> int) {
    SortedDesc(t, key) && multiset(t) == multiset(Filter(rows, keep))
  }

  /** A query answer: the matching rows, newest first, paged. */
  function Query<T(==,!new)>(rows: seq<T>, keep: T -> bool, key: T -> int, offset: nat, limit: nat): (r: seq<T>)
    ensures exists t :: OrderedMatches(t, rows, keep, key) && r == Page(t, offset, limit)
    ensures SortedDesc(r, key)
    ensures forall k :: 0 <= k < |r| ==> r[k] in rows && keep(r[k])
    ensures |r| <= limit
    ensures |r| == if offset >= |Filter(rows, keep)| then 0
                   else if |Filter(rows, keep)| - offset < limit then |Filter(rows, keep)| - offset
                   else limit
  {
    var sorted := SortDesc(Filter(rows, keep), key);
    var r := Page(sorted, offset, limit);
    PageOfSorted(sorted, key, offset, limit);
    SortedMatchesKept(rows, keep, key);
    assert OrderedMatches(sorted, rows, keep, key);
    r
  }

  /** A page of ordered rows is ordered and holds only rows of the whole. */
  lemma PageOfSorted<T>(s: seq<T>, key: T -> int, offset: nat, limit: nat)
    requires SortedDesc(s, key)
    ensures SortedDesc(Page(s, offset, limit), key)
    ensures forall k :: 0 <= k < |Page(s, offset, limit)| ==> Page(s, offset, limit)[k] in s
  {
    var r := Page(s, offset, limit);
    forall i, j | 0 <= i < j < |r| ensures key(r[i]) >= key(r[j]) {
      assert r[i] == s[offset + i] && r[j] == s[offset + j];
    }
  }

  /** Ordering the matches adds no row that does not match. */
  lemma SortedMatchesKept<T(!new)>(rows: seq<T>, keep: T -> bool, key: T -> int)
    ensures forall x :: x in SortDesc(Filter(rows, keep), key) ==> x in rows && keep(x)
  {
    var matching := Filter(rows, keep);
    forall x | x in SortDesc(matching, key) ensures x in rows && keep(x) {
      assert x in multiset(SortDesc(matching, key));
      assert x in multiset(matching);
      var i :| 0 <= i < |matching| && matching[i] == x;
    }
  }

  /** Paging through the ordered rows loses nothing and repeats nothing: the
      page at `offset` followed by the page right after it is the page of
      both sizes together. */
  lemma PagesCompose<T>(s: seq<T>, offset: nat, a: nat, b: nat)
    ensures Page(s, offset, a) + Page(s, offset + a, b) == Page(s, offset, a + b)
  {
  }

  /** Matching rows that share a key are the same row: no two matches are
      tied on the ordering key. */
  predicate DistinctKeys<T(==,!new)>(rows: seq<T>, keep: T -> bool, key: T -> int) {
    forall i, j :: 0 <= i < |rows| && 0 <= j < |rows| && keep(rows[i]) && keep(rows[j]) && key(rows[i]) == key(rows[j])
      ==> rows[i] == rows[j]
  }

  /** Within `t`, a key names one row. */
  predicate KeysPinRows<T(==)>(t: seq<T>, key: T -> int) {
    forall i, j :: 0 <= i < |t| && 0 <= j < |t| && key(t[i]) == key(t[j]) ==> t[i] == t[j]
  }

  /** Two descending orderings of the same rows agree when no two different
      rows share a key. */
  lemma {:induction false} SortedPermutationsAgree<T>(t1: seq<T>, t2: seq<T>, key: T -> int)
    requires SortedDesc(t1, key) && SortedDesc(t2, key) && multiset(t1) == multiset(t2)
    requires KeysPinRows(t1, key)
    ensures t1 == t2
    decreases |t1|
  {
    if t1 == [] {
      assert |t2| == |multiset(t2)| == 0;
    } else {
      assert |t2| == |multiset(t2)| == |multiset(t1)| == |t1|;
      HeadsAgree(t1, t2, key);
      TailsAgree(t1, t2);
      TailPinsRows(t1, key);
      SortedPermutationsAgree(t1[1..], t2[1..], key);
      assert t1 == [t1[0]] + t1[1..];
      assert t2 == [t2[0]] + t2[1..];
    }
  }

  /** The first rows of two descending orderings of the same rows share a
      key, so they are the same row when keys pin rows. */
  lemma HeadsAgree<T>(t1: seq<T>, t2: seq<T>, key: T -> int)
    requires SortedDesc(t1, key) && SortedDesc(t2, key) && multiset(t1) == multiset(t2)
    requires KeysPinRows(t1, key) && t1 != [] && t2 != []
    ensures t1[0] == t2[0]
  {
    assert t1[0] in multiset(t2);
    var j :| 0 <= j < |t2| && t2[j] == t1[0];
    assert t2[0] in multiset(t1);
    var k :| 0 <= k < |t1| && t1[k] == t2[0];
    assert key(t1[0]) >= key(t1[k]);
    assert key(t2[0]) >= key(t2[j]);
  }

  /** Equal multisets with equal first rows have equal rests. */
  lemma TailsAgree<T>(t1: seq<T>, t2: seq<T>)
    requires multiset(t1) == multiset(t2) && t1 != [] && t2 != [] && t1[0] == t2[0]
    ensures multiset(t1[1..]) == multiset(t2[1..])
  {
    assert t1 == [t1[0]] + t1[1..];
    assert t2 == [t2[0]] + t2[1..];
    assert multiset(t1) == multiset{t1[0]} + multiset(t1[1..]);
    assert multiset(t2) == multiset{t2[0]} + multiset(t2[1..]);
    assert multiset(t1[1..]) == multiset(t1) - multiset{t1[0]};
    assert multiset(t2[1..]) == multiset(t2) - multiset{t2[0]};
  }

  /** Dropping the first row keeps keys pinning rows. */
  lemma TailPinsRows<T>(t: seq<T>, key: T -> int)
    requires KeysPinRows(t, key) && t != []
    ensures KeysPinRows(t[1..], key)
  {
    forall i, j | 0 <= i < |t[1..]| && 0 <= j < |t[1..]| && key(t[1..][i]) == key(t[1..][j])
      ensures t[1..][i] == t[1..][j]
    {
      assert t[1..][i] == t[i + 1] && t[1..][j] == t[j + 1];
    }
  }

  /** Without ties the matches have one descending ordering only. */
  lemma OrderedMatchesUnique<T(!new)>(t1: seq<T>, t2: seq<T>, rows: seq<T>, keep: T -> bool, key: T -> int)
    requires DistinctKeys(rows, keep, key)
    requires OrderedMatches(t1, rows, keep, key) && OrderedMatches(t2, rows, keep, key)
    ensures t1 == t2
  {
    forall i | 0 <= i < |t1| ensures t1[i] in rows && keep(t1[i]) {
      assert t1[i] in multiset(t1);
      assert multiset(Filter(rows, keep))[t1[i]] > 0;
      assert t1[i] in multiset(rows);
    }
    forall i, j | 0 <= i < |t1| && 0 <= j < |t1| && key(t1[i]) == key(t1[j]) ensures t1[i] == t1[j] {
      var a :| 0 <= a < |rows| && rows[a] == t1[i];
      var b :| 0 <= b < |rows| && rows[b] == t1[j];
    }
    SortedPermutationsAgree(t1, t2, key);
  }

  /** Keeping every row keeps the table as it is. */
  lemma {:induction false} FilterKeepsAll<T(!new)>(s: seq<T>, keep: T -> bool)
    requires forall i :: 0 <= i < |s| ==> keep(s[i])
    ensures Filter(s, keep) == s
    decreases |s|
  {
    if s != [] {
      FilterKeepsAll(s[1..], keep);
    }
  }

  /** With a tie the order is open: both orderings of two rows sharing a key
      list the matches in descending order. */
  lemma TiedRowsLeaveOrderOpen()
    ensures var rows, keep, key := [1, 2], (x: int) => true, (x: int) => 0;
      && OrderedMatches([1, 2], rows, keep, key) && OrderedMatches([2, 1], rows, keep, key)
      && !DistinctKeys(rows, keep, key)
  {
    var rows, keep, key := [1, 2], (x: int) => true, (x: int) => 0;
    FilterKeepsAll(rows, keep);
    assert multiset([2, 1]) == multiset([1, 2]);
    assert rows[0] != rows[1] && keep(rows[0]) && keep(rows[1]) && key(rows[0]) == key(rows[1]);
  }

  /** Consecutive query pages, fetched one after the other, make up the page
      of their combined size, provided no two matches share a timestamp:
      paging neither repeats nor skips a row. Only the contract of `Query`
      is used, so the fact holds for every tie-free ordering SQL may pick. */
  lemma QueryPagesCompose<T(!new)>(rows: seq<T>, keep: T -> bool, key: T -> int, offset: nat, a: nat, b: nat)
    requires DistinctKeys(rows, keep, key)
    ensures Query(rows, keep, key, offset, a) + Query(rows, keep, key, offset + a, b) == Query(rows, keep, key, offset, a + b)
  {
    var q1, q2, q3 := Query(rows, keep, key, offset, a), Query(rows, keep, key, offset + a, b),
                      Query(rows, keep, key, offset, a + b);
    var t1 :| OrderedMatches(t1, rows, keep, key) && q1 == Page(t1, offset, a);
    var t2 :| OrderedMatches(t2, rows, keep, key) && q2 == Page(t2, offset + a, b);
    var t3 :| OrderedMatches(t3, rows, keep, key) && q3 == Page(t3, offset, a + b);
    OrderedMatchesUnique(t1, t2, rows, keep, key);
    OrderedMatchesUnique(t1, t3, rows, keep, key);
    PagesCompose(t1, offset, a, b);
  }
}

=== FILE: rest_endpoints.dfy ===
/** The upload endpoints of backend/devices/api_router.py over the record
    store: the token-authenticated ones (`?token=`), and the ones that
    provision an unknown device on the fly from its `device_id` through
    `get_or_create_device_by_id`. Each endpoint is a function from the store
    to the store it leaves behind and the reply. */
module RestEndpoints {
  import opened Wrappers
  import opened Json
  import opened Text
  import opened Uuid
  import opened Models
  import opened RecordStore
  import opened RestRules

  /** The store an endpoint leaves behind and what it answers. */
  datatype Outcome = Outcome(store: Store, reply: Reply)

  /** Answers `e` and writes nothing. */
  function Refuse(s: Store, e: HttpError): Outcome {
    Outcome(s, Failure(e))
  }

  function Success3(idKey: string, id: nat, message: string): Object {
    map["status" := Str("success"), idKey := Int(id), "message" := Str(message)]
  }

  // ---------------------------------------------------------------------------
  // The writes an upload ends with, answered with the new row's id

  /** `save_camera_frame(device_id=str(device.id), ...)` */
  function FrameReply(s: Store, u: Uuid, camera: string, data: Bytes, width: int, height: int, timestamp: int,
                      idKey: string, message: string, db: Db): (r: Outcome)
    ensures r.reply.Success? <==> db.up && u in s.devices
    ensures r.reply.Success? ==>
      && r.store == s.(frames := s.frames + [FrameRow(u, camera, data, width, height, timestamp, db.now)])
      && r.reply.value == Success3(idKey, |s.frames|, message)
    ensures r.reply.Failure? ==> r == Refuse(s, InternalError)
    ensures Valid(s) ==> Valid(r.store)
  {
    ParseToString(u);
    SaveFrameKeepsValid(s, ToString(u), camera, data, width, height, timestamp, db);
    match SaveCameraFrame(s, ToString(u), camera, data, width, height, timestamp, db)
    case Failure(_) => Refuse(s, InternalError)
    case Success((s', id)) => Outcome(s', Success(Success3(idKey, id, message)))
  }

  /** `save_location(device_id=str(device.id), ...)` */
  function LocationReply(s: Store, u: Uuid, lat: real, lon: real, accuracy: Option<real>, timestamp: int, db: Db)
    : (r: Outcome)
    ensures r.reply.Success? <==> db.up && u in s.devices
    ensures r.reply.Success? ==>
      && r.store == s.(locations := s.locations + [LocationRow(u, lat, lon, accuracy, timestamp, db.now)])
      && r.reply.value == Success3("location_id", |s.locations|, "Location updated successfully")
    ensures r.reply.Failure? ==> r == Refuse(s, InternalError)
    ensures Valid(s) ==> Valid(r.store)
  {
    ParseToString(u);
    SaveLocationKeepsValid(s, ToString(u), lat, lon, accuracy, timestamp, db);
    var saved := SaveLocation(s, ToString(u), lat, lon, accuracy, timestamp, db);
    if saved.Failure? then Refuse(s, InternalError)
    else Outcome(saved.value.0, Success(Success3("location_id", saved.value.1, "Location updated successfully")))
  }

  /** `log_device_event(device_id=str(device.id), ..., timestamp=timestamp)` */
  function EventReply(s: Store, u: Uuid, eventType: string, data: Object, timestamp: int, message: string, db: Db)
    : (r: Outcome)
    ensures r.reply.Success? <==> db.up && u in s.devices
    ensures r.reply.Success? ==>
      && r.store == s.(events := s.events + [EventRow(u, eventType, data, if timestamp == 0 then db.now else timestamp, db.now)])
      && r.reply.value == Success3("event_id", |s.events|, message)
    ensures r.reply.Failure? ==> r == Refuse(s, InternalError)
    ensures Valid(s) ==> Valid(r.store)
  {
    ParseToString(u);
    LogKeepsValid(s, ToString(u), eventType, Some(data), Some(timestamp), db);
    var logged := LogDeviceEvent(s, ToString(u), eventType, Some(data), Some(timestamp), db);
    if logged.Failure? then Refuse(s, InternalError)
    else
      var s' := logged.value.0;
      assert s'.events == s.events + [s'.events[|s.events|]];
      assert s' == s.(events := s'.events);
      Outcome(s', Success(Success3("event_id", logged.value.1, message)))
  }

  // ---------------------------------------------------------------------------
  // Token authentication

  /** `get_device_by_token_query`: the device owning `?token=`, else 401. */
  function Authenticate(s: Store, token: string, db: Db): (r: Result<Profile, HttpError>)
    ensures !db.up ==> r == Failure(InternalError)
    ensures Valid(s) ==> (r.Success? <==> db.up && !TokenFree(s, token))
    ensures Valid(s) && db.up && TokenFree(s, token) ==> r == Failure(HttpError(401, "Invalid device token"))
    ensures Valid(s) && r.Success? ==> r.value.id in s.devices && s.devices[r.value.id] == r.value && r.value.token == token
  {
    match GetDeviceByToken(s, token, db)
    case Failure(_) => Failure(InternalError)
    case Success(None) => Failure(HttpError(401, "Invalid device token"))
    case Success(Some(p)) => Success(p)
  }

  /** The device a token names. */
  predicate Owns(s: Store, token: string, u: Uuid) {
    u in s.devices && s.devices[u].token == token
  }

  // ---------------------------------------------------------------------------
  // Token-authenticated uploads

  /** `POST /camera`: camera name, then JPEG signature, then the frame. */
  function UploadCamera(s: Store, token: string, camera: string, image: Bytes, width: int, height: int,
                        timestamp: int, db: Db): (r: Outcome)
    requires Valid(s)
    ensures r.reply.Success? <==>
      db.up && !TokenFree(s, token) && CheckCamera(camera).None? && CheckJpeg(image).None?
    ensures r.reply.Failure? ==> r.store == s
    ensures r.reply.Success? ==>
      && |r.store.frames| == |s.frames| + 1
      && var u := r.store.frames[|s.frames|].deviceId;
         && Owns(s, token, u)
         && r.store == s.(frames := s.frames + [FrameRow(u, camera, image, width, height, timestamp, db.now)])
         && r.reply.value == Success3("frame_id", |s.frames|, "Camera frame uploaded successfully")
    ensures Valid(r.store)
  {
    match Authenticate(s, token, db)
    case Failure(e) => Refuse(s, e)
    case Success(p) =>
      if CheckCamera(camera).Some? then Refuse(s, CheckCamera(camera).value)
      else if CheckJpeg(image).Some? then Refuse(s, CheckJpeg(image).value)
      else FrameReply(s, p.id, camera, image, width, height, timestamp, "frame_id", "Camera frame uploaded successfully", db)
  }

  /** `POST /camera/base64`: camera name, then decoding, then JPEG signature. */
  function UploadCameraBase64(s: Store, token: string, camera: string, data: string, decode: string -> Option<Bytes>,
                              width: int, height: int, timestamp: int, db: Db): (r: Outcome)
    requires Valid(s)
    ensures r.reply.Success? <==>
      && db.up && !TokenFree(s, token) && CheckCamera(camera).None?
      && decode(data).Some? && CheckJpeg(decode(data).value).None?
    ensures r.reply.Failure? ==> r.store == s
    ensures r.reply.Success? ==>
      && |r.store.frames| == |s.frames| + 1
      && var u := r.store.frames[|s.frames|].deviceId;
         && Owns(s, token, u)
         && r.store == s.(frames := s.frames + [FrameRow(u, camera, decode(data).value, width, height, timestamp, db.now)])
         && r.reply.value == Success3("frame_id", |s.frames|, "Camera frame uploaded successfully")
    ensures Valid(r.store)
  {
    match Authenticate(s, token, db)
    case Failure(e) => Refuse(s, e)
    case Success(p) =>
      if CheckCamera(camera).Some? then Refuse(s, CheckCamera(camera).value)
      else if decode(data).None? then Refuse(s, HttpError(400, "Invalid Base64 data"))
      else if CheckJpeg(decode(data).value).Some? then Refuse(s, CheckJpeg(decode(data).value).value)
      else FrameReply(s, p.id, camera, decode(data).value, width, height, timestamp, "frame_id",
                      "Camera frame uploaded successfully", db)
  }

  /** `POST /location`: both coordinate ranges, then the fix. */
  function UploadLocation(s: Store, token: string, lat: real, lon: real, accuracy: Option<real>, timestamp: int, db: Db)
    : (r: Outcome)
    requires Valid(s)
    ensures r.reply.Success? <==> db.up && !TokenFree(s, token) && -90.0 <= lat <= 90.0 && -180.0 <= lon <= 180.0
    ensures r.reply.Failure? ==> r.store == s
    ensures r.reply.Success? ==>
      && |r.store.locations| == |s.locations| + 1
      && var u := r.store.locations[|s.locations|].deviceId;
         && Owns(s, token, u)
         && r.store == s.(locations := s.locations + [LocationRow(u, lat, lon, accuracy, timestamp, db.now)])
         && r.reply.value == Success3("location_id", |s.locations|, "Location updated successfully")
    ensures Valid(r.store)
  {
    match Authenticate(s, token, db)
    case Failure(e) => Refuse(s, e)
    case Success(p) =>
      if CheckCoordinates(lat, lon).Some? then Refuse(s, CheckCoordinates(lat, lon).value)
      else LocationReply(s, p.id, lat, lon, accuracy, timestamp, db)
  }

  /** `POST /system-info`: one `system_info` event holding the supplied fields. */
  function UploadSystemInfo(s: Store, token: string, batteryLevel: Option<int>, isCharging: Option<bool>,
                            batteryTemp: Option<real>, memoryUsage: Option<int>, storageUsage: Option<real>,
                            timestamp: int, db: Db): (r: Outcome)
    requires Valid(s)
    ensures r.reply.Success? <==> db.up && !TokenFree(s, token)
    ensures r.reply.Failure? ==> r.store == s
    ensures r.reply.Success? ==>
      && |r.store.events| == |s.events| + 1
      && var u := r.store.events[|s.events|].deviceId;
         && Owns(s, token, u)
         && r.store == s.(events := s.events + [EventRow(u, "system_info",
                                                         SystemInfoPayload(batteryLevel, isCharging, batteryTemp, memoryUsage, storageUsage, timestamp),
                                                         if timestamp == 0 then db.now else timestamp, db.now)])
         && r.reply.value == Success3("event_id", |s.events|, "System info uploaded successfully")
    ensures Valid(r.store)
  {
    match Authenticate(s, token, db)
    case Failure(e) => Refuse(s, e)
    case Success(p) =>
      EventReply(s, p.id, "system_info",
                 SystemInfoPayload(batteryLevel, isCharging, batteryTemp, memoryUsage, storageUsage, timestamp),
                 timestamp, "System info uploaded successfully", db)
  }

  /** The signature check of the screenshot uploads. */
  function ScreenshotReply(s: Store, u: Uuid, image: Bytes, width: int, height: int, timestamp: int,
                           refusal: HttpError, db: Db): (r: Outcome)
    ensures r.reply.Success? <==> CheckScreenshot(image).None? && db.up && u in s.devices
    ensures r.reply.Failure? ==> r.store == s
    ensures r.reply.Success? ==>
      r.store == s.(frames := s.frames + [FrameRow(u, "screen", image, width, height, timestamp, db.now)])
    ensures CheckScreenshot(image).Some? ==> r == Refuse(s, refusal)
    ensures Valid(s) ==> Valid(r.store)
  {
    if CheckScreenshot(image).Some? then Refuse(s, refusal)
    else FrameReply(s, u, "screen", image, width, height, timestamp, "screenshot_id", "Screenshot uploaded successfully", db)
  }

  /** `POST /screenshot`: a PNG or JPEG, stored as a frame of camera "screen". */
  function UploadScreenshot(s: Store, token: string, image: Bytes, width: int, height: int, timestamp: int, db: Db)
    : (r: Outcome)
    requires Valid(s)
    ensures r.reply.Success? <==> db.up && !TokenFree(s, token) && CheckScreenshot(image).None?
    ensures r.reply.Failure? ==> r.store == s
    ensures r.reply.Success? ==>
      && |r.store.frames| == |s.frames| + 1
      && var u := r.store.frames[|s.frames|].deviceId;
         && Owns(s, token, u)
         && r.store == s.(frames := s.frames + [FrameRow(u, "screen", image, width, height, timestamp, db.now)])
         && r.reply.value == Success3("screenshot_id", |s.frames|, "Screenshot uploaded successfully")
    ensures Valid(r.store)
  {
    match Authenticate(s, token, db)
    case Failure(e) => Refuse(s, e)
    case Success(p) => ScreenshotReply(s, p.id, image, width, height, timestamp, CheckScreenshot(image).GetOr(InternalError), db)
  }

  /** `POST /screenshot/base64`: decoding first, then the signature. */
  function UploadScreenshotBase64(s: Store, token: string, data: string, decode: string -> Option<Bytes>,
                                  width: int, height: int, timestamp: int, db: Db): (r: Outcome)
    requires Valid(s)
    ensures r.reply.Success? <==>
      db.up && !TokenFree(s, token) && decode(data).Some? && CheckScreenshot(decode(data).value).None?
    ensures r.reply.Failure? ==> r.store == s
    ensures r.reply.Success? ==>
      && |r.store.frames| == |s.frames| + 1
      && var u := r.store.frames[|s.frames|].deviceId;
         && Owns(s, token, u)
         && r.store == s.(frames := s.frames + [FrameRow(u, "screen", decode(data).value, width, height, timestamp, db.now)])
         && r.reply.value == Success3("screenshot_id", |s.frames|, "Screenshot uploaded successfully")
    ensures Valid(r.store)
  {
    match Authenticate(s, token, db)
    case Failure(e) => Refuse(s, e)
    case Success(p) =>
      if decode(data).None? then Refuse(s, HttpError(400, "Invalid Base64 data"))
      else ScreenshotReply(s, p.id, decode(data).value, width, height, timestamp,
                           CheckScreenshot(decode(data).value).GetOr(InternalError), db)
  }

  /** `POST /battery`: one `battery_info` event holding the supplied readings. */
  function UploadBattery(s: Store, token: string, level: int, isCharging: bool, temperature: Option<real>,
                         voltage: Option<real>, health: Option<string>, timestamp: int, db: Db): (r: Outcome)
    requires Valid(s)
    ensures r.reply.Success? <==> db.up && !TokenFree(s, token)
    ensures r.reply.Failure? ==> r.store == s
    ensures r.reply.Success? ==>
      && |r.store.events| == |s.events| + 1
      && var u := r.store.events[|s.events|].deviceId;
         && Owns(s, token, u)
         && r.store == s.(events := s.events + [EventRow(u, "battery_info",
                                                         BatteryPayload(level, isCharging, temperature, OptReal(voltage), health, timestamp),
                                                         if timestamp == 0 then db.now else timestamp, db.now)])
         && r.reply.value == Success3("event_id", |s.events|, "Battery info uploaded successfully")
    ensures Valid(r.store)
  {
    match Authenticate(s, token, db)
    case Failure(e) => Refuse(s, e)
    case Success(p) =>
      EventReply(s, p.id, "battery_info", BatteryPayload(level, isCharging, temperature, OptReal(voltage), health, timestamp),
                 timestamp, "Battery info uploaded successfully", db)
  }

  /** Every token-authenticated upload answers 401, and writes nothing, for a
      token no device holds, before looking at anything else it was sent. */
  lemma UnknownTokenIsRefused(s: Store, token: string, camera: string, image: Bytes, lat: real, lon: real, db: Db)
    requires Valid(s) && db.up && TokenFree(s, token)
    ensures UploadCamera(s, token, camera, image, 0, 0, 0, db) == Refuse(s, HttpError(401, "Invalid device token"))
    ensures UploadLocation(s, token, lat, lon, None, 0, db) == Refuse(s, HttpError(401, "Invalid device token"))
    ensures UploadScreenshot(s, token, image, 0, 0, 0, db) == Refuse(s, HttpError(401, "Invalid device token"))
  {
  }

  // ---------------------------------------------------------------------------
  // get_or_create_device_by_id

  /** What get-or-create hands back: the store it leaves and the device. */
  datatype Provisioned = Provisioned(store: Store, device: Result<Profile, HttpError>)

  const BadDeviceId := HttpError(400, "Invalid device_id format (must be UUID)")

  /** The form fields that name an auto-provisioned device are text or None. */
  predicate NameFieldsAreText(info: Option<Object>) {
    info.Some? ==>
      && (var m := GetOr(info.value, "manufacturer", Str("Unknown")); m.Null? || m.Str?)
      && (var m := GetOr(info.value, "model", Str("Device")); m.Null? || m.Str?)
  }

  /** `str()` of a text-or-None form value, as an f-string renders it. */
  function Display(v: Value): string
    requires v.Null? || v.Str?
  {
    if v.Str? then v.s else "None"
  }

  function AsText(v: Value): Option<string> {
    if v.Str? then Some(v.s) else None
  }

  function AsNumber(v: Value): Option<int> {
    if v.Int? then Some(v.i) else None
  }

  /** The name of an auto-provisioned device: "Unknown Device" without a
      (non-empty) info dict, else manufacturer and model joined by a space and
      stripped, with "Unknown" / "Device" standing in only for a missing key. */
  function ProvisionName(info: Option<Object>): (r: string)
    requires NameFieldsAreText(info)
    ensures info.None? || info == Some(map[]) ==> r == "Unknown Device"
    ensures r == [] || (r[0] !in Whitespace && r[|r| - 1] !in Whitespace)
  {
    if info.None? || info.value == map[] then "Unknown Device"
    else
      Strip(Display(GetOr(info.value, "manufacturer", Str("Unknown"))) + " "
            + Display(GetOr(info.value, "model", Str("Device"))))
  }

  /** The descriptive columns an auto-provisioned device starts with. */
  function ProvisionAttrs(info: Option<Object>): (r: DeviceAttrs)
    ensures info.None? ==> r == NoAttrs
    ensures info.Some? ==> r.model == AsText(Get(info.value, "model")) && r.imei == AsText(Get(info.value, "imei"))
    ensures info.Some? ==>
      && r.manufacturer == AsText(Get(info.value, "manufacturer"))
      && r.androidVersion == AsText(Get(info.value, "android_version"))
      && r.sdk == AsNumber(Get(info.value, "sdk"))
  {
    match info
    case None => NoAttrs
    case Some(d) =>
      DeviceAttrs(AsText(Get(d, "imei")), AsText(Get(d, "model")), AsText(Get(d, "manufacturer")),
                  AsText(Get(d, "android_version")), AsNumber(Get(d, "sdk")))
  }

  /** A device that sends its own registration record as the info dict is
      provisioned with exactly the attributes that record carries. */
  lemma ProvisionAttrsOfInfo(info: DeviceInfo)
    ensures ProvisionAttrs(Some(InfoDict(info)))
         == DeviceAttrs(info.imei, Some(info.model), Some(info.manufacturer), Some(info.androidVersion), Some(info.sdk))
  {
  }

  /** Manufacturer and model given as plain words make the name "<m> <model>". */
  lemma ProvisionNameJoins(d: Object, m: string, model: string)
    requires "manufacturer" in d && d["manufacturer"] == Str(m) && "model" in d && d["model"] == Str(model)
    requires m != [] && m[0] !in Whitespace && model != [] && model[|model| - 1] !in Whitespace
    ensures ProvisionName(Some(d)) == m + " " + model
  {
    var t := m + " " + model;
    assert t[0] == m[0] && t[|t| - 1] == model[|model| - 1];
    StripCharsFixed(t, Whitespace);
  }

  /** The defaults apply only to a missing key: form fields left empty are
      present as None and name the device "None None". */
  lemma ProvisionNameOfNones(d: Object)
    requires "manufacturer" in d && d["manufacturer"] == Null && "model" in d && d["model"] == Null
    ensures ProvisionName(Some(d)) == "None None"
  {
    assert d != map[];
    assert Display(GetOr(d, "manufacturer", Str("Unknown"))) == "None";
    assert Display(GetOr(d, "model", Str("Device"))) == "None";
    var t := "None" + " " + "None";
    assert t == "None None";
    assert t[0] == 'N' && t[|t| - 1] == 'e';
    StripCharsFixed(t, Whitespace);
  }

  /** A non-empty dict without either key names the device exactly as no
      dict at all does. */
  lemma ProvisionNameOfMissingKeys(d: Object)
    requires d != map[] && "manufacturer" !in d && "model" !in d
    ensures ProvisionName(Some(d)) == "Unknown Device"
  {
    assert Display(GetOr(d, "manufacturer", Str("Unknown"))) == "Unknown";
    assert Display(GetOr(d, "model", Str("Device"))) == "Device";
    var t := "Unknown" + " " + "Device";
    assert t == "Unknown Device";
    assert t[0] == 'U' && t[|t| - 1] == 'e';
    StripCharsFixed(t, Whitespace);
  }

  /** A device that can be provisioned: its id is a UUID, the database is up,
      and it either exists or the new token is free. */
  predicate CanProvision(s: Store, deviceId: string, token: string, db: Db) {
    Parse(deviceId).Some? && db.up && (Parse(deviceId).value in s.devices || TokenFree(s, token))
  }

  /** `get_or_create_device_by_id` as written: the lookup parses the id
      first, so a non-UUID id raises there and the UUID check after it is
      never reached. */
  function GetOrCreateAsWritten(s: Store, deviceId: string, info: Option<Object>, freshToken: string, db: Db)
    : (r: Provisioned)
    requires NameFieldsAreText(info)
    ensures r.device.Success? <==> CanProvision(s, deviceId, freshToken, db)
    ensures r.device.Failure? ==> r.store == s
  {
    match GetDevice(s, deviceId, db)
    case Failure(_) => Provisioned(s, Failure(InternalError))
    case Success(found) =>
      if found.Some? then
        (match UpdateDevice(s, deviceId, NoChanges, db)
         case Failure(_) => Provisioned(s, Failure(InternalError))
         case Success((s', _)) => Provisioned(s', Success(found.value)))
      else if Parse(deviceId).None? then Provisioned(s, Failure(BadDeviceId))
      else
        match CreateDevice(s, deviceId, ProvisionName(info), freshToken, ProvisionAttrs(info), db)
        case Failure(_) => Provisioned(s, Failure(InternalError))
        case Success((s', p)) => Provisioned(s', Success(p))
  }

  /** A non-UUID id gets a 500, never the 400 the code sets out to give. */
  lemma GetOrCreateAsWrittenNeverRejects(s: Store, deviceId: string, info: Option<Object>, freshToken: string, db: Db)
    requires NameFieldsAreText(info)
    ensures GetOrCreateAsWritten(s, deviceId, info, freshToken, db).device != Failure(BadDeviceId)
    ensures Parse(deviceId).None? ==>
      GetOrCreateAsWritten(s, deviceId, info, freshToken, db) == Provisioned(s, Failure(InternalError))
  {
  }

  /** `get_or_create_device_by_id` with the UUID check moved in front of the
      lookup, so that a non-UUID id is refused with 400. */
  function GetOrCreate(s: Store, deviceId: string, info: Option<Object>, freshToken: string, db: Db): (r: Provisioned)
    requires NameFieldsAreText(info)
    ensures Parse(deviceId).None? ==> r == Provisioned(s, Failure(BadDeviceId))
    ensures r.device.Success? <==> CanProvision(s, deviceId, freshToken, db)
    ensures r.device.Failure? ==> r.store == s
    ensures Parse(deviceId).Some? && r.device.Failure? ==> r.device.error == InternalError
    ensures r.device.Success? ==>
      var u := Parse(deviceId).value;
      && (Valid(s) ==> r.device.value.id == u)
      && r.store.frames == s.frames && r.store.locations == s.locations && r.store.events == s.events
      && (u in s.devices ==>
            && r.device.value == s.devices[u]
            && r.store.devices == s.devices[u := s.devices[u].(lastSeen := db.now)])
      && (u !in s.devices ==>
            var p := r.device.value;
            && p.id == u && r.store.devices == s.devices[u := p]
            && p.name == ProvisionName(info) && p.token == freshToken && p.isActive
            && p.createdAt == db.now && p.lastSeen == db.now
            && p.model == ProvisionAttrs(info).model && p.manufacturer == ProvisionAttrs(info).manufacturer
            && p.imei == ProvisionAttrs(info).imei && p.androidVersion == ProvisionAttrs(info).androidVersion
            && p.sdk == ProvisionAttrs(info).sdk)
    ensures Valid(s) ==> Valid(r.store)
  {
    CreateKeepsValid(s, deviceId, ProvisionName(info), freshToken, ProvisionAttrs(info), db);
    UpdateKeepsValid(s, deviceId, NoChanges, db);
    if Parse(deviceId).None? then Provisioned(s, Failure(BadDeviceId))
    else GetOrCreateAsWritten(s, deviceId, info, freshToken, db)
  }

  /** The device handed back is the one the store now holds under its id,
      under the same name and token. */
  lemma ProvisionedKeepsName(s: Store, deviceId: string, info: Option<Object>, freshToken: string, db: Db)
    requires NameFieldsAreText(info)
    ensures var g := GetOrCreate(s, deviceId, info, freshToken, db);
      Valid(s) && g.device.Success? ==>
        var p := g.device.value;
        && Parse(deviceId) == Some(p.id) && p.id in g.store.devices
        && g.store.devices[p.id].name == p.name && g.store.devices[p.id].token == p.token
  {
    var g := GetOrCreate(s, deviceId, info, freshToken, db);
    if Valid(s) && g.device.Success? {
      var u := Parse(deviceId).value;
      assert g.device.value.id == u;
    }
  }

  /** Both versions agree on every UUID id. */
  lemma GetOrCreateFixOnlyRejects(s: Store, deviceId: string, info: Option<Object>, freshToken: string, db: Db)
    requires NameFieldsAreText(info)
    ensures Parse(deviceId).Some? ==>
      GetOrCreate(s, deviceId, info, freshToken, db) == GetOrCreateAsWritten(s, deviceId, info, freshToken, db)
    ensures Parse(deviceId).None? ==>
      && GetOrCreate(s, deviceId, info, freshToken, db).device == Failure(BadDeviceId)
      && GetOrCreateAsWritten(s, deviceId, info, freshToken, db).device == Failure(InternalError)
  {
  }

  /** Provisioning twice creates one device: the second call finds the device
      the first one left and keeps its token. */
  lemma GetOrCreateTwice(s: Store, deviceId: string, info: Option<Object>, t1: string, t2: string, db: Db)
    requires Valid(s) && NameFieldsAreText(info)
    requires GetOrCreate(s, deviceId, info, t1, db).device.Success?
    ensures var first := GetOrCreate(s, deviceId, info, t1, db);
      var second := GetOrCreate(first.store, deviceId, info, t2, db);
      && second.device.Success?
      && second.device.value.id == first.device.value.id
      && second.device.value.token == first.device.value.token
      && second.store.devices.Keys == first.store.devices.Keys == s.devices.Keys + {first.device.value.id}
  {
    var first := GetOrCreate(s, deviceId, info, t1, db);
    GetOrCreateAdds(s, deviceId, info, t1, db);
    GetOrCreateFinds(first.store, deviceId, info, t2, db);
  }

  /** A successful call leaves the device, under its own token, in a valid
      store that has gained at most that device. */
  lemma GetOrCreateAdds(s: Store, deviceId: string, info: Option<Object>, freshToken: string, db: Db)
    requires Valid(s) && NameFieldsAreText(info)
    requires GetOrCreate(s, deviceId, info, freshToken, db).device.Success?
    ensures var g := GetOrCreate(s, deviceId, info, freshToken, db);
      var u := g.device.value.id;
      && Valid(g.store) && Parse(deviceId) == Some(u) && u in g.store.devices
      && g.store.devices[u].token == g.device.value.token
      && g.store.devices.Keys == s.devices.Keys + {u}
  {
    ProvisionedKeepsName(s, deviceId, info, freshToken, db);
  }

  /** A device the store already holds is found, whatever fresh token is
      offered, and no device is added. */
  lemma GetOrCreateFinds(s: Store, deviceId: string, info: Option<Object>, freshToken: string, db: Db)
    requires Valid(s) && NameFieldsAreText(info) && db.up
    requires Parse(deviceId).Some? && Parse(deviceId).value in s.devices
    ensures var g := GetOrCreate(s, deviceId, info, freshToken, db);
      && g.device.Success? && g.device.value == s.devices[Parse(deviceId).value]
      && g.store.devices.Keys == s.devices.Keys
  {
    assert CanProvision(s, deviceId, freshToken, db);
  }

  // ---------------------------------------------------------------------------
  // Uploads that provision the device from its id

  /** The info dict an auto-provisioning form builds. */
  function FormInfo(manufacturer: Option<string>, model: Option<string>): (r: Object)
    ensures NameFieldsAreText(Some(r))
  {
    map["manufacturer" := OptStr(manufacturer), "model" := OptStr(model)]
  }

  /** The info dict of `/upload/camera`, which also carries the Android
      version. */
  function VersionedFormInfo(manufacturer: Option<string>, model: Option<string>, androidVersion: Option<string>)
    : (r: Object)
    ensures NameFieldsAreText(Some(r))
    ensures Get(r, "android_version") == OptStr(androidVersion)
  {
    map["manufacturer" := OptStr(manufacturer), "model" := OptStr(model), "android_version" := OptStr(androidVersion)]
  }

  /** The info dict of `/register`: every descriptive column it carries
      reaches a newly provisioned device. */
  function RegisterInfo(manufacturer: Option<string>, model: Option<string>, androidVersion: Option<string>,
                        sdk: Option<int>, imei: Option<string>): (r: Object)
    ensures NameFieldsAreText(Some(r))
    ensures ProvisionAttrs(Some(r)) == DeviceAttrs(imei, model, manufacturer, androidVersion, sdk)
  {
    var d := map["manufacturer" := OptStr(manufacturer), "model" := OptStr(model),
                 "android_version" := OptStr(androidVersion), "sdk" := OptInt(sdk), "imei" := OptStr(imei)];
    assert Get(d, "imei") == OptStr(imei) && Get(d, "model") == OptStr(model);
    assert Get(d, "manufacturer") == OptStr(manufacturer) && Get(d, "android_version") == OptStr(androidVersion);
    assert Get(d, "sdk") == OptInt(sdk);
    d
  }

  function RegisteredReply(p: Profile): (r: Object)
    ensures "device_id" in r && r["device_id"] == Str(ToString(p.id))
    ensures "device_name" in r && r["device_name"] == Str(p.name)
  {
    map["status" := Str("success"), "device_id" := Str(ToString(p.id)),
        "device_name" := Str(p.name), "message" := Str("Device registered successfully")]
  }

  /** `POST /register`: get-or-create with everything the form supplied. */
  function RegisterNoToken(s: Store, deviceId: string, manufacturer: Option<string>, model: Option<string>,
                           androidVersion: Option<string>, sdk: Option<int>, imei: Option<string>,
                           freshToken: string, db: Db): (r: Outcome)
    requires Valid(s)
    ensures r.reply.Success? <==> CanProvision(s, deviceId, freshToken, db)
    ensures Parse(deviceId).None? ==> r == Refuse(s, BadDeviceId)
    ensures r.reply.Success? ==>
      var u := Parse(deviceId).value;
      && u in r.store.devices
      && "device_id" in r.reply.value && r.reply.value["device_id"] == Str(ToString(u))
      && "device_name" in r.reply.value && r.reply.value["device_name"] == Str(r.store.devices[u].name)
      && (u !in s.devices ==> r.store.devices[u].imei == imei && r.store.devices[u].sdk == sdk)
    ensures Valid(r.store)
  {
    var info := RegisterInfo(manufacturer, model, androidVersion, sdk, imei);
    var g := GetOrCreate(s, deviceId, Some(info), freshToken, db);
    ProvisionedKeepsName(s, deviceId, Some(info), freshToken, db);
    if g.device.Failure? then Refuse(s, g.device.error)
    else
      var p := g.device.value;
      Outcome(g.store, Success(RegisteredReply(p)))
  }

  /** `POST /upload/camera`: provision first, then camera name and JPEG. */
  function UploadCameraAuto(s: Store, deviceId: string, camera: string, image: Bytes, width: int, height: int,
                            timestamp: int, manufacturer: Option<string>, model: Option<string>,
                            androidVersion: Option<string>, freshToken: string, db: Db): (r: Outcome)
    requires Valid(s)
    ensures r.reply.Success? <==>
      CanProvision(s, deviceId, freshToken, db) && CheckCamera(camera).None? && CheckJpeg(image).None?
    ensures r.reply.Success? ==>
      r.store.frames == s.frames + [FrameRow(Parse(deviceId).value, camera, image, width, height, timestamp, db.now)]
    ensures CheckCamera(camera).Some? || CheckJpeg(image).Some? ==> r.store.frames == s.frames
    ensures var g := GetOrCreate(s, deviceId, Some(VersionedFormInfo(manufacturer, model, androidVersion)), freshToken, db);
      && (r.reply.Success? ==>
            && r.store == g.store.(frames := s.frames + [FrameRow(Parse(deviceId).value, camera, image, width, height,
                                                                   timestamp, db.now)])
            && r.reply.value == Success3("frame_id", |s.frames|, "Camera frame uploaded successfully"))
      && (r.reply.Failure? ==> r.store == g.store)
    ensures Valid(r.store)
  {
    var g := GetOrCreate(s, deviceId, Some(VersionedFormInfo(manufacturer, model, androidVersion)), freshToken, db);
    match g.device
    case Failure(e) => Refuse(s, e)
    case Success(p) =>
      assert p.id == Parse(deviceId).value && p.id in g.store.devices && Valid(g.store);
      if CheckCamera(camera).Some? then Refuse(g.store, CheckCamera(camera).value)
      else if CheckJpeg(image).Some? then Refuse(g.store, CheckJpeg(image).value)
      else FrameReply(g.store, p.id, camera, image, width, height, timestamp, "frame_id",
                      "Camera frame uploaded successfully", db)
  }

  /** `POST /upload/camera-base64`: provision, camera name, decoding, JPEG. */
  function UploadCameraBase64Auto(s: Store, deviceId: string, camera: string, data: string,
                                  decode: string -> Option<Bytes>, width: int, height: int, timestamp: int,
                                  manufacturer: Option<string>, model: Option<string>, freshToken: string, db: Db)
    : (r: Outcome)
    requires Valid(s)
    ensures r.reply.Success? <==>
      && CanProvision(s, deviceId, freshToken, db) && CheckCamera(camera).None?
      && decode(data).Some? && CheckJpeg(decode(data).value).None?
    ensures r.reply.Success? ==>
      r.store.frames == s.frames + [FrameRow(Parse(deviceId).value, camera, decode(data).value, width, height, timestamp, db.now)]
    ensures r.reply.Failure? ==> r.store.frames == s.frames
    ensures var g := GetOrCreate(s, deviceId, Some(FormInfo(manufacturer, model)), freshToken, db);
      && (r.reply.Success? ==>
            && r.store == g.store.(frames := s.frames + [FrameRow(Parse(deviceId).value, camera, decode(data).value,
                                                                   width, height, timestamp, db.now)])
            && r.reply.value == Success3("frame_id", |s.frames|, "Camera frame uploaded successfully"))
      && (r.reply.Failure? ==> r.store == g.store)
    ensures Valid(r.store)
  {
    var g := GetOrCreate(s, deviceId, Some(FormInfo(manufacturer, model)), freshToken, db);
    match g.device
    case Failure(e) => Refuse(s, e)
    case Success(p) =>
      assert p.id == Parse(deviceId).value && p.id in g.store.devices && Valid(g.store);
      if CheckCamera(camera).Some? then Refuse(g.store, CheckCamera(camera).value)
      else if decode(data).None? then Refuse(g.store, HttpError(400, "Invalid Base64 data"))
      else if CheckJpeg(decode(data).value).Some? then Refuse(g.store, CheckJpeg(decode(data).value).value)
      else FrameReply(g.store, p.id, camera, decode(data).value, width, height, timestamp, "frame_id",
                      "Camera frame uploaded successfully", db)
  }

  /** `POST /upload/location`: provision first, then the coordinate ranges. */
  function UploadLocationAuto(s: Store, deviceId: string, lat: real, lon: real, accuracy: Option<real>,
                              timestamp: int, freshToken: string, db: Db): (r: Outcome)
    requires Valid(s)
    ensures r.reply.Success? <==>
      CanProvision(s, deviceId, freshToken, db) && -90.0 <= lat <= 90.0 && -180.0 <= lon <= 180.0
    ensures r.reply.Success? ==>
      r.store.locations == s.locations + [LocationRow(Parse(deviceId).value, lat, lon, accuracy, timestamp, db.now)]
    ensures r.reply.Failure? ==> r.store.locations == s.locations
    ensures var g := GetOrCreate(s, deviceId, None, freshToken, db);
      && (r.reply.Success? ==>
            && r.store == g.store.(locations := s.locations + [LocationRow(Parse(deviceId).value, lat, lon, accuracy,
                                                                            timestamp, db.now)])
            && r.reply.value == Success3("location_id", |s.locations|, "Location updated successfully"))
      && (r.reply.Failure? ==> r.store == g.store)
    ensures Valid(r.store)
  {
    var g := GetOrCreate(s, deviceId, None, freshToken, db);
    match g.device
    case Failure(e) => Refuse(s, e)
    case Success(p) =>
      assert p.id == Parse(deviceId).value && p.id in g.store.devices && Valid(g.store);
      if CheckCoordinates(lat, lon).Some? then Refuse(g.store, CheckCoordinates(lat, lon).value)
      else LocationReply(g.store, p.id, lat, lon, accuracy, timestamp, db)
  }

  /** Provision the device by id without device details, then log one event
      for it. */
  function ProvisionThenLog(s: Store, deviceId: string, eventType: string, data: Object, timestamp: int,
                            message: string, freshToken: string, db: Db): (r: Outcome)
    requires Valid(s)
    ensures r.reply.Success? <==> CanProvision(s, deviceId, freshToken, db)
    ensures r.reply.Success? ==>
      r.store.events == s.events + [EventRow(Parse(deviceId).value, eventType, data,
                                             if timestamp == 0 then db.now else timestamp, db.now)]
    ensures var g := GetOrCreate(s, deviceId, None, freshToken, db);
      && (r.reply.Success? ==>
            && r.store == g.store.(events := s.events + [EventRow(Parse(deviceId).value, eventType, data,
                                                                  if timestamp == 0 then db.now else timestamp, db.now)])
            && r.reply.value == Success3("event_id", |s.events|, message))
      && (r.reply.Failure? ==> r.store == s)
    ensures Valid(r.store)
  {
    var g := GetOrCreate(s, deviceId, None, freshToken, db);
    match g.device
    case Failure(e) => Refuse(s, e)
    case Success(p) =>
      assert p.id == Parse(deviceId).value && p.id in g.store.devices && Valid(g.store);
      EventReply(g.store, p.id, eventType, data, timestamp, message, db)
  }

  /** `POST /upload/battery`: provision, then one `battery_info` event. */
  function UploadBatteryAuto(s: Store, deviceId: string, level: int, isCharging: bool, temperature: Option<real>,
                             voltage: Option<real>, health: Option<string>, timestamp: int, freshToken: string, db: Db)
    : (r: Outcome)
    requires Valid(s)
    ensures r.reply.Success? <==> CanProvision(s, deviceId, freshToken, db)
    ensures r.reply.Success? ==>
      r.store.events == s.events + [EventRow(Parse(deviceId).value, "battery_info",
        BatteryPayload(level, isCharging, temperature, OptReal(voltage), health, timestamp),
        if timestamp == 0 then db.now else timestamp, db.now)]
    ensures var g := GetOrCreate(s, deviceId, None, freshToken, db);
      && (r.reply.Success? ==>
            && r.store == g.store.(events := s.events + [EventRow(Parse(deviceId).value, "battery_info",
                 BatteryPayload(level, isCharging, temperature, OptReal(voltage), health, timestamp),
                 if timestamp == 0 then db.now else timestamp, db.now)])
            && r.reply.value == Success3("event_id", |s.events|, "Battery info uploaded successfully"))
      && (r.reply.Failure? ==> r.store == s)
    ensures Valid(r.store)
  {
    ProvisionThenLog(s, deviceId, "battery_info",
                     BatteryPayload(level, isCharging, temperature, OptReal(voltage), health, timestamp),
                     timestamp, "Battery info uploaded successfully", freshToken, db)
  }

  /** `POST /upload/screenshot`: provision, then the PNG-or-JPEG check. */
  function UploadScreenshotAuto(s: Store, deviceId: string, image: Bytes, width: int, height: int, timestamp: int,
                                freshToken: string, db: Db): (r: Outcome)
    requires Valid(s)
    ensures r.reply.Success? <==> CanProvision(s, deviceId, freshToken, db) && CheckScreenshot(image).None?
    ensures r.reply.Success? ==>
      r.store.frames == s.frames + [FrameRow(Parse(deviceId).value, "screen", image, width, height, timestamp, db.now)]
    ensures r.reply.Failure? ==> r.store.frames == s.frames
    ensures var g := GetOrCreate(s, deviceId, None, freshToken, db);
      && (r.reply.Success? ==>
            && r.store == g.store.(frames := s.frames + [FrameRow(Parse(deviceId).value, "screen", image, width, height,
                                                                   timestamp, db.now)])
            && r.reply.value == Success3("screenshot_id", |s.frames|, "Screenshot uploaded successfully"))
      && (r.reply.Failure? ==> r.store == g.store)
    ensures Valid(r.store)
  {
    var g := GetOrCreate(s, deviceId, None, freshToken, db);
    match g.device
    case Failure(e) => Refuse(s, e)
    case Success(p) =>
      assert p.id == Parse(deviceId).value && p.id in g.store.devices && Valid(g.store);
      ScreenshotReply(g.store, p.id, image, width, height, timestamp, HttpError(400, "Image must be PNG or JPEG"), db)
  }

  /** `POST /camera/no-token`: camera name first, then provision; the bytes
      are stored without a signature check. */
  function CameraNoToken(s: Store, deviceId: string, camera: string, image: Bytes, width: int, height: int,
                         timestamp: int, freshToken: string, db: Db): (r: Outcome)
    requires Valid(s)
    ensures r.reply.Success? <==> CheckCamera(camera).None? && CanProvision(s, deviceId, freshToken, db)
    ensures CheckCamera(camera).Some? ==> r == Refuse(s, CheckCamera(camera).value)
    ensures r.reply.Success? ==>
      r.store.frames == s.frames + [FrameRow(Parse(deviceId).value, camera, image, width, height, timestamp, db.now)]
    ensures var g := GetOrCreate(s, deviceId, None, freshToken, db);
      && (r.reply.Success? ==>
            && r.store == g.store.(frames := s.frames + [FrameRow(Parse(deviceId).value, camera, image, width, height,
                                                                   timestamp, db.now)])
            && r.reply.value == Success3("frame_id", |s.frames|, "Camera frame uploaded successfully"))
      && (r.reply.Failure? ==> r.store == s)
    ensures Valid(r.store)
  {
    if CheckCamera(camera).Some? then Refuse(s, CheckCamera(camera).value)
    else
      var g := GetOrCreate(s, deviceId, None, freshToken, db);
      match g.device
      case Failure(e) => Refuse(s, e)
      case Success(p) =>
        assert p.id == Parse(deviceId).value && p.id in g.store.devices && Valid(g.store);
        FrameReply(g.store, p.id, camera, image, width, height, timestamp, "frame_id", "Camera frame uploaded successfully", db)
  }

  /** `POST /camera/base64/no-token`: camera name, provision, then the
      (possibly `data:` wrapped) base64 text; no signature check. */
  function CameraBase64NoToken(s: Store, deviceId: string, camera: string, imageBase64: string,
                               decode: string -> Option<Bytes>, width: int, height: int, timestamp: int,
                               freshToken: string, db: Db): (r: Outcome)
    requires Valid(s)
    ensures r.reply.Success? <==>
      && CheckCamera(camera).None? && CanProvision(s, deviceId, freshToken, db)
      && UnwrapDataUrl(imageBase64).Some? && decode(UnwrapDataUrl(imageBase64).value).Some?
    ensures CheckCamera(camera).Some? ==> r == Refuse(s, CheckCamera(camera).value)
    ensures r.reply.Success? ==>
      r.store.frames == s.frames + [FrameRow(Parse(deviceId).value, camera, decode(UnwrapDataUrl(imageBase64).value).value,
                                             width, height, timestamp, db.now)]
    ensures var g := GetOrCreate(s, deviceId, None, freshToken, db);
      && (r.reply.Success? ==>
            && r.store == g.store.(frames := s.frames + [FrameRow(Parse(deviceId).value, camera,
                 decode(UnwrapDataUrl(imageBase64).value).value, width, height, timestamp, db.now)])
            && r.reply.value == Success3("frame_id", |s.frames|, "Camera frame uploaded successfully"))
      && (r.reply.Failure? && CheckCamera(camera).None? ==> r.store == g.store)
    ensures Valid(r.store)
  {
    if CheckCamera(camera).Some? then Refuse(s, CheckCamera(camera).value)
    else
      var g := GetOrCreate(s, deviceId, None, freshToken, db);
      match g.device
      case Failure(e) => Refuse(s, e)
      case Success(p) =>
        assert p.id == Parse(deviceId).value && p.id in g.store.devices && Valid(g.store);
        match UnwrapDataUrl(imageBase64)
        case None => Refuse(g.store, HttpError(400, "Invalid base64 image"))
        case Some(text) =>
          if decode(text).None? then Refuse(g.store, HttpError(400, "Invalid base64 image"))
          else FrameReply(g.store, p.id, camera, decode(text).value, width, height, timestamp, "frame_id",
                          "Camera frame uploaded successfully", db)
  }

  /** `POST /location/no-token`: the coordinate ranges first, then provision. */
  function LocationNoToken(s: Store, deviceId: string, lat: real, lon: real, accuracy: Option<real>,
                           timestamp: int, freshToken: string, db: Db): (r: Outcome)
    requires Valid(s)
    ensures r.reply.Success? <==>
      -90.0 <= lat <= 90.0 && -180.0 <= lon <= 180.0 && CanProvision(s, deviceId, freshToken, db)
    ensures CheckCoordinates(lat, lon).Some? ==> r == Refuse(s, CheckCoordinates(lat, lon).value)
    ensures r.reply.Success? ==>
      r.store.locations == s.locations + [LocationRow(Parse(deviceId).value, lat, lon, accuracy, timestamp, db.now)]
    ensures var g := GetOrCreate(s, deviceId, None, freshToken, db);
      && (r.reply.Success? ==>
            && r.store == g.store.(locations := s.locations + [LocationRow(Parse(deviceId).value, lat, lon, accuracy,
                                                                            timestamp, db.now)])
            && r.reply.value == Success3("location_id", |s.locations|, "Location updated successfully"))
      && (r.reply.Failure? ==> r.store == s)
    ensures Valid(r.store)
  {
    if CheckCoordinates(lat, lon).Some? then Refuse(s, CheckCoordinates(lat, lon).value)
    else
      var g := GetOrCreate(s, deviceId, None, freshToken, db);
      match g.device
      case Failure(e) => Refuse(s, e)
      case Success(p) =>
        assert p.id == Parse(deviceId).value && p.id in g.store.devices && Valid(g.store);
        LocationReply(g.store, p.id, lat, lon, accuracy, timestamp, db)
  }

  /** The two unauthenticated location uploads differ in order: with a bad
      coordinate, `/upload/location` has already provisioned the device when
      it refuses, while `/location/no-token` refuses with the store untouched. */
  lemma LocationCheckOrder(s: Store, deviceId: string, lat: real, lon: real, accuracy: Option<real>,
                           timestamp: int, freshToken: string, db: Db)
    requires Valid(s)
    requires CanProvision(s, deviceId, freshToken, db) && Parse(deviceId).value !in s.devices
    requires CheckCoordinates(lat, lon).Some?
    ensures var r := UploadLocationAuto(s, deviceId, lat, lon, accuracy, timestamp, freshToken, db);
      r.reply == Failure(CheckCoordinates(lat, lon).value) && Parse(deviceId).value in r.store.devices
    ensures LocationNoToken(s, deviceId, lat, lon, accuracy, timestamp, freshToken, db)
      == Refuse(s, CheckCoordinates(lat, lon).value)
  {
    var g := GetOrCreate(s, deviceId, None, freshToken, db);
    assert g.device.Success?;
    assert Parse(deviceId).value in g.store.devices;
  }

  /** `POST /system-info/no-token`: provision, then one `system_info` event
      whose `is_charging` is read from text. */
  function SystemInfoNoToken(s: Store, deviceId: string, batteryLevel: Option<int>, isCharging: Option<string>,
                             batteryTemp: Option<real>, memoryUsage: Option<int>, storageUsage: Option<real>,
                             timestamp: int, freshToken: string, db: Db): (r: Outcome)
    requires Valid(s)
    ensures r.reply.Success? <==> CanProvision(s, deviceId, freshToken, db)
    ensures r.reply.Success? ==>
      r.store.events == s.events + [EventRow(Parse(deviceId).value, "system_info",
        SystemInfoPayload(batteryLevel, OptCharging(isCharging), batteryTemp, memoryUsage, storageUsage, timestamp),
        if timestamp == 0 then db.now else timestamp, db.now)]
    ensures var g := GetOrCreate(s, deviceId, None, freshToken, db);
      && (r.reply.Success? ==>
            && r.store == g.store.(events := s.events + [EventRow(Parse(deviceId).value, "system_info",
                 SystemInfoPayload(batteryLevel, OptCharging(isCharging), batteryTemp, memoryUsage, storageUsage, timestamp),
                 if timestamp == 0 then db.now else timestamp, db.now)])
            && r.reply.value == Success3("event_id", |s.events|, "System info uploaded successfully"))
      && (r.reply.Failure? ==> r.store == s)
    ensures Valid(r.store)
  {
    ProvisionThenLog(s, deviceId, "system_info",
                     SystemInfoPayload(batteryLevel, OptCharging(isCharging), batteryTemp, memoryUsage, storageUsage, timestamp),
                     timestamp, "System info uploaded successfully", freshToken, db)
  }

  /** `POST /battery/no-token`: provision, then one `battery_info` event
      whose `is_charging` is read from text and whose voltage is an integer. */
  function BatteryNoToken(s: Store, deviceId: string, level: int, isCharging: string, temperature: Option<real>,
                          voltage: Option<int>, health: Option<string>, timestamp: int, freshToken: string, db: Db)
    : (r: Outcome)
    requires Valid(s)
    ensures r.reply.Success? <==> CanProvision(s, deviceId, freshToken, db)
    ensures r.reply.Success? ==>
      r.store.events == s.events + [EventRow(Parse(deviceId).value, "battery_info",
        BatteryPayload(level, ParseCharging(isCharging), temperature, OptInt(voltage), health, timestamp),
        if timestamp == 0 then db.now else timestamp, db.now)]
    ensures var g := GetOrCreate(s, deviceId, None, freshToken, db);
      && (r.reply.Success? ==>
            && r.store == g.store.(events := s.events + [EventRow(Parse(deviceId).value, "battery_info",
                 BatteryPayload(level, ParseCharging(isCharging), temperature, OptInt(voltage), health, timestamp),
                 if timestamp == 0 then db.now else timestamp, db.now)])
            && r.reply.value == Success3("event_id", |s.events|, "Battery info uploaded successfully"))
      && (r.reply.Failure? ==> r.store == s)
    ensures Valid(r.store)
  {
    ProvisionThenLog(s, deviceId, "battery_info",
                     BatteryPayload(level, ParseCharging(isCharging), temperature, OptInt(voltage), health, timestamp),
                     timestamp, "Battery info uploaded successfully", freshToken, db)
  }
}

=== FILE: rest_rules.dfy ===
/** The validation and payload-shaping rules shared by the device upload
    endpoints of backend/devices/api_router.py and backend/devices/device_api.py:
    which camera names, image signatures and coordinates are accepted, how
    optional form fields are dropped, how a textual `is_charging` is read,
    and how a `data:` URL is unwrapped before base64 decoding. */
module RestRules {
  import opened Wrappers
  import opened Json
  import opened Text
  import opened Models

  /** An `HTTPException`: status code and detail text. */
  datatype HttpError = HttpError(status: int, detail: string)

  /** What an uncaught exception inside an endpoint becomes. */
  const InternalError := HttpError(500, "Internal Server Error")

  /** What an endpoint answers: its JSON body, or an error status. */
  type Reply = Result<Object, HttpError>

  // ---------------------------------------------------------------------------
  // Camera selector

  /** `camera not in ["front", "back"]` is refused with 400. */
  function CheckCamera(camera: string): (r: Option<HttpError>)
    ensures r.None? <==> camera == "front" || camera == "back"
    ensures r.Some? ==> r.value.status == 400
  {
    if camera in ["front", "back"] then None
    else Some(HttpError(400, "Camera must be 'front' or 'back'"))
  }

  // ---------------------------------------------------------------------------
  // Image signatures

  /** The JPEG start-of-image marker FF D8. */
  const JpegMagic: Bytes := [0xFF, 0xD8]

  /** The first four bytes of the PNG signature: 89 'P' 'N' 'G'. */
  const PngMagic: Bytes := [0x89, 0x50, 0x4E, 0x47]

  /** `data.startswith(p)` on bytes. */
  predicate HasPrefix(data: Bytes, p: Bytes) {
    |p| <= |data| && data[..|p|] == p
  }

  /** Camera uploads must carry a JPEG. */
  function CheckJpeg(data: Bytes): (r: Option<HttpError>)
    ensures r.None? <==> |data| >= 2 && data[0] == 0xFF && data[1] == 0xD8
    ensures r.Some? ==> r.value.status == 400
  {
    if HasPrefix(data, JpegMagic) then None
    else Some(HttpError(400, "Image must be JPEG format"))
  }

  /** Screenshots may be a PNG or a JPEG. */
  function CheckScreenshot(data: Bytes): (r: Option<HttpError>)
    ensures r.None? <==>
      || (|data| >= 2 && data[0] == 0xFF && data[1] == 0xD8)
      || (|data| >= 4 && data[0] == 0x89 && data[1] == 'P' as int && data[2] == 'N' as int && data[3] == 'G' as int)
    ensures r.Some? ==> r.value.status == 400
  {
    var isPng := HasPrefix(data, PngMagic);
    var isJpeg := HasPrefix(data, JpegMagic);
    if isPng || isJpeg then None
    else Some(HttpError(400, "Image must be PNG or JPEG format"))
  }

  /** Everything a camera upload accepts a screenshot upload accepts too, and a
      PNG is the one kind only the screenshot upload takes. */
  lemma ScreenshotAcceptsMore(data: Bytes)
    ensures CheckJpeg(data).None? ==> CheckScreenshot(data).None?
    ensures HasPrefix(data, PngMagic) ==> CheckScreenshot(data).None? && CheckJpeg(data).Some?
  {
  }

  // ---------------------------------------------------------------------------
  // Coordinates

  /** The latitude test comes first; both ranges include their bounds. */
  function CheckCoordinates(lat: real, lon: real): (r: Option<HttpError>)
    ensures r.None? <==> -90.0 <= lat <= 90.0 && -180.0 <= lon <= 180.0
    ensures !(-90.0 <= lat <= 90.0) ==> r == Some(HttpError(400, "Latitude must be between -90 and 90"))
    ensures r.Some? ==> r.value.status == 400
  {
    if !(-90.0 <= lat <= 90.0) then Some(HttpError(400, "Latitude must be between -90 and 90"))
    else if !(-180.0 <= lon <= 180.0) then Some(HttpError(400, "Longitude must be between -180 and 180"))
    else None
  }

  /** The poles and the antimeridian are accepted; one step past them is not. */
  lemma CoordinateBounds(eps: real)
    requires eps > 0.0
    ensures CheckCoordinates(90.0, 180.0).None? && CheckCoordinates(-90.0, -180.0).None?
    ensures CheckCoordinates(90.0 + eps, 0.0).Some? && CheckCoordinates(-90.0 - eps, 0.0).Some?
    ensures CheckCoordinates(0.0, 180.0 + eps).Some? && CheckCoordinates(0.0, -180.0 - eps).Some?
  {
  }

  // ---------------------------------------------------------------------------
  // Payload shaping

  /** `{k: v for k, v in d.items() if v is not None}` */
  function DropNones(d: Object): (r: Object)
    ensures forall k :: k in r <==> k in d && d[k] != Null
    ensures forall k :: k in r ==> r[k] == d[k]
  {
    map k | k in d && d[k] != Null :: d[k]
  }

  /** Dropping is idempotent, and it only drops None: `False` and `0` stay. */
  lemma DropNonesIdempotent(d: Object)
    ensures DropNones(DropNones(d)) == DropNones(d)
    ensures forall k :: k in d && d[k] in {Bool(false), Int(0), Real(0.0), Str("")} ==> k in DropNones(d)
  {
  }

  function OptInt(o: Option<int>): Value {
    match o
    case None => Null
    case Some(i) => Int(i)
  }

  function OptBool(o: Option<bool>): Value {
    match o
    case None => Null
    case Some(b) => Bool(b)
  }

  /** A numeric form field of either kind, or a missing one. */
  predicate NumberOrNone(v: Value) {
    v.Null? || v.Int? || v.Real?
  }

  /** The `system_info` event of `/system-info` and `/system-info/no-token`:
      every supplied field under its own key, the timestamp always. */
  function SystemInfoPayload(batteryLevel: Option<int>, isCharging: Option<bool>, batteryTemp: Option<real>,
                             memoryUsage: Option<int>, storageUsage: Option<real>, timestamp: int): (r: Object)
    ensures r.Keys <= {"battery_level", "is_charging", "battery_temp", "memory_usage", "storage_usage", "timestamp"}
    ensures "timestamp" in r && r["timestamp"] == Int(timestamp)
    ensures ("battery_level" in r <==> batteryLevel.Some?) && (batteryLevel.Some? ==> r["battery_level"] == Int(batteryLevel.value))
    ensures ("is_charging" in r <==> isCharging.Some?) && (isCharging.Some? ==> r["is_charging"] == Bool(isCharging.value))
    ensures ("battery_temp" in r <==> batteryTemp.Some?) && (batteryTemp.Some? ==> r["battery_temp"] == Real(batteryTemp.value))
    ensures ("memory_usage" in r <==> memoryUsage.Some?) && (memoryUsage.Some? ==> r["memory_usage"] == Int(memoryUsage.value))
    ensures ("storage_usage" in r <==> storageUsage.Some?) && (storageUsage.Some? ==> r["storage_usage"] == Real(storageUsage.value))
    ensures Serializable(Obj(r))
  {
    var m := map[
      "battery_level" := OptInt(batteryLevel),
      "is_charging" := OptBool(isCharging),
      "battery_temp" := OptReal(batteryTemp),
      "memory_usage" := OptInt(memoryUsage),
      "storage_usage" := OptReal(storageUsage),
      "timestamp" := Int(timestamp)];
    assert m.Keys == {"battery_level", "is_charging", "battery_temp", "memory_usage", "storage_usage", "timestamp"};
    assert m["battery_level"] == OptInt(batteryLevel) && m["is_charging"] == OptBool(isCharging);
    assert m["battery_temp"] == OptReal(batteryTemp) && m["memory_usage"] == OptInt(memoryUsage);
    assert m["storage_usage"] == OptReal(storageUsage) && m["timestamp"] == Int(timestamp);
    DropNones(m)
  }

  /** The `battery_info` event of `/battery` and `/battery/no-token`: level,
      charging flag and timestamp always, the optional readings when given. */
  function BatteryPayload(level: int, isCharging: bool, temperature: Option<real>, voltage: Value,
                          health: Option<string>, timestamp: int): (r: Object)
    requires NumberOrNone(voltage)
    ensures r.Keys <= {"level", "is_charging", "temperature", "voltage", "health", "timestamp"}
    ensures "level" in r && r["level"] == Int(level)
    ensures "is_charging" in r && r["is_charging"] == Bool(isCharging)
    ensures "timestamp" in r && r["timestamp"] == Int(timestamp)
    ensures ("temperature" in r <==> temperature.Some?) && (temperature.Some? ==> r["temperature"] == Real(temperature.value))
    ensures ("voltage" in r <==> !voltage.Null?) && (!voltage.Null? ==> r["voltage"] == voltage)
    ensures ("health" in r <==> health.Some?) && (health.Some? ==> r["health"] == Str(health.value))
    ensures Serializable(Obj(r))
  {
    var m := map[
      "level" := Int(level),
      "is_charging" := Bool(isCharging),
      "temperature" := OptReal(temperature),
      "voltage" := voltage,
      "health" := OptStr(health),
      "timestamp" := Int(timestamp)];
    assert m.Keys == {"level", "is_charging", "temperature", "voltage", "health", "timestamp"};
    assert m["level"] == Int(level) && m["is_charging"] == Bool(isCharging) && m["timestamp"] == Int(timestamp);
    assert m["temperature"] == OptReal(temperature) && m["voltage"] == voltage && m["health"] == OptStr(health);
    DropNones(m)
  }

  // ---------------------------------------------------------------------------
  // Textual booleans

  /** `s` spells the lower-case word `w`, any of its letters possibly in
      upper case. */
  predicate SpellsIgnoringCase(s: string, w: string) {
    |s| == |w| && forall i :: 0 <= i < |s| ==> s[i] == w[i] || ('a' <= w[i] <= 'z' && s[i] as int == w[i] as int - 32)
  }

  /** Lower-casing yields a word without capitals exactly when the string
      spells it up to case. */
  lemma LowerSpells(s: string, w: string)
    requires forall i :: 0 <= i < |w| ==> !('A' <= w[i] <= 'Z')
    ensures Lower(s) == w <==> SpellsIgnoringCase(s, w)
  {
    if Lower(s) == w {
      forall i | 0 <= i < |s| ensures s[i] == w[i] || ('a' <= w[i] <= 'z' && s[i] as int == w[i] as int - 32) {
        assert LowerChar(s[i]) == w[i];
      }
    }
    if SpellsIgnoringCase(s, w) {
      forall i | 0 <= i < |s| ensures Lower(s)[i] == w[i] {
        assert Lower(s)[i] == LowerChar(s[i]);
      }
    }
  }

  /** `is_charging.lower() in ("true", "1", "yes")` */
  function ParseCharging(s: string): (r: bool)
    ensures r ==> |s| == 1 || |s| == 3 || |s| == 4
    ensures r <==> SpellsIgnoringCase(s, "true") || SpellsIgnoringCase(s, "1") || SpellsIgnoringCase(s, "yes")
  {
    LowerSpells(s, "true");
    LowerSpells(s, "1");
    LowerSpells(s, "yes");
    Lower(s) in {"true", "1", "yes"}
  }

  /** Strings that agree up to ASCII case read the same. */
  lemma {:induction false} ChargingIgnoresCase(s: string, t: string)
    requires |s| == |t| && forall i :: 0 <= i < |s| ==> LowerChar(s[i]) == LowerChar(t[i])
    ensures ParseCharging(s) == ParseCharging(t)
  {
    assert Lower(s) == Lower(t);
  }

  /** Some spellings: `True` and `YES` are true; `false`, `on`, `y` and a
      padded ` true` are false. */
  lemma ChargingSpellings()
    ensures ParseCharging("True") && ParseCharging("YES") && ParseCharging("1")
    ensures !ParseCharging("false") && !ParseCharging("on") && !ParseCharging("y") && !ParseCharging(" true")
  {
    assert Lower("True") == "true";
    assert Lower("YES") == "yes";
    assert Lower("1") == "1";
    assert Lower("y") == "y";
  }

  /** The optional `is_charging` of `/system-info/no-token`: None stays None. */
  function OptCharging(o: Option<string>): (r: Option<bool>)
    ensures r.Some? <==> o.Some?
    ensures o.Some? ==> r.value == ParseCharging(o.value)
  {
    match o
    case None => None
    case Some(s) => Some(ParseCharging(s))
  }

  // ---------------------------------------------------------------------------
  // data: URLs

  /** The text handed to the base64 decoder: a value starting with
      `data:image` is replaced by its second comma-separated field; a value
      without a comma then has no such field and is refused. */
  function UnwrapDataUrl(s: string): (r: Option<string>)
    ensures r.None? <==> StartsWith(s, "data:image") && ',' !in s
    ensures !StartsWith(s, "data:image") ==> r == Some(s)
    ensures StartsWith(s, "data:image") && r.Some? ==> ',' !in r.value && |Split(s, ',')| >= 2 && r.value == Split(s, ',')[1]
  {
    if StartsWith(s, "data:image") then
      var parts := Split(s, ',');
      if |parts| < 2 then None else Some(parts[1])
    else Some(s)
  }

  /** A `data:image/...;base64,` header followed by a comma-free payload
      yields exactly the payload. */
  lemma UnwrapDataUrlPayload(header: string, payload: string)
    requires StartsWith(header, "data:image") && ',' !in header && ',' !in payload
    ensures UnwrapDataUrl(header + "," + payload) == Some(payload)
  {
    var s := header + "," + payload;
    assert s[..|"data:image"|] == header[..|"data:image"|];
    SplitJoinedPair(header, payload, ',');
  }
}

=== FILE: sessions.dfy ===
/** The session registry of backend/devices/manager.py: one `DeviceSession`
    per device id ever registered, in registration order, flipped offline on
    disconnect and never deleted. */
module Sessions {
  import opened Wrappers
  import opened Json
  import opened Models
  import opened Uuid
  import opened RecordStore
  import opened Ordering

  /** `SessionManager.sessions`. A Python dict iterates in insertion order,
      which `order` records. */
  datatype Registry = Registry(order: seq<string>, sessions: map<string, DeviceSession>)

  const NoSessions := Registry([], map[])

  /** The registry's shape: `order` lists every key exactly once, and every
      session sits under its own device id. */
  predicate Valid(reg: Registry) {
    && (forall i, j :: 0 <= i < j < |reg.order| ==> reg.order[i] != reg.order[j])
    && (forall i :: 0 <= i < |reg.order| ==> reg.order[i] in reg.sessions)
    && (forall k :: k in reg.sessions ==> k in reg.order && reg.sessions[k].deviceId == k)
  }

  /** `sessions[id] = s`: a new key goes to the end of the iteration order,
      an existing one keeps its place. */
  function Put(reg: Registry, id: string, s: DeviceSession): (r: Registry)
    ensures r.sessions == reg.sessions[id := s]
    ensures id in reg.sessions ==> r.order == reg.order
    ensures id !in reg.sessions ==> r.order == reg.order + [id]
  {
    Registry(if id in reg.sessions then reg.order else reg.order + [id], reg.sessions[id := s])
  }

  lemma PutKeepsValid(reg: Registry, id: string, s: DeviceSession)
    requires Valid(reg) && s.deviceId == id
    ensures Valid(Put(reg, id, s))
  {
  }

  /** The outcome of `register_device`: the registry and store as the call
      left them, and the session it returned (`None` when it raised). */
  datatype Registered = Registered(reg: Registry, store: Store, session: Option<DeviceSession>)

  /** The columns `register_device` passes to the store. */
  function InfoAttrs(info: DeviceInfo): DeviceAttrs {
    DeviceAttrs(info.imei, Some(info.model), Some(info.manufacturer), Some(info.androidVersion), Some(info.sdk))
  }

  /** The session a (re-)registration leaves under `info.id`: an existing one
      is refreshed and renamed, otherwise a new one is built. */
  function Refresh(reg: Registry, info: DeviceInfo, now: int): DeviceSession {
    if info.id in reg.sessions then
      reg.sessions[info.id].(lastActivity := now, isOnline := true, deviceName := info.name)
    else NewSession(info, now)
  }

  /** The profile step of `register_device`: `update_device` for a known
      device, else `create_device` with the fresh token; the store is left as
      it was when the creation is refused. */
  function SaveProfile(store: Store, info: DeviceInfo, newToken: string, known: bool, db: Db): (r: Store)
    requires Parse(info.id).Some? && db.up
    requires known <==> Parse(info.id).value in store.devices
    ensures RecordStore.Valid(store) ==> RecordStore.Valid(r)
    ensures r.frames == store.frames && r.locations == store.locations && r.events == store.events
    ensures !known && !TokenFree(store, newToken) ==> r == store
    ensures known || TokenFree(store, newToken) ==>
      var u := Parse(info.id).value;
      u in r.devices &&
      var p := r.devices[u];
      && r.devices == store.devices[u := p]
      && p.name == info.name && p.lastSeen == db.now
      && p.model == Some(info.model) && p.manufacturer == Some(info.manufacturer)
      && p.androidVersion == Some(info.androidVersion) && p.sdk == Some(info.sdk)
      && p.imei == (if known && info.imei.None? then store.devices[u].imei else info.imei)
      && p.token == (if known then store.devices[u].token else newToken)
      && p.createdAt == (if known then store.devices[u].createdAt else db.now)
      && p.isActive == (known ==> store.devices[u].isActive)
  {
    if known then
      var patch := DevicePatch(Some(info.name), None, InfoAttrs(info));
      UpdateKeepsValid(store, info.id, patch, db);
      UpdateDevice(store, info.id, patch, db).value.0
    else
      CreateKeepsValid(store, info.id, info.name, newToken, InfoAttrs(info), db);
      var created := CreateDevice(store, info.id, info.name, newToken, InfoAttrs(info), db);
      if created.Failure? then store else created.value.0
  }

  /** `register_device`: update the stored profile, or create one with the
      fresh token `newToken`; then create or refresh the session; then log
      one `connected` event. A store failure before the session step leaves
      everything as it was. The database is either reachable for the whole
      call or not at all, so once the profile is saved the logging step
      succeeds too. */
  function RegisterDevice(reg: Registry, store: Store, info: DeviceInfo, newToken: string, db: Db)
    : (r: Registered)
    ensures r.session.Some? <==>
      Parse(info.id).Some? && db.up && (Parse(info.id).value in store.devices || TokenFree(store, newToken))
    ensures r.session.None? ==> r.store == store && r.reg == reg
    ensures r.session.Some? ==>
      var u := Parse(info.id).value;
      u in r.store.devices &&
      var p := r.store.devices[u];
      && r.reg == Put(reg, info.id, r.session.value)
      && r.session.value == r.reg.sessions[info.id]
      && p.name == info.name && p.model == Some(info.model) && p.sdk == Some(info.sdk) && p.lastSeen == db.now
      && p.token == (if u in store.devices then store.devices[u].token else newToken)
      && (u !in store.devices ==> p.isActive && p.createdAt == db.now && p.imei == info.imei)
      && (u in store.devices ==> p.createdAt == store.devices[u].createdAt)
      && (forall v :: v in store.devices ==> v in r.store.devices)
      && r.store.devices == store.devices[u := p]
      && p.manufacturer == Some(info.manufacturer) && p.androidVersion == Some(info.androidVersion)
      && p.imei == (if u in store.devices && info.imei.None? then store.devices[u].imei else info.imei)
      && (u in store.devices ==> p.isActive == store.devices[u].isActive)
      && r.store.frames == store.frames && r.store.locations == store.locations
      && r.store.events == store.events + [EventRow(u, "connected", InfoDict(info), db.now, db.now)]
    ensures RecordStore.Valid(store) ==> RecordStore.Valid(r.store)
    ensures r.session.Some? && info.id !in reg.sessions ==> r.session.value == NewSession(info, db.now)
    ensures r.session.Some? && info.id in reg.sessions ==>
      var (was, s) := (reg.sessions[info.id], r.session.value);
      && s.lastActivity == db.now && s.isOnline && s.deviceName == info.name
      && s.connectedAt == was.connectedAt && s.imei == was.imei && s.model == was.model
      && s.manufacturer == was.manufacturer && s.androidVersion == was.androidVersion
      && s.currentCamera == was.currentCamera && s.location == was.location && s.batteryLevel == was.batteryLevel
  {
    var found := RecordStore.GetDevice(store, info.id, db);
    if found.Failure? then Registered(reg, store, None)
    else
      var saved := SaveProfile(store, info, newToken, found.value.Some?, db);
      if found.value.None? && !TokenFree(store, newToken) then Registered(reg, store, None)
      else
        var session := Refresh(reg, info, db.now);
        var reg' := Put(reg, info.id, session);
        var logged := LogDeviceEvent(saved, info.id, "connected", Some(InfoDict(info)), None, db);
        LogKeepsValid(saved, info.id, "connected", Some(InfoDict(info)), None, db);
        assert logged.Success?;
        Registered(reg', logged.value.0, Some(session))
  }

  lemma RegisterKeepsValid(reg: Registry, store: Store, info: DeviceInfo, newToken: string, db: Db)
    requires Valid(reg) && RecordStore.Valid(store)
    ensures Valid(RegisterDevice(reg, store, info, newToken, db).reg)
    ensures RecordStore.Valid(RegisterDevice(reg, store, info, newToken, db).store)
  {
    RegisterKeepsRegistryValid(reg, store, info, newToken, db);
  }

  lemma RegisterKeepsRegistryValid(reg: Registry, store: Store, info: DeviceInfo, newToken: string, db: Db)
    requires Valid(reg)
    ensures Valid(RegisterDevice(reg, store, info, newToken, db).reg)
  {
    if info.id in reg.sessions {
      assert reg.sessions[info.id].deviceId == info.id;
    }
    PutKeepsValid(reg, info.id, Refresh(reg, info, db.now));
  }

  /** Registering the same device again, on the store the first registration
      left, keeps the token issued the first time and the session's
      `connected_at`, whatever fresh token the second call is offered. */
  lemma RegisterTwice(reg: Registry, store: Store, info: DeviceInfo, token1: string, token2: string, db1: Db, db2: Db)
    requires RegisterDevice(reg, store, info, token1, db1).session.Some?
    requires db2.up
    ensures var first := RegisterDevice(reg, store, info, token1, db1);
      var second := RegisterDevice(first.reg, first.store, info, token2, db2);
      && second.session.Some?
      && second.session.value.connectedAt == first.session.value.connectedAt
      && second.session.value.lastActivity == db2.now
      && second.store.devices[Parse(info.id).value].token == first.store.devices[Parse(info.id).value].token
      && |second.reg.order| == |first.reg.order|
  {
  }

  /** `SessionManager.disconnect_device`: marks the session offline and
      nothing else; an unknown id changes nothing. */
  function DisconnectDevice(reg: Registry, id: string): (r: Registry)
    ensures r.order == reg.order && r.sessions.Keys == reg.sessions.Keys
    ensures forall k :: k in reg.sessions && k != id ==> r.sessions[k] == reg.sessions[k]
    ensures id in reg.sessions ==>
      !r.sessions[id].isOnline && r.sessions[id].(isOnline := true) == reg.sessions[id].(isOnline := true)
  {
    if id in reg.sessions then reg.(sessions := reg.sessions[id := reg.sessions[id].(isOnline := false)])
    else reg
  }

  lemma DisconnectIdempotent(reg: Registry, id: string)
    ensures DisconnectDevice(DisconnectDevice(reg, id), id) == DisconnectDevice(reg, id)
  {
  }

  /** `SessionManager.get_device` */
  function GetDevice(reg: Registry, id: string): (r: Option<DeviceSession>)
    ensures r.Some? <==> id in reg.sessions
    ensures r.Some? ==> r.value == reg.sessions[id]
  {
    if id in reg.sessions then Some(reg.sessions[id]) else None
  }

  /** The sessions stored under the keys of `order`, in that order. */
  function Collect(order: seq<string>, sessions: map<string, DeviceSession>): (r: seq<DeviceSession>)
    ensures |r| <= |order|
    ensures (forall i :: 0 <= i < |order| ==> order[i] in sessions) ==>
      |r| == |order| && forall i :: 0 <= i < |r| ==> r[i] == sessions[order[i]]
  {
    if order == [] then []
    else (if order[0] in sessions then [sessions[order[0]]] else []) + Collect(order[1..], sessions)
  }

  /** `get_all_devices`: every session, online or not, in registration order. */
  function GetAllDevices(reg: Registry): (r: seq<DeviceSession>)
    ensures Valid(reg) ==> |r| == |reg.order| && forall i :: 0 <= i < |r| ==> r[i] == reg.sessions[reg.order[i]]
  {
    Collect(reg.order, reg.sessions)
  }

  predicate IsOnline(s: DeviceSession) { s.isOnline }

  /** `get_online_devices` */
  function GetOnlineDevices(reg: Registry): (r: seq<DeviceSession>)
    ensures forall i :: 0 <= i < |r| ==> r[i].isOnline && r[i] in GetAllDevices(reg)
  {
    Filter(GetAllDevices(reg), IsOnline)
  }

  /** Every stored session is listed by `get_all_devices`, and by
      `get_online_devices` exactly when it is online. */
  lemma ListsAgree(reg: Registry, id: string)
    requires Valid(reg) && id in reg.sessions
    ensures reg.sessions[id] in GetAllDevices(reg)
    ensures reg.sessions[id] in GetOnlineDevices(reg) <==> reg.sessions[id].isOnline
  {
    var all := GetAllDevices(reg);
    var i :| 0 <= i < |reg.order| && reg.order[i] == id;
    assert all[i] == reg.sessions[id];
  }

  /** A disconnected device keeps its session: still listed, no longer online. */
  lemma DisconnectKeepsSession(reg: Registry, id: string)
    requires Valid(reg) && id in reg.sessions
    ensures Valid(DisconnectDevice(reg, id))
    ensures GetDevice(DisconnectDevice(reg, id), id).Some?
    ensures DisconnectDevice(reg, id).sessions[id] in GetAllDevices(DisconnectDevice(reg, id))
    ensures DisconnectDevice(reg, id).sessions[id] !in GetOnlineDevices(DisconnectDevice(reg, id))
  {
    var r := DisconnectDevice(reg, id);
    assert Valid(r);
    ListsAgree(r, id);
  }

  /** Which session fields an `update_device_data` dict supplies: a key
      present in the dict is `Some`, whatever its value. */
  datatype SessionPatch = SessionPatch(battery: Option<Value>, location: Option<Value>, camera: Option<string>)

  /** `update_device_data`: for a known id, refreshes `last_activity` and
      overwrites only the supplied fields; an unknown id changes nothing. */
  function UpdateDeviceData(reg: Registry, id: string, patch: SessionPatch, now: int): (r: Registry)
    ensures r.order == reg.order && r.sessions.Keys == reg.sessions.Keys
    ensures forall k :: k in reg.sessions && k != id ==> r.sessions[k] == reg.sessions[k]
    ensures id in reg.sessions ==>
      var (was, s) := (reg.sessions[id], r.sessions[id]);
      && s.lastActivity == now
      && s.batteryLevel == (if patch.battery.Some? then patch.battery.value else was.batteryLevel)
      && s.location == (if patch.location.Some? then patch.location.value else was.location)
      && s.currentCamera == (if patch.camera.Some? then patch.camera.value else was.currentCamera)
      && s.deviceId == was.deviceId && s.deviceName == was.deviceName && s.isOnline == was.isOnline
      && s.connectedAt == was.connectedAt && s.imei == was.imei && s.model == was.model
      && s.manufacturer == was.manufacturer && s.androidVersion == was.androidVersion
  {
    if id !in reg.sessions then reg
    else
      var s := reg.sessions[id];
      reg.(sessions := reg.sessions[id := s.(lastActivity := now,
                                             batteryLevel := patch.battery.GetOr(s.batteryLevel),
                                             location := patch.location.GetOr(s.location),
                                             currentCamera := patch.camera.GetOr(s.currentCamera))])
  }

  lemma UpdateDataKeepsValid(reg: Registry, id: string, patch: SessionPatch, now: int)
    requires Valid(reg)
    ensures Valid(UpdateDeviceData(reg, id, patch, now))
  {
  }

  /** A number the database accepts for a float column. */
  function Number(v: Value): Option<real> {
    match v
    case Int(i) => Some(i as real)
    case Real(r) => Some(r)
    case _ => None
  }

  /** The location columns of a snapshot dict: `lat` and `lon` must be
      numbers, `accuracy` a number or absent, `timestamp` an integer or absent
      (then `now`). */
  function LocationColumns(data: Object, now: int): (r: Option<(real, real, Option<real>, int)>)
    ensures r.Some? ==> Some(r.value.0) == Number(Get(data, "lat")) && Some(r.value.1) == Number(Get(data, "lon"))
    ensures r.Some? ==> GetOr(data, "timestamp", Int(now)) == Int(r.value.3)
    ensures r.Some? <==>
      && Number(Get(data, "lat")).Some? && Number(Get(data, "lon")).Some?
      && GetOr(data, "timestamp", Int(now)).Int?
      && (Get(data, "accuracy").Null? || Number(Get(data, "accuracy")).Some?)
    ensures r.Some? ==> r.value.2 == (if Get(data, "accuracy").Null? then None else Number(Get(data, "accuracy")))
  {
    var acc := Get(data, "accuracy");
    match (Number(Get(data, "lat")), Number(Get(data, "lon")), GetOr(data, "timestamp", Int(now)))
    case (Some(lat), Some(lon), Int(ts)) =>
      if acc.Null? then Some((lat, lon, None, ts))
      else if Number(acc).Some? then Some((lat, lon, Number(acc), ts))
      else None
    case _ => None
  }

  /** A statement the database refuses: the id is still parsed first. */
  function Refused(id: string, db: Db): (r: Result<Store, StoreError>)
    ensures r.Failure?
    ensures r.error == Constraint <==> Parse(id).Some? && db.up
  {
    match Open(id, db)
    case Failure(e) => Failure(e)
    case Success(_) => Failure(Constraint)
  }

  /** `save_snapshot`: a `location` snapshot first stores a location row
      (missing timestamp meaning now); every snapshot then logs one
      `<data_type>_update` event carrying the dict. A value the location
      columns refuse (a missing coordinate, a non-number) is a constraint
      failure. */
  function SaveSnapshot(store: Store, id: string, dataType: string, data: Object, db: Db)
    : (r: Result<Store, StoreError>)
    ensures r.Success? <==>
      && Parse(id).Some? && db.up && Parse(id).value in store.devices
      && (dataType == "location" ==> LocationColumns(data, db.now).Some?)
    ensures Parse(id).None? ==> r == Failure(BadUuid)
    ensures Parse(id).Some? && !db.up ==> r == Failure(Unavailable)
    ensures r.Success? && dataType != "location" ==>
      r.value == store.(events := store.events + [EventRow(Parse(id).value, dataType + "_update", data, db.now, db.now)])
    ensures r.Success? && dataType == "location" ==>
      var c := LocationColumns(data, db.now).value;
      r.value == store.(locations := store.locations + [LocationRow(Parse(id).value, c.0, c.1, c.2, c.3, db.now)],
                        events := store.events + [EventRow(Parse(id).value, dataType + "_update", data, db.now, db.now)])
    ensures r.Success? && dataType == "location" ==>
      && Some(r.value.locations[|store.locations|].lat) == Number(Get(data, "lat"))
      && Some(r.value.locations[|store.locations|].lon) == Number(Get(data, "lon"))
  {
    var saved: Result<Store, StoreError> :=
      if dataType != "location" then Success(store)
      else
        match LocationColumns(data, db.now)
        case None => Refused(id, db)
        case Some((lat, lon, accuracy, ts)) =>
          match SaveLocation(store, id, lat, lon, accuracy, ts, db)
          case Failure(e) => Failure(e)
          case Success((s, _)) => Success(s);
    match saved
    case Failure(e) => Failure(e)
    case Success(s) =>
      match LogDeviceEvent(s, id, dataType + "_update", Some(data), None, db)
      case Failure(e) => Failure(e)
      case Success((logged, _)) => Success(logged)
  }

  /** A snapshot keeps the table constraints: its rows name the device it
      was saved for, which exists. */
  lemma SaveSnapshotKeepsValid(store: Store, id: string, dataType: string, data: Object, db: Db)
    requires RecordStore.Valid(store)
    ensures SaveSnapshot(store, id, dataType, data, db).Success? ==>
      RecordStore.Valid(SaveSnapshot(store, id, dataType, data, db).value)
  {
    var r := SaveSnapshot(store, id, dataType, data, db);
    if r.Success? {
      var s := store;
      if dataType == "location" {
        var c := LocationColumns(data, db.now).value;
        SaveLocationKeepsValid(store, id, c.0, c.1, c.2, c.3, db);
        s := SaveLocation(store, id, c.0, c.1, c.2, c.3, db).value.0;
      }
      LogKeepsValid(s, id, dataType + "_update", Some(data), None, db);
    }
  }
}

=== FILE: store.dfy ===
/** The record store of backend/storage/database.py, as an in-memory value:
    the device table keyed by UUID and three append-only tables of camera
    frames, location fixes and events. Every call that takes a device id first
    parses it with `uuid.UUID`, which raises before the database is reached. */
module RecordStore {
  import opened Wrappers
  import opened Json
  import opened Uuid
  import opened Models
  import opened Ordering

  /** A row of the device table. */
  datatype Profile = Profile(
    id: Uuid,
    name: string,
    token: string,
    imei: Option<string>,
    model: Option<string>,
    manufacturer: Option<string>,
    androidVersion: Option<string>,
    sdk: Option<int>,
    createdAt: int,
    lastSeen: int,
    isActive: bool)

  /** The optional descriptive columns a caller may supply. */
  datatype DeviceAttrs = DeviceAttrs(
    imei: Option<string>,
    model: Option<string>,
    manufacturer: Option<string>,
    androidVersion: Option<string>,
    sdk: Option<int>)

  const NoAttrs := DeviceAttrs(None, None, None, None, None)

  /** The keyword arguments of `update_device`; `None` stands both for a
      keyword not passed and for one passed as None. */
  datatype DevicePatch = DevicePatch(name: Option<string>, token: Option<string>, attrs: DeviceAttrs)

  const NoChanges := DevicePatch(None, None, NoAttrs)

  datatype FrameRow = FrameRow(
    deviceId: Uuid, camera: string, data: Bytes, width: int, height: int, timestamp: int, createdAt: int)

  datatype LocationRow = LocationRow(
    deviceId: Uuid, lat: real, lon: real, accuracy: Option<real>, timestamp: int, createdAt: int)

  datatype EventRow = EventRow(
    deviceId: Uuid, eventType: string, eventData: Object, timestamp: int, createdAt: int)

  datatype Store = Store(
    devices: map<Uuid, Profile>,
    frames: seq<FrameRow>,
    locations: seq<LocationRow>,
    events: seq<EventRow>)

  const Empty := Store(map[], [], [], [])

  /** Why a store call raised: the id is not a UUID, the database is
      unreachable, a table constraint (primary key, unique token, foreign
      key, single result) refused the statement, or PostgreSQL refused a
      negative `LIMIT` or `OFFSET`. */
  datatype StoreError = BadUuid | Unavailable | Constraint | NegativeBound

  /** The database as a store call finds it: reachable or not, and the clock
      (milliseconds) used for `created_at`, `last_seen` and default timestamps. */
  datatype Db = Db(up: bool, now: int)

  predicate TokenFree(s: Store, token: string) {
    forall u :: u in s.devices ==> s.devices[u].token != token
  }

  /** The table constraints: each profile sits under its own id, tokens are
      unique, and every frame, location and event names a known device. */
  predicate Valid(s: Store) {
    && (forall u :: u in s.devices ==> s.devices[u].id == u)
    && (forall a, b :: a in s.devices && b in s.devices && s.devices[a].token == s.devices[b].token ==> a == b)
    && (forall i :: 0 <= i < |s.frames| ==> s.frames[i].deviceId in s.devices)
    && (forall i :: 0 <= i < |s.locations| ==> s.locations[i].deviceId in s.devices)
    && (forall i :: 0 <= i < |s.events| ==> s.events[i].deviceId in s.devices)
  }

  /** `uuid.UUID(device_id)`, then reaching the database. */
  function Open(deviceId: string, db: Db): (r: Result<Uuid, StoreError>)
    ensures r.Success? <==> Parse(deviceId).Some? && db.up
    ensures r.Success? ==> Parse(deviceId) == Some(r.value)
    ensures Parse(deviceId).None? ==> r == Failure(BadUuid)
  {
    match Parse(deviceId)
    case None => Failure(BadUuid)
    case Some(u) => if db.up then Success(u) else Failure(Unavailable)
  }

  // ---------------------------------------------------------------------------
  // Devices

  /** `create_device`: a new active profile whose creation and last-seen
      times are both now. */
  function CreateDevice(s: Store, deviceId: string, name: string, token: string, attrs: DeviceAttrs, db: Db)
    : (r: Result<(Store, Profile), StoreError>)
    ensures r.Success? <==> Parse(deviceId).Some? && db.up && Parse(deviceId).value !in s.devices && TokenFree(s, token)
    ensures r.Success? ==>
      var (s', p) := r.value;
      && Parse(deviceId) == Some(p.id)
      && s' == s.(devices := s.devices[p.id := p])
      && p.name == name && p.token == token
      && p.imei == attrs.imei && p.model == attrs.model && p.manufacturer == attrs.manufacturer
      && p.androidVersion == attrs.androidVersion && p.sdk == attrs.sdk
      && p.isActive && p.createdAt == db.now && p.lastSeen == db.now
  {
    match Open(deviceId, db)
    case Failure(e) => Failure(e)
    case Success(u) =>
      if u in s.devices || !TokenFree(s, token) then Failure(Constraint)
      else
        var p := Profile(u, name, token, attrs.imei, attrs.model, attrs.manufacturer,
                         attrs.androidVersion, attrs.sdk, db.now, db.now, true);
        Success((s.(devices := s.devices[u := p]), p))
  }

  /** `get_device` */
  function GetDevice(s: Store, deviceId: string, db: Db): (r: Result<Option<Profile>, StoreError>)
    ensures r.Success? <==> Parse(deviceId).Some? && db.up
    ensures r.Success? ==> (r.value.Some? <==> Parse(deviceId).value in s.devices)
    ensures r.Success? && r.value.Some? ==> r.value.value == s.devices[Parse(deviceId).value]
  {
    match Open(deviceId, db)
    case Failure(e) => Failure(e)
    case Success(u) => Success(if u in s.devices then Some(s.devices[u]) else None)
  }

  predicate HasToken(s: Store, token: string, u: Uuid) {
    u in s.devices && s.devices[u].token == token
  }

  /** `get_device_by_token`: `scalar_one_or_none` raises when two rows share
      the token, which the unique constraint rules out. */
  function GetDeviceByToken(s: Store, token: string, db: Db): (r: Result<Option<Profile>, StoreError>)
    ensures Valid(s) && db.up ==> r.Success?
    ensures r.Success? && r.value.None? ==> TokenFree(s, token)
    ensures r.Success? && r.value.Some? ==>
      r.value.value.token == token && exists u :: HasToken(s, token, u) && s.devices[u] == r.value.value
  {
    if !db.up then Failure(Unavailable)
    else if TokenFree(s, token) then Success(None)
    else if forall a, b :: a in s.devices && b in s.devices && s.devices[a].token == token && s.devices[b].token == token ==> a == b then
      var u :| u in s.devices && s.devices[u].token == token;
      Success(Some(s.devices[u]))
    else Failure(Constraint)
  }

  /** Overwrites the columns the patch supplies and refreshes `last_seen`. */
  function ApplyPatch(p: Profile, patch: DevicePatch, now: int): Profile {
    p.(name := patch.name.GetOr(p.name),
       token := patch.token.GetOr(p.token),
       imei := if patch.attrs.imei.Some? then patch.attrs.imei else p.imei,
       model := if patch.attrs.model.Some? then patch.attrs.model else p.model,
       manufacturer := if patch.attrs.manufacturer.Some? then patch.attrs.manufacturer else p.manufacturer,
       androidVersion := if patch.attrs.androidVersion.Some? then patch.attrs.androidVersion else p.androidVersion,
       sdk := if patch.attrs.sdk.Some? then patch.attrs.sdk else p.sdk,
       lastSeen := now)
  }

  /** `update_device`: None for an unknown id; otherwise only the supplied
      (non-None) columns change, and `last_seen` is refreshed even when
      nothing is supplied. A new token must still be unique. */
  function UpdateDevice(s: Store, deviceId: string, patch: DevicePatch, db: Db)
    : (r: Result<(Store, Option<Profile>), StoreError>)
    ensures r.Success? ==> Parse(deviceId).Some? && db.up
    ensures r.Success? && r.value.1.None? ==> r.value.0 == s && Parse(deviceId).value !in s.devices
    ensures r.Success? && r.value.1.Some? ==>
      var u := Parse(deviceId).value;
      u in s.devices &&
      var (was, p) := (s.devices[u], r.value.1.value);
      && r.value.0 == s.(devices := s.devices[u := p])
      && p.id == was.id && p.createdAt == was.createdAt && p.isActive == was.isActive
      && p.lastSeen == db.now
      && p.name == (if patch.name.Some? then patch.name.value else was.name)
      && p.token == (if patch.token.Some? then patch.token.value else was.token)
      && p.imei == (if patch.attrs.imei.Some? then patch.attrs.imei else was.imei)
      && p.model == (if patch.attrs.model.Some? then patch.attrs.model else was.model)
      && p.manufacturer == (if patch.attrs.manufacturer.Some? then patch.attrs.manufacturer else was.manufacturer)
      && p.androidVersion == (if patch.attrs.androidVersion.Some? then patch.attrs.androidVersion else was.androidVersion)
      && p.sdk == (if patch.attrs.sdk.Some? then patch.attrs.sdk else was.sdk)
    ensures Parse(deviceId).Some? && db.up && patch.token.None? ==> r.Success?
  {
    match Open(deviceId, db)
    case Failure(e) => Failure(e)
    case Success(u) =>
      if u !in s.devices then Success((s, None))
      else
        var p := ApplyPatch(s.devices[u], patch, db.now);
        if patch.token.Some? && exists v :: v in s.devices && v != u && s.devices[v].token == p.token then
          Failure(Constraint)
        else
          Success((s.(devices := s.devices[u := p]), Some(p)))
  }

  /** `list_devices` (the table has no row order). */
  function ListDevices(s: Store, db: Db): (r: Result<set<Profile>, StoreError>)
    ensures r.Success? <==> db.up
    ensures r.Success? ==> forall u :: u in s.devices ==> s.devices[u] in r.value
    ensures r.Success? ==> forall p :: p in r.value ==> exists u :: u in s.devices && s.devices[u] == p
  {
    if db.up then Success(s.devices.Values) else Failure(Unavailable)
  }

  // ---------------------------------------------------------------------------
  // Camera frames

  /** `save_camera_frame`: appends one row; its position is its id. */
  function SaveCameraFrame(s: Store, deviceId: string, camera: string, data: Bytes, width: int, height: int,
                           timestamp: int, db: Db): (r: Result<(Store, nat), StoreError>)
    ensures r.Success? <==> Parse(deviceId).Some? && db.up && Parse(deviceId).value in s.devices
    ensures r.Success? ==>
      && r.value.1 == |s.frames|
      && r.value.0 == s.(frames := s.frames + [FrameRow(Parse(deviceId).value, camera, data, width, height, timestamp, db.now)])
  {
    match Open(deviceId, db)
    case Failure(e) => Failure(e)
    case Success(u) =>
      if u !in s.devices then Failure(Constraint)
      else Success((s.(frames := s.frames + [FrameRow(u, camera, data, width, height, timestamp, db.now)]), |s.frames|))
  }

  function FrameTime(f: FrameRow): int { f.timestamp }

  /** `get_latest_frame`: the newest frame of that device and camera. */
  function GetLatestFrame(s: Store, deviceId: string, camera: string, db: Db): (r: Result<Option<FrameRow>, StoreError>)
    ensures r.Success? <==> Parse(deviceId).Some? && db.up
    ensures r.Success? && r.value.Some? ==>
      var f := r.value.value;
      && f in s.frames && f.deviceId == Parse(deviceId).value && f.camera == camera
      && forall i :: 0 <= i < |s.frames| && s.frames[i].deviceId == f.deviceId && s.frames[i].camera == camera
                     ==> s.frames[i].timestamp <= f.timestamp
    ensures r.Success? && r.value.None? ==>
      forall i :: 0 <= i < |s.frames| ==> !(s.frames[i].deviceId == Parse(deviceId).value && s.frames[i].camera == camera)
  {
    match Open(deviceId, db)
    case Failure(e) => Failure(e)
    case Success(u) =>
      Success(Newest(s.frames, (f: FrameRow) => f.deviceId == u && f.camera == camera, FrameTime))
  }

  /** `get_frame_history`: that device and camera's frames, newest first,
      after skipping `offset` of them, at most `limit`. */
  function GetFrameHistory(s: Store, deviceId: string, camera: string, db: Db, limit: int := 100, offset: int := 0)
    : (r: Result<seq<FrameRow>, StoreError>)
    ensures r.Success? <==> Parse(deviceId).Some? && db.up && limit >= 0 && offset >= 0
    ensures Parse(deviceId).Some? && db.up && (limit < 0 || offset < 0) ==> r == Failure(NegativeBound)
    ensures r.Success? ==>
      var u := Parse(deviceId).value;
      var n := |Filter(s.frames, (f: FrameRow) => f.deviceId == u && f.camera == camera)|;
      && (exists t :: OrderedMatches(t, s.frames, (f: FrameRow) => f.deviceId == u && f.camera == camera, FrameTime)
                      && r.value == Page(t, offset, limit))
      && SortedDesc(r.value, FrameTime)
      && (forall k :: 0 <= k < |r.value| ==> r.value[k] in s.frames && r.value[k].deviceId == u && r.value[k].camera == camera)
      && |r.value| == (if offset >= n then 0 else if n - offset < limit then n - offset else limit)
  {
    match Open(deviceId, db)
    case Failure(e) => Failure(e)
    case Success(u) =>
      if limit < 0 || offset < 0 then Failure(NegativeBound)
      else Success(Query(s.frames, (f: FrameRow) => f.deviceId == u && f.camera == camera, FrameTime, offset, limit))
  }

  /** `cleanup_old_frames`: retention is not implemented, every frame is kept. */
  function CleanupOldFrames(s: Store, deviceId: string, camera: string, keep: int): (r: Store)
    ensures r.frames == s.frames
  {
    s
  }

  // ---------------------------------------------------------------------------
  // Locations

  /** `save_location` */
  function SaveLocation(s: Store, deviceId: string, lat: real, lon: real, accuracy: Option<real>, timestamp: int, db: Db)
    : (r: Result<(Store, nat), StoreError>)
    ensures r.Success? <==> Parse(deviceId).Some? && db.up && Parse(deviceId).value in s.devices
    ensures r.Success? ==>
      && r.value.1 == |s.locations|
      && r.value.0 == s.(locations := s.locations + [LocationRow(Parse(deviceId).value, lat, lon, accuracy, timestamp, db.now)])
  {
    match Open(deviceId, db)
    case Failure(e) => Failure(e)
    case Success(u) =>
      if u !in s.devices then Failure(Constraint)
      else Success((s.(locations := s.locations + [LocationRow(u, lat, lon, accuracy, timestamp, db.now)]), |s.locations|))
  }

  function LocationTime(l: LocationRow): int { l.timestamp }

  /** `get_location_history`: one device's fixes, newest first, paged. */
  function GetLocationHistory(s: Store, deviceId: string, db: Db, limit: int := 100, offset: int := 0)
    : (r: Result<seq<LocationRow>, StoreError>)
    ensures r.Success? <==> Parse(deviceId).Some? && db.up && limit >= 0 && offset >= 0
    ensures Parse(deviceId).Some? && db.up && (limit < 0 || offset < 0) ==> r == Failure(NegativeBound)
    ensures r.Success? ==>
      var u := Parse(deviceId).value;
      var n := |Filter(s.locations, (l: LocationRow) => l.deviceId == u)|;
      && (exists t :: OrderedMatches(t, s.locations, (l: LocationRow) => l.deviceId == u, LocationTime)
                      && r.value == Page(t, offset, limit))
      && SortedDesc(r.value, LocationTime)
      && (forall k :: 0 <= k < |r.value| ==> r.value[k] in s.locations && r.value[k].deviceId == u)
      && |r.value| == (if offset >= n then 0 else if n - offset < limit then n - offset else limit)
  {
    match Open(deviceId, db)
    case Failure(e) => Failure(e)
    case Success(u) =>
      if limit < 0 || offset < 0 then Failure(NegativeBound)
      else Success(Query(s.locations, (l: LocationRow) => l.deviceId == u, LocationTime, offset, limit))
  }

  // ---------------------------------------------------------------------------
  // Events

  /** The stored timestamp of an event: a missing or zero one becomes now. */
  function StampOrNow(timestamp: Option<int>, now: int): (r: int)
    ensures timestamp.None? || timestamp == Some(0) ==> r == now
    ensures timestamp.Some? && timestamp != Some(0) ==> r == timestamp.value
  {
    if timestamp.None? || timestamp == Some(0) then now else timestamp.value
  }

  /** The stored payload of an event: missing data becomes the empty dict. */
  function DataOrEmpty(data: Option<Object>): (r: Object)
    ensures data.None? ==> r == map[]
    ensures data.Some? ==> r == data.value
  {
    if data.None? then map[] else data.value
  }

  /** `log_device_event`: a missing or zero timestamp becomes now, and
      missing (or empty) data is stored as the empty dict. */
  function LogDeviceEvent(s: Store, deviceId: string, eventType: string, data: Option<Object>,
                          timestamp: Option<int>, db: Db): (r: Result<(Store, nat), StoreError>)
    ensures r.Success? <==> Parse(deviceId).Some? && db.up && Parse(deviceId).value in s.devices
    ensures r.Success? ==> r.value.1 == |s.events|
    ensures r.Success? ==>
      r.value.0 == s.(events := s.events + [EventRow(Parse(deviceId).value, eventType, DataOrEmpty(data),
                                                       StampOrNow(timestamp, db.now), db.now)])
  {
    match Open(deviceId, db)
    case Failure(e) => Failure(e)
    case Success(u) =>
      if u !in s.devices then Failure(Constraint)
      else
        var row := EventRow(u, eventType, DataOrEmpty(data), StampOrNow(timestamp, db.now), db.now);
        Success((s.(events := s.events + [row]), |s.events|))
  }

  function EventTime(e: EventRow): int { e.timestamp }

  /** Whether the `event_type` argument filters: an empty string does not. */
  predicate TypeMatches(eventType: Option<string>, e: EventRow) {
    eventType.None? || eventType.value == "" || e.eventType == eventType.value
  }

  /** `get_device_events`: one device's events, restricted to one type only
      when a non-empty type is given, newest first, paged. */
  function GetDeviceEvents(s: Store, deviceId: string, eventType: Option<string>, db: Db, limit: int := 100,
                           offset: int := 0)
    : (r: Result<seq<EventRow>, StoreError>)
    ensures r.Success? <==> Parse(deviceId).Some? && db.up && limit >= 0 && offset >= 0
    ensures Parse(deviceId).Some? && db.up && (limit < 0 || offset < 0) ==> r == Failure(NegativeBound)
    ensures r.Success? ==>
      var u := Parse(deviceId).value;
      var n := |Filter(s.events, (e: EventRow) => e.deviceId == u && TypeMatches(eventType, e))|;
      && (exists t :: OrderedMatches(t, s.events, (e: EventRow) => e.deviceId == u && TypeMatches(eventType, e), EventTime)
                      && r.value == Page(t, offset, limit))
      && SortedDesc(r.value, EventTime)
      && (forall k :: 0 <= k < |r.value| ==> r.value[k] in s.events && r.value[k].deviceId == u)
      && (eventType.Some? && eventType.value != "" ==> forall k :: 0 <= k < |r.value| ==> r.value[k].eventType == eventType.value)
      && |r.value| == (if offset >= n then 0 else if n - offset < limit then n - offset else limit)
  {
    match Open(deviceId, db)
    case Failure(e) => Failure(e)
    case Success(u) =>
      if limit < 0 || offset < 0 then Failure(NegativeBound)
      else Success(Query(s.events, (e: EventRow) => e.deviceId == u && TypeMatches(eventType, e), EventTime, offset, limit))
  }

  /** Called without `limit` and `offset`, `get_frame_history` answers the
      newest 100 matches: no more than 100, and all of them when there are
      fewer. */
  lemma DefaultFramePage(s: Store, deviceId: string, camera: string, db: Db)
    requires Parse(deviceId).Some? && db.up
    ensures var u := Parse(deviceId).value;
      var r := GetFrameHistory(s, deviceId, camera, db);
      var n := |Filter(s.frames, (f: FrameRow) => f.deviceId == u && f.camera == camera)|;
      r.Success? && |r.value| == (if n < 100 then n else 100)
  {
  }

  /** The same defaults for `get_location_history`. */
  lemma DefaultLocationPage(s: Store, deviceId: string, db: Db)
    requires Parse(deviceId).Some? && db.up
    ensures var u := Parse(deviceId).value;
      var r := GetLocationHistory(s, deviceId, db);
      var n := |Filter(s.locations, (l: LocationRow) => l.deviceId == u)|;
      r.Success? && |r.value| == (if n < 100 then n else 100)
  {
  }

  /** The same defaults for `get_device_events` without a type filter. */
  lemma DefaultEventPage(s: Store, deviceId: string, db: Db)
    requires Parse(deviceId).Some? && db.up
    ensures var u := Parse(deviceId).value;
      var r := GetDeviceEvents(s, deviceId, None, db);
      var n := |Filter(s.events, (e: EventRow) => e.deviceId == u && TypeMatches(None, e))|;
      r.Success? && |r.value| == (if n < 100 then n else 100)
  {
  }

  // ---------------------------------------------------------------------------
  // The constraints hold after every write

  /** Storing a profile under its own id, with a token no other device
      holds, keeps the constraints. */
  lemma PutProfileKeepsValid(s: Store, p: Profile)
    requires Valid(s)
    requires forall v :: v in s.devices && v != p.id ==> s.devices[v].token != p.token
    ensures Valid(s.(devices := s.devices[p.id := p]))
  {
    var t := s.(devices := s.devices[p.id := p]);
    forall a, b | a in t.devices && b in t.devices && t.devices[a].token == t.devices[b].token
      ensures a == b
    {
      if a != p.id && b != p.id {
        assert s.devices[a].token == s.devices[b].token;
      }
    }
  }

  lemma CreateKeepsValid(s: Store, deviceId: string, name: string, token: string, attrs: DeviceAttrs, db: Db)
    ensures Valid(s) && CreateDevice(s, deviceId, name, token, attrs, db).Success? ==>
      Valid(CreateDevice(s, deviceId, name, token, attrs, db).value.0)
  {
    var r := CreateDevice(s, deviceId, name, token, attrs, db);
    if Valid(s) && r.Success? {
      PutProfileKeepsValid(s, r.value.1);
    }
  }

  lemma UpdateKeepsValid(s: Store, deviceId: string, patch: DevicePatch, db: Db)
    ensures Valid(s) && UpdateDevice(s, deviceId, patch, db).Success? ==> Valid(UpdateDevice(s, deviceId, patch, db).value.0)
  {
    var r := UpdateDevice(s, deviceId, patch, db);
    if Valid(s) && r.Success? && r.value.1.Some? {
      var u := Parse(deviceId).value;
      var p := r.value.1.value;
      assert p.id == u;
      if patch.token.None? {
        forall v | v in s.devices && v != u ensures s.devices[v].token != p.token {
          assert s.devices[u].token == p.token;
        }
      }
      PutProfileKeepsValid(s, p);
    }
  }

  lemma SaveFrameKeepsValid(s: Store, deviceId: string, camera: string, data: Bytes, width: int, height: int,
                            timestamp: int, db: Db)
    ensures Valid(s) && SaveCameraFrame(s, deviceId, camera, data, width, height, timestamp, db).Success? ==>
      Valid(SaveCameraFrame(s, deviceId, camera, data, width, height, timestamp, db).value.0)
  {
    var r := SaveCameraFrame(s, deviceId, camera, data, width, height, timestamp, db);
    if Valid(s) && r.Success? {
      AppendFrameKeepsValid(s, FrameRow(Parse(deviceId).value, camera, data, width, height, timestamp, db.now));
    }
  }

  lemma AppendFrameKeepsValid(s: Store, row: FrameRow)
    requires Valid(s) && row.deviceId in s.devices
    ensures Valid(s.(frames := s.frames + [row]))
  {
    var rows := s.frames + [row];
    forall i | 0 <= i < |rows| ensures rows[i].deviceId in s.devices {
      if i < |s.frames| {
        assert rows[i] == s.frames[i];
      }
    }
  }

  lemma SaveLocationKeepsValid(s: Store, deviceId: string, lat: real, lon: real, accuracy: Option<real>,
                               timestamp: int, db: Db)
    ensures Valid(s) && SaveLocation(s, deviceId, lat, lon, accuracy, timestamp, db).Success? ==>
      Valid(SaveLocation(s, deviceId, lat, lon, accuracy, timestamp, db).value.0)
  {
    var r := SaveLocation(s, deviceId, lat, lon, accuracy, timestamp, db);
    if Valid(s) && r.Success? {
      AppendLocationKeepsValid(s, LocationRow(Parse(deviceId).value, lat, lon, accuracy, timestamp, db.now));
    }
  }

  lemma AppendLocationKeepsValid(s: Store, row: LocationRow)
    requires Valid(s) && row.deviceId in s.devices
    ensures Valid(s.(locations := s.locations + [row]))
  {
    var rows := s.locations + [row];
    forall i | 0 <= i < |rows| ensures rows[i].deviceId in s.devices {
      if i < |s.locations| {
        assert rows[i] == s.locations[i];
      }
    }
  }

  lemma LogKeepsValid(s: Store, deviceId: string, eventType: string, data: Option<Object>, timestamp: Option<int>, db: Db)
    ensures Valid(s) && LogDeviceEvent(s, deviceId, eventType, data, timestamp, db).Success? ==>
      Valid(LogDeviceEvent(s, deviceId, eventType, data, timestamp, db).value.0)
  {
    var r := LogDeviceEvent(s, deviceId, eventType, data, timestamp, db);
    if Valid(s) && r.Success? {
      AppendEventKeepsValid(s, EventRow(Parse(deviceId).value, eventType, DataOrEmpty(data),
                                        StampOrNow(timestamp, db.now), db.now));
    }
  }

  lemma AppendEventKeepsValid(s: Store, row: EventRow)
    requires Valid(s) && row.deviceId in s.devices
    ensures Valid(s.(events := s.events + [row]))
  {
    var rows := s.events + [row];
    forall i | 0 <= i < |rows| ensures rows[i].deviceId in s.devices {
      if i < |s.events| {
        assert rows[i] == s.events[i];
      }
    }
  }

  /** A frame just saved is what `get_latest_frame` returns when no other
      frame of that device and camera is newer. */
  lemma SavedFrameIsLatest(s: Store, deviceId: string, camera: string, data: Bytes, width: int, height: int,
                           timestamp: int, db: Db)
    requires SaveCameraFrame(s, deviceId, camera, data, width, height, timestamp, db).Success?
    requires forall i :: 0 <= i < |s.frames| && s.frames[i].deviceId == Parse(deviceId).value && s.frames[i].camera == camera
                         ==> s.frames[i].timestamp < timestamp
    ensures var s' := SaveCameraFrame(s, deviceId, camera, data, width, height, timestamp, db).value.0;
      GetLatestFrame(s', deviceId, camera, db)
        == Success(Some(FrameRow(Parse(deviceId).value, camera, data, width, height, timestamp, db.now)))
  {
    var s' := SaveCameraFrame(s, deviceId, camera, data, width, height, timestamp, db).value.0;
    var row := FrameRow(Parse(deviceId).value, camera, data, width, height, timestamp, db.now);
    LatestOfAppended(s', deviceId, camera, db, s.frames, row);
  }

  /** The latest-frame query over frames that end with a row newer than every
      earlier row of its device and camera answers that row. */
  lemma LatestOfAppended(s': Store, deviceId: string, camera: string, db: Db, rows: seq<FrameRow>, row: FrameRow)
    requires Parse(deviceId).Some? && db.up
    requires s'.frames == rows + [row] && row.deviceId == Parse(deviceId).value && row.camera == camera
    requires forall i :: 0 <= i < |rows| && rows[i].deviceId == row.deviceId && rows[i].camera == row.camera
                         ==> rows[i].timestamp < row.timestamp
    ensures GetLatestFrame(s', deviceId, camera, db) == Success(Some(row))
  {
    var r := GetLatestFrame(s', deviceId, camera, db);
    assert s'.frames[|rows|] == row;
    assert r.Success? && r.value.Some?;
    OnlyNewRowIsNewest(rows, row, r.value.value);
  }

  /** A row appended with a timestamp above every earlier row of its device
      and camera is the only row of them with the greatest timestamp. */
  lemma OnlyNewRowIsNewest(rows: seq<FrameRow>, row: FrameRow, f: FrameRow)
    requires forall i :: 0 <= i < |rows| && rows[i].deviceId == row.deviceId && rows[i].camera == row.camera
                         ==> rows[i].timestamp < row.timestamp
    requires f in rows + [row] && f.deviceId == row.deviceId && f.camera == row.camera && row.timestamp <= f.timestamp
    ensures f == row
  {
    var k :| 0 <= k < |rows + [row]| && (rows + [row])[k] == f;
    if k < |rows| {
      assert false;
    }
  }
}

=== FILE: text.dfy ===
/** The handful of Python `str` operations the backend relies on:
    `startswith`, `replace(p, "")`, `strip()` / `strip(chars)` and `lower()`. */
module Text {

  /** `s.startswith(p)` */
  predicate StartsWith(s: string, p: string) {
    |p| <= |s| && s[..|p|] == p
  }

  /** `p` occurs in `s` starting at index `i`. */
  predicate OccursAt(s: string, p: string, i: nat) {
    i + |p| <= |s| && s[i..i + |p|] == p
  }

  /** `s.replace(p, "")`: a single left-to-right scan that deletes every
      non-overlapping occurrence of `p`. */
  function RemoveAll(s: string, p: string): (r: string)
    requires p != ""
    ensures |r| <= |s|
    decreases |s|
  {
    if |s| < |p| then s
    else if s[..|p|] == p then RemoveAll(s[|p|..], p)
    else [s[0]] + RemoveAll(s[1..], p)
  }

  /** `n` is a whole number of `m`-long pieces. */
  predicate MultipleOf(n: int, m: int)
    decreases if n < 0 then 0 else n
  {
    n == 0 || (0 < m <= n && MultipleOf(n - m, m))
  }

  /** Deleting removes whole copies of the pattern. */
  lemma {:induction false} RemoveAllWholeCopies(s: string, p: string)
    requires p != ""
    ensures MultipleOf(|s| - |RemoveAll(s, p)|, |p|)
    decreases |s|
  {
    if |s| < |p| {
    } else if s[..|p|] == p {
      RemoveAllWholeCopies(s[|p|..], p);
    } else {
      RemoveAllWholeCopies(s[1..], p);
    }
  }

  /** Deleting adds no character, and every character outside the pattern
      survives as often as it occurs. */
  lemma {:induction false} RemoveAllDeletesOnlyPattern(s: string, p: string)
    requires p != ""
    ensures multiset(RemoveAll(s, p)) <= multiset(s)
    ensures forall c :: c !in p ==> multiset(RemoveAll(s, p))[c] == multiset(s)[c]
    decreases |s|
  {
    if |s| < |p| {
    } else if s[..|p|] == p {
      var rest := s[|p|..];
      RemoveAllDeletesOnlyPattern(rest, p);
      assert s == p + rest;
      assert multiset(s) == multiset(p) + multiset(rest);
      assert RemoveAll(s, p) == RemoveAll(rest, p);
      forall c | c !in p ensures multiset(RemoveAll(s, p))[c] == multiset(s)[c] {
        assert multiset(p)[c] == 0;
      }
    } else {
      var rest := s[1..];
      RemoveAllDeletesOnlyPattern(rest, p);
      assert s == [s[0]] + rest;
      assert multiset(s) == multiset{s[0]} + multiset(rest);
      assert multiset(RemoveAll(s, p)) == multiset{s[0]} + multiset(RemoveAll(rest, p));
    }
  }

  /** A string that lacks one of the pattern's characters is left untouched. */
  lemma {:induction false} RemoveAllAbsent(s: string, p: string, c: char)
    requires p != "" && c in p && c !in s
    ensures RemoveAll(s, p) == s
    decreases |s|
  {
    if |s| < |p| {
    } else if s[..|p|] == p {
      assert false;
    } else {
      RemoveAllAbsent(s[1..], p, c);
      assert [s[0]] + s[1..] == s;
    }
  }

  /** Deleting a one-character pattern distributes over concatenation. */
  lemma {:induction false} RemoveAllCharConcat(x: string, y: string, c: char)
    ensures RemoveAll(x + y, [c]) == RemoveAll(x, [c]) + RemoveAll(y, [c])
    decreases |x|
  {
    if x == [] {
      assert x + y == y;
    } else {
      assert (x + y)[1..] == x[1..] + y;
      assert (x + y)[..1] == [x[0]];
      assert x[..1] == [x[0]];
      RemoveAllCharConcat(x[1..], y, c);
      if x[0] == c {
        assert (x + y)[1..] == x[1..] + y;
      } else {
        assert [x[0]] + RemoveAll(x[1..], [c]) + RemoveAll(y, [c])
            == [x[0]] + (RemoveAll(x[1..], [c]) + RemoveAll(y, [c]));
      }
    }
  }

  /** A leading occurrence of the pattern is deleted and the scan resumes after it. */
  lemma RemoveAllLeading(p: string, t: string)
    requires p != ""
    ensures RemoveAll(p + t, p) == RemoveAll(t, p)
  {
    assert (p + t)[..|p|] == p;
    assert (p + t)[|p|..] == t;
  }

  /** The characters `str.isspace()` accepts: the ASCII controls TAB..CR and
      FS..US, SPACE, NEL, NO-BREAK SPACE and the Unicode space separators. */
  const Whitespace: set<char> :=
    {'\t', '\n', '\U{000B}', '\U{000C}', '\r', '\U{001C}', '\U{001D}', '\U{001E}',
     '\U{001F}', ' ', '\U{0085}', '\U{00A0}', '\U{1680}', '\U{2000}', '\U{2001}', '\U{2002}',
     '\U{2003}', '\U{2004}', '\U{2005}', '\U{2006}', '\U{2007}', '\U{2008}', '\U{2009}', '\U{200A}',
     '\U{2028}', '\U{2029}', '\U{202F}', '\U{205F}', '\U{3000}'}

  /** Drops the longest prefix made of characters in `cs`. */
  function TrimStart(s: string, cs: set<char>): (r: string)
    ensures |r| <= |s| && r == s[|s| - |r|..]
    ensures r == [] || r[0] !in cs
    decreases |s|
  {
    if s != [] && s[0] in cs then TrimStart(s[1..], cs) else s
  }

  /** Drops the longest suffix made of characters in `cs`. */
  function TrimEnd(s: string, cs: set<char>): (r: string)
    ensures |r| <= |s| && r == s[..|r|]
    ensures r == [] || r[|r| - 1] !in cs
    decreases |s|
  {
    if s != [] && s[|s| - 1] in cs then TrimEnd(s[..|s| - 1], cs) else s
  }

  /** `s.strip(chars)` */
  function StripChars(s: string, cs: set<char>): (r: string)
    ensures r == [] || (r[0] !in cs && r[|r| - 1] !in cs)
    ensures |r| <= |s|
  {
    TrimEnd(TrimStart(s, cs), cs)
  }

  /** `s.strip()` */
  function Strip(s: string): string {
    StripChars(s, Whitespace)
  }

  /** A string with no stripped character at either end is its own strip. */
  lemma StripCharsFixed(s: string, cs: set<char>)
    requires s == [] || (s[0] !in cs && s[|s| - 1] !in cs)
    ensures StripChars(s, cs) == s
  {
  }

  /** Lower-cases the ASCII letters and leaves every other character alone. */
  function LowerChar(c: char): (r: char)
    ensures 'A' <= c <= 'Z' ==> r as int == c as int + 32
    ensures !('A' <= c <= 'Z') ==> r == c
  {
    if 'A' <= c <= 'Z' then (c as int + 32) as char else c
  }

  /** `s.lower()` on the ASCII letters. */
  function Lower(s: string): (r: string)
    ensures |r| == |s|
    ensures forall i :: 0 <= i < |s| ==> r[i] == LowerChar(s[i])
  {
    seq(|s|, i requires 0 <= i < |s| => LowerChar(s[i]))
  }

  /** `s.split(c)`: the pieces between occurrences of `c`, empty pieces
      included; there is always at least one. */
  function Split(s: string, c: char): (r: seq<string>)
    ensures |r| >= 1
    ensures forall i :: 0 <= i < |r| ==> c !in r[i]
    ensures c !in s ==> r == [s]
    ensures c in s ==> |r| >= 2
    decreases |s|
  {
    if s == [] then [""]
    else
      var rest := Split(s[1..], c);
      if s[0] == c then [""] + rest
      else
        assert c !in s ==> rest == [s[1..]] && [s[0]] + s[1..] == s;
        [[s[0]] + rest[0]] + rest[1..]
  }

  /** `c.join(parts)` */
  function Join(parts: seq<string>, c: char): string
    requires |parts| >= 1
    decreases |parts|
  {
    if |parts| == 1 then parts[0] else parts[0] + [c] + Join(parts[1..], c)
  }

  /** Splitting loses nothing: joining the pieces gives the string back. */
  lemma {:induction false} JoinSplit(s: string, c: char)
    ensures Join(Split(s, c), c) == s
    decreases |s|
  {
    if s != [] {
      var rest := Split(s[1..], c);
      JoinSplit(s[1..], c);
      if s[0] == c {
        assert Split(s, c)[1..] == rest;
        assert s == [c] + s[1..];
      } else {
        var parts := Split(s, c);
        assert parts[0] == [s[0]] + rest[0];
        assert parts[1..] == rest[1..];
        if |rest| == 1 {
          assert s == [s[0]] + s[1..];
        } else {
          assert Join(rest, c) == rest[0] + [c] + Join(rest[1..], c);
          assert s == [s[0]] + s[1..];
        }
      }
    }
  }

  /** Splitting two comma-free pieces joined by one separator gives them back. */
  lemma SplitJoinedPair(a: string, b: string, c: char)
    requires c !in a && c !in b
    ensures Split(a + [c] + b, c) == [a, b]
    decreases |a|
  {
    if a == [] {
      assert [c] + b == a + [c] + b;
      assert ([c] + b)[1..] == b;
    } else {
      assert (a + [c] + b)[1..] == a[1..] + [c] + b;
      SplitJoinedPair(a[1..], b, c);
      assert [a[0]] + a[1..] == a;
    }
  }
}

=== FILE: uuid.dfy ===
/** Python's `uuid.UUID(str)` parser and `str(uuid)` printer. The record store
    keys every row by a parsed UUID, so every store call with a device id
    parses it first. */
module Uuid {
  import opened Wrappers
  import opened Text

  predicate IsHexDigit(c: char) {
    '0' <= c <= '9' || 'a' <= c <= 'f' || 'A' <= c <= 'F'
  }

  predicate IsLowerHex(c: char) {
    '0' <= c <= '9' || 'a' <= c <= 'f'
  }

  /** A 128-bit UUID as its 32 lower-case hexadecimal digits. */
  type Uuid = s: string | |s| == 32 && forall i :: 0 <= i < |s| ==> IsLowerHex(s[i])
    witness "00000000000000000000000000000000"

  /** The digits `uuid.UUID(s)` is left with: every `urn:` and then every
      `uuid:` deleted, braces stripped from both ends, every hyphen deleted. */
  function Digits(s: string): string {
    RemoveAll(StripChars(RemoveAll(RemoveAll(s, "urn:"), "uuid:"), {'{', '}'}), "-")
  }

  predicate AllHex(h: string) {
    forall i :: 0 <= i < |h| ==> IsHexDigit(h[i])
  }

  /** `uuid.UUID(s)`: the digits must be exactly 32 hexadecimal digits, in
      either case; the UUID is their value. */
  function Parse(s: string): (r: Option<Uuid>)
    ensures r.Some? ==> |s| >= 32
  {
    var h := Digits(s);
    if |h| == 32 && AllHex(h) then Some(Lower(h)) else None
  }

  /** `str(u)`: the 8-4-4-4-12 hyphenated lower-case form. */
  function ToString(u: Uuid): (r: string)
    ensures |r| == 36
    ensures r[8] == '-' && r[13] == '-' && r[18] == '-' && r[23] == '-'
  {
    u[..8] + "-" + u[8..12] + "-" + u[12..16] + "-" + u[16..20] + "-" + u[20..]
  }

  /** Text without colons and without braces at its ends only loses hyphens. */
  lemma DigitsOfPlain(t: string)
    requires ':' !in t
    requires t == [] || (t[0] !in {'{', '}'} && t[|t| - 1] !in {'{', '}'})
    ensures Digits(t) == RemoveAll(t, "-")
  {
    UnwrapPlain(t);
  }

  /** Without a colon, neither `urn:` nor `uuid:` occurs, and without braces
      at the ends nothing is stripped. */
  lemma UnwrapPlain(t: string)
    requires ':' !in t
    requires t == [] || (t[0] !in {'{', '}'} && t[|t| - 1] !in {'{', '}'})
    ensures StripChars(RemoveAll(RemoveAll(t, "urn:"), "uuid:"), {'{', '}'}) == t
  {
    PrefixesAbsent(t);
    BracesFixed(RemoveAll(RemoveAll(t, "urn:"), "uuid:"), t);
  }

  lemma PrefixesAbsent(t: string)
    requires ':' !in t
    ensures RemoveAll(RemoveAll(t, "urn:"), "uuid:") == t
  {
    RemoveAllAbsent(t, "urn:", ':');
    RemoveAllAbsent(t, "uuid:", ':');
  }

  lemma BracesFixed(x: string, t: string)
    requires x == t
    requires t == [] || (t[0] !in {'{', '}'} && t[|t| - 1] !in {'{', '}'})
    ensures StripChars(x, {'{', '}'}) == t
  {
    StripCharsFixed(t, {'{', '}'});
  }

  /** The printed form is lower-case hex digits and hyphens, starting and
      ending with a digit. */
  lemma ToStringAlphabet(u: Uuid)
    ensures ':' !in ToString(u)
    ensures ToString(u)[0] == u[0] && ToString(u)[35] == u[31]
  {
    var t := ToString(u);
    forall i | 0 <= i < |t| ensures t[i] != ':' {
      if i < 8 { assert t[i] == u[i]; }
      else if 8 < i < 13 { assert t[i] == u[i - 1]; }
      else if 13 < i < 18 { assert t[i] == u[i - 2]; }
      else if 18 < i < 23 { assert t[i] == u[i - 3]; }
      else if 23 < i { assert t[i] == u[i - 4]; }
    }
  }

  /** Deleting hyphens around one joining hyphen. */
  lemma JoinDash(a: string, b: string)
    ensures RemoveAll(a + "-" + b, "-") == RemoveAll(a, "-") + RemoveAll(b, "-")
  {
    RemoveAllCharConcat(a + "-", b, '-');
    RemoveAllCharConcat(a, "-", '-');
    assert RemoveAll("-", "-") == "";
  }

  /** Joining hyphen-free pieces with hyphens and deleting the hyphens gives
      the pieces back, concatenated. */
  lemma {:induction false} JoinDashes(p0: string, p1: string, p2: string, p3: string, p4: string)
    requires '-' !in p0 && '-' !in p1 && '-' !in p2 && '-' !in p3 && '-' !in p4
    ensures RemoveAll(p0 + "-" + p1 + "-" + p2 + "-" + p3 + "-" + p4, "-") == p0 + p1 + p2 + p3 + p4
  {
    RemoveAllAbsent(p0, "-", '-');
    RemoveAllAbsent(p1, "-", '-');
    RemoveAllAbsent(p2, "-", '-');
    RemoveAllAbsent(p3, "-", '-');
    RemoveAllAbsent(p4, "-", '-');
    var a1 := p0 + "-" + p1;
    var a2 := a1 + "-" + p2;
    var a3 := a2 + "-" + p3;
    JoinDash(p0, p1);
    JoinDash(a1, p2);
    JoinDash(a2, p3);
    JoinDash(a3, p4);
  }

  lemma {:induction false} HyphensOfToString(u: Uuid)
    ensures RemoveAll(ToString(u), "-") == u
  {
    var p0, p1, p2, p3, p4 := u[..8], u[8..12], u[12..16], u[16..20], u[20..];
    assert '-' !in u;
    JoinDashes(p0, p1, p2, p3, p4);
    assert p0 + p1 + p2 + p3 + p4 == u;
  }

  lemma LowerOfUuid(u: Uuid)
    ensures Lower(u) == u
  {
  }

  /** Printing a UUID and parsing the text back yields the same UUID. */
  lemma ParseToString(u: Uuid)
    ensures Parse(ToString(u)) == Some(u)
  {
    var t := ToString(u);
    ToStringAlphabet(u);
    DigitsOfPlain(t);
    HyphensOfToString(u);
    LowerOfUuid(u);
  }

  /** Bare 32-digit text is a UUID in either case; it names the UUID of its
      lower-cased digits. */
  lemma ParseBareDigits(s: string)
    requires |s| == 32 && AllHex(s)
    ensures Parse(s) == Some(Lower(s))
  {
    assert ':' !in s && '-' !in s;
    DigitsOfPlain(s);
    RemoveAllAbsent(s, "-", '-');
  }
}

=== FILE: wrappers.dfy ===
/** Failure-compatible wrappers used across the model: an optional value and a
    value-or-error result. */
module Wrappers {

  datatype Option<+T> = None | Some(value: T) {

    /** The contained value, or `default` when there is none. */
    function GetOr(default: T): T {
      match this
      case Some(v) => v
      case None => default
    }
  }

  datatype Result<+T, +E> = Success(value: T) | Failure(error: E) {

    predicate IsFailure() {
      Failure?
    }

    function PropagateFailure<U>(): Result<U, E>
      requires Failure?
    {
      Failure(error)
    }

    function Extract(): T
      requires Success?
    {
      value
    }
  }
}
